=== FILE: README.md ===
# ckbes core in Dafny

A Dafny model of the core of `ckbes`, a `no_std` Rust toolkit for CKB-VM
scripts. The model covers three parts:

- **The molecule container codec** (`src/molecule.rs`):
  - the `seq`, `fixvec` and `dynvec` encoders and decoders;
  - the fixed-width little-endian scalars `Byte`, `Byte32`, `U32`, `U64` and `U128`;
  - the length-prefixed blob `Bytes`.
- **The buddy allocator** (`src/balloc.rs`):
  - a 1 MiB arena of 64-byte minimum blocks with orders 0 to 14;
  - one intrusive free list per order, where each free block stores the offset of the next in its first word and `usize::MAX` ends the list;
  - `alloc`, `close`, `state` and `merge`;
  - the `log2` and `clp2` helpers;
  - the size-to-order translation of the `GlobalAlloc` adapter.
- **The chain records** (`src/conversion.rs`): `Script`, `OutPoint`,
  `CellInput`, `CellOutput`, `CellDep`, `RawTransaction`, `Transaction`,
  `WitnessArgs`, `RawHeader`, `Header`, `UncleBlock`, `Block`, `BlockV1` and
  `CellbaseWitness`. Each is modelled as a datatype with its
  `molecule` / `molecule_decode` pair built on the codec.

Every `assert!`, out-of-range slice, index past the decoded list and
`unreachable!()` of the source is a decode or lookup failure, modelled as
`None` of `Options.Option`. A `x as u32` cast is reduction modulo 2^32
(`WORD`), and `usize` is 64 bits wide.

## Modules

| file | module | models |
|---|---|---|
| options.dfy | `Options` | `Option` with the `:-` failure propagation the decoders use |
| arith.dfy | `Arith` | small facts about `*`, `/` and `%` |
| little_endian.dfy | `LittleEndian` | bytes, little-endian words, `u32::to_le_bytes` / `from_le_bytes` |
| molecule.dfy | `Molecule` | the containers, `Bytes` and the scalars |
| records.dfy | `Records` | list helpers, optional fields, and the records `Script`, `OutPoint`, `CellInput`, `CellOutput`, `CellDep`, `WitnessArgs` and `CellbaseWitness` |
| transactions.dfy | `Transactions` | `RawTransaction` and `Transaction` |
| blocks.dfy | `Blocks` | `RawHeader`, `Header`, `UncleBlock`, `Block` and `BlockV1` |
| buddy.dfy | `Buddy` | the allocator over abstract free lists (`seq<seq<nat>>`) and its layout invariant |
| freelist.dfy | `FreeList` | the allocator over list heads plus a map from offsets to the words stored in blocks, proved to refine `Buddy` |
| adapter.dfy | `Adapter` | `clp2`, the order of a size, and `GlobalAlloc::alloc` / `dealloc` |

The allocator is modelled at two levels.

- **`Buddy`** works on the free lists as sequences, head first.
  - `Inv` is the layout invariant: every free block is aligned to its size, lies inside the arena, appears once, and overlaps no other free block.
  - `Live` says a block lies inside the arena and clear of every free block; this holds for a block that has been handed out.
  - `FreeBytes` counts the bytes on the lists.
- **`FreeList`** has methods that walk the words the way the Rust loops do.
  - `Repr` ties that word-level state to the abstract lists.
  - Each method is proved to act on the words as the matching `Buddy` function acts on the lists.

## Model

| member | source | states |
|---|---|---|
| Molecule.EncodeSeq | src/molecule.rs:69-75 | the output is the fields back to back: its length is the sum of theirs, and field i sits at the offset given by the lengths of the fields before it |
| Molecule.DecodeSeq | src/molecule.rs:33-41 | succeeds exactly when the data holds at least the sum of the sizes; the slices have the given sizes and concatenate to that prefix of the data, so trailing bytes are ignored |
| Molecule.SeqRoundTrip | src/molecule.rs:33-75 | decoding an encoded seq with its fields' own lengths gives back the fields |
| Molecule.EncodeFixvec | src/molecule.rs:60-67 | the output is a 4-byte count word (modulo 2^32) followed by the concatenated items |
| Molecule.DecodeFixvec | src/molecule.rs:20-31 | fails only on fewer than 4 bytes; a count of 0 gives no items whatever follows; otherwise it gives `count` items of `(len-4)/count` bytes each, concatenating to a prefix of the body, so remainder bytes are dropped |
| Molecule.FixvecRoundTrip | src/molecule.rs:20-67 | items of one common width, fewer than 2^32 of them, round-trip; zero items included |
| Molecule.EncodeDynvec | src/molecule.rs:43-58 | the output is the total-length word, then an offset table of 4 bytes per item, then the concatenated items; its length is `4 + 4n + Σ|item|` |
| Molecule.OffsetTableEntry | src/molecule.rs:48-54 | offset word i of the table is `head_size + Σ_{j<i}|item_j|` modulo 2^32 |
| Molecule.DynvecOffsets | src/molecule.rs:43-58 | in an encoded dynvec, the word at `4 + 4i` is `4 + 4n + Σ_{j<i}|item_j|` modulo 2^32 |
| Molecule.DynvecExample | src/molecule.rs:43-58 | `[[AA],[BB,BB]]` encodes to `0F000000 0C000000 0D000000 AA BB BB` (15 bytes) and decodes back |
| Molecule.DecodeDynvec | src/molecule.rs:4-18 | succeeds exactly when the buffer has at least 8 bytes, the length word equals the buffer length, the first offset is at least 4, and the `first/4 - 1` offsets fit in the buffer and ascend, closed by the buffer length; it fails on 4 bytes or fewer; on success item i is `data[head[i]..head[i+1]]`, and the items concatenate to `data[first..]` |
| Molecule.ConcatSlices | src/molecule.rs:13-16 | the items between ascending heads concatenate to the buffer from the first head to the last |
| Molecule.DynvecRoundTrip | src/molecule.rs:4-58 | a non-empty item list whose encoding is shorter than 2^32 bytes round-trips, with empty items (the encoding of `None`) kept |
| Molecule.DynvecSlice | src/molecule.rs:9-16 | reading an encoded dynvec, the slice between heads i and i+1 is exactly item i |
| Molecule.ShortHeaderDecodesEmpty | src/molecule.rs:4-18 | a buffer of 8 or more bytes with a correct length word and a first offset of 4 to 7 decodes as no items, whatever follows |
| Molecule.EmptyDynvecEncoding | src/molecule.rs:43-58 | the empty list encodes to `[4,0,0,0]` |
| Molecule.EmptyDynvecRejected | src/molecule.rs:4-7 | that 4-byte encoding does not decode, because the first offset is read from bytes 4..8 regardless |
| Molecule.DecodeDynvecChecked | src/molecule.rs:4-18 | corrected reader: any buffer it accepts carries its own length in the first word and holds the offset table, and it agrees with `DecodeDynvec` wherever that one succeeds |
| Molecule.DynvecCheckedRoundTrip | src/molecule.rs:4-58 | with the corrected reader every list whose encoding fits 2^32 bytes round-trips, the empty list included |
| Molecule.EncodeBytes | src/molecule.rs:134-139 | the blob is a length word (modulo 2^32) followed by the bytes, `4 + |data|` in all |
| Molecule.DecodeBytes | src/molecule.rs:141-146 | succeeds exactly when there are at least 4 bytes and the length word equals `len-4`; the result re-encodes to the input |
| Molecule.BytesRoundTrip | src/molecule.rs:134-146 | blobs shorter than 2^32 bytes round-trip |
| Molecule.EncodeByte | src/molecule.rs:86-88 | one byte whose little-endian value is the byte |
| Molecule.DecodeByte | src/molecule.rs:90-93 | succeeds exactly on 1 byte, and the result re-encodes to the input |
| Molecule.EncodeByte32 | src/molecule.rs:109-111 | the encoding is the 32 hash bytes as they are, byte i of the output being byte i of the hash |
| Molecule.DecodeByte32 | src/molecule.rs:113-118 | succeeds exactly on 32 bytes; byte i of the hash is byte i of the input, and the result re-encodes to the input |
| Molecule.ByteRoundTrip | src/molecule.rs:86-118 | `Byte` and `Byte32` round-trip |
| Molecule.EncodeU32 | src/molecule.rs:158-169 | the encoding is the `molecule_size` = 4 little-endian bytes of the value (`to_le_bytes`) |
| Molecule.DecodeU32 | src/molecule.rs:162-165 | succeeds exactly on 4 bytes, and the result re-encodes to the input |
| Molecule.EncodeU64 | src/molecule.rs:181-192 | the encoding is the `molecule_size` = 8 little-endian bytes of the value (`to_le_bytes`) |
| Molecule.DecodeU64 | src/molecule.rs:185-188 | succeeds exactly on 8 bytes, and the result re-encodes to the input |
| Molecule.EncodeU128 | src/molecule.rs:204-215 | the encoding is the `molecule_size` = 16 little-endian bytes of the value (`to_le_bytes`) |
| Molecule.DecodeU128 | src/molecule.rs:208-211 | succeeds exactly on 16 bytes, and the result re-encodes to the input |
| Molecule.ScalarRoundTrip | src/molecule.rs:158-211 | `U32`, `U64` and `U128` round-trip through their little-endian bytes |
| Molecule.UintRoundTrip | src/molecule.rs:158-211 | any value below 256^w round-trips through its w-byte little-endian encoding |
| LittleEndian.FromToLE | src/molecule.rs:158-165 | reading back the little-endian bytes of a value gives the value |
| LittleEndian.ToFromLE | src/molecule.rs:162-165 | writing back the value of a byte string gives the bytes |
| Records.DecodeAll | src/conversion.rs:226-242 | decoding every element succeeds exactly when each element decodes, and element i of the result is the decode of element i |
| Records.DecodeAllRoundTrip | src/conversion.rs:226-242 | decoding the encodings of records whose encoder and decoder are inverse gives the records back |
| Records.FixvecOfRecords | src/conversion.rs:210-234 | a list of fixed-width records stored as a fixvec reads back, of any length |
| Records.DynvecOfRecords | src/conversion.rs:215-242 | a non-empty list of records stored as a dynvec reads back |
| Records.OptionalRoundTrip | src/conversion.rs:132-150 | an optional field round-trips when a present value never encodes to the empty item |
| Records.NewTypeId | src/conversion.rs:21-30 | the code hash is 25 zero bytes followed by ASCII `TYPE_ID`, the hash type is `SCRIPT_HASH_TYPE_TYPE` (1), and the args are kept |
| Records.EncodeScript | src/conversion.rs:32-38 | the encoding is `53 + |args|` bytes |
| Records.DecodeScript | src/conversion.rs:40-47 | fails when the outer dynvec fails and needs at least three items; the code hash, hash type and args are the decodings of items 0, 1 and 2, so later items are ignored |
| Records.ScriptRoundTrip | src/conversion.rs:32-47 | a script whose encoding is shorter than 2^32 bytes round-trips |
| Records.EncodeOutPoint | src/conversion.rs:65-85 | the encoding is `molecule_size` = 36 bytes |
| Records.DecodeOutPoint | src/conversion.rs:72-81 | succeeds exactly when at least 36 bytes are given, and re-encodes to those 36 bytes |
| Records.OutPointRoundTrip | src/conversion.rs:65-81 | every out-point round-trips |
| Records.EncodeCellInput | src/conversion.rs:99-117 | the encoding is `molecule_size` = 44 bytes |
| Records.DecodeCellInput | src/conversion.rs:106-113 | succeeds exactly when at least 44 bytes are given, and re-encodes to those 44 bytes |
| Records.CellInputRoundTrip | src/conversion.rs:99-113 | every cell input round-trips |
| Records.EncodeCellOutput | src/conversion.rs:132-141 | the encoding is 16 bytes of header, the capacity, the lock script and the type script, or nothing for `None` |
| Records.DecodeCellOutput | src/conversion.rs:143-150 | the type script is `None` exactly when the third item is empty |
| Records.CellOutputRoundTrip | src/conversion.rs:132-150 | a cell output whose encoding fits 2^32 bytes round-trips, with and without a type script |
| Records.EncodeCellDep | src/conversion.rs:164-182 | the encoding is `molecule_size` = 37 bytes |
| Records.DecodeCellDep | src/conversion.rs:171-178 | succeeds exactly when at least 37 bytes are given, and re-encodes to those 37 bytes |
| Records.CellDepRoundTrip | src/conversion.rs:164-178 | every cell dep round-trips |
| Records.EncodeWitnessArgs | src/conversion.rs:291-306 | the encoding is 16 header bytes plus each present field as `Bytes`; absent fields take no bytes |
| Records.DecodeWitnessArgs | src/conversion.rs:308-323 | each field is `None` exactly when its item is empty |
| Records.WitnessArgsRoundTrip | src/conversion.rs:291-323 | witness args round-trip, keeping `None` apart from `Some([])` |
| Records.EmptyWitnessArgs | src/conversion.rs:291-306 | the all-`None` witness args encode to the 16 bytes `10000000` four times |
| Records.EncodeCellbaseWitness | src/conversion.rs:580-585 | the encoding is `12 + 53 + |args| + 4 + |message|` bytes |
| Records.DecodeCellbaseWitness | src/conversion.rs:587-590 | fails when the outer dynvec fails, and reads at least two items |
| Records.CellbaseWitnessRoundTrip | src/conversion.rs:580-590 | a cellbase witness whose encoding fits 2^32 bytes round-trips |
| Transactions.CellDepsRoundTrip | src/conversion.rs:210-229 | the `cell_deps` fixvec of 37-byte records reads back for any count, zero included |
| Transactions.HeaderDepsRoundTrip | src/conversion.rs:211-233 | the `header_deps` fixvec of 32-byte hashes reads back for any count |
| Transactions.InputsRoundTrip | src/conversion.rs:214-234 | the `inputs` fixvec of 44-byte records reads back for any count |
| Transactions.OutputsRoundTrip | src/conversion.rs:215-238 | a non-empty `outputs` dynvec reads back |
| Transactions.BytesListRoundTrip | src/conversion.rs:216-242 | a non-empty dynvec of `Bytes` (outputs data, witnesses) reads back |
| Transactions.EncodeRawTransaction | src/conversion.rs:207-220 | the encoding is at least the fixed overhead plus 37, 32 and 44 bytes per cell dep, header dep and input |
| Transactions.RawTransactionOfItems | src/conversion.rs:223-243 | fewer than six items, or an outputs or outputs-data item that is not a dynvec, fail |
| Transactions.DecodeRawTransaction | src/conversion.rs:222-244 | fails when the outer dynvec fails, and reads at least six items |
| Transactions.RawTransactionRoundTrip | src/conversion.rs:207-244 | a raw transaction with non-empty outputs and outputs data round-trips when its encoding fits 2^32 bytes |
| Transactions.EmptyOutputsRejected | src/conversion.rs:215-238 | a raw transaction without outputs encodes but does not decode |
| Transactions.RawTransactionNeedsOutputs | src/conversion.rs:235-238 | an outputs item that is not a dynvec makes the whole decode fail |
| Transactions.EncodeTransaction | src/conversion.rs:258-265 | the encoding is 12 header bytes plus the raw transaction and the witnesses dynvec |
| Transactions.TransactionOfItems | src/conversion.rs:268-275 | fewer than two items, or a witnesses item that is not a dynvec, fail |
| Transactions.DecodeTransaction | src/conversion.rs:267-276 | fails when the outer dynvec fails, and reads at least two items |
| Transactions.TransactionRoundTrip | src/conversion.rs:258-276 | a transaction with non-empty witnesses and a decodable raw part round-trips |
| Transactions.EmptyWitnessesRejected | src/conversion.rs:261-274 | a transaction without witnesses encodes but does not decode |
| Blocks.RawHeaderSize | src/conversion.rs:412-427 | the field sizes sum to `molecule_size` = 192 |
| Blocks.EncodeRawHeader | src/conversion.rs:367-380 | the encoding is 192 bytes |
| Blocks.DecodeRawHeader | src/conversion.rs:382-410 | succeeds exactly when at least 192 bytes are given, and re-encodes to those bytes |
| Blocks.RawHeaderRoundTrip | src/conversion.rs:367-410 | every raw header round-trips |
| Blocks.EncodeHeader | src/conversion.rs:441-456 | the encoding is `molecule_size` = 208 bytes |
| Blocks.DecodeHeader | src/conversion.rs:448-452 | succeeds exactly when at least 208 bytes are given, and re-encodes to those bytes |
| Blocks.HeaderRoundTrip | src/conversion.rs:441-452 | every header round-trips |
| Blocks.ProposalsRoundTrip | src/conversion.rs:473-479 | a proposals list whose entries share one width round-trips through its fixvec |
| Blocks.MixedProposalsMisread | src/molecule.rs:20-31 | proposals of unequal widths are silently re-cut: `[[1],[2,3,4]]` reads back as `[[1,2],[3,4]]` |
| Blocks.EncodeUncleBlock | src/conversion.rs:470-475 | the encoding is 12 header bytes, the 208-byte header, and the proposals fixvec |
| Blocks.DecodeUncleBlock | src/conversion.rs:477-480 | fails when the outer dynvec fails, and reads at least two items |
| Blocks.UncleBlockRoundTrip | src/conversion.rs:470-480 | an uncle with same-width proposals round-trips |
| Blocks.UnclesRoundTrip | src/conversion.rs:504-514 | a non-empty uncles dynvec reads back |
| Blocks.TransactionsRoundTrip | src/conversion.rs:505-518 | a non-empty transactions dynvec reads back |
| Blocks.EncodeBlock | src/conversion.rs:501-508 | the encoding holds at least the 20 header bytes and the header |
| Blocks.BlockOfItems | src/conversion.rs:511-520 | fewer than four items, or an uncles or transactions item that is not a dynvec, fail |
| Blocks.DecodeBlock | src/conversion.rs:510-521 | fails when the outer dynvec fails, and reads at least four items |
| Blocks.BlockOfItemsPrefix | src/conversion.rs:510-521 | only the first four items are read |
| Blocks.BlockRoundTrip | src/conversion.rs:501-521 | a block with uncles and transactions, all decodable, round-trips |
| Blocks.BlockWithoutUnclesRejected | src/conversion.rs:504-514 | a block without uncles encodes but does not decode |
| Blocks.DecodeBlockChecked | src/conversion.rs:510-521 | corrected reader: fails when the outer dynvec fails, and reads at least four items |
| Blocks.BlockCheckedRoundTrip | src/conversion.rs:501-521 | with the corrected dynvec reader every decodable block round-trips, including blocks without uncles or transactions |
| Blocks.BlockCheckedAgrees | src/conversion.rs:510-521 | the corrected block reader returns what the as-written one returns wherever that one succeeds |
| Blocks.EncodeBlockV1 | src/conversion.rs:544-552 | the encoding holds the 24 header bytes, the header and the extension blob |
| Blocks.DecodeBlockV1 | src/conversion.rs:554-566 | reads at least five items, and its block part is what the `Block` reader returns for the same bytes |
| Blocks.BlockV1RoundTrip | src/conversion.rs:544-566 | a `BlockV1` with decodable block fields round-trips |
| Blocks.BlockReadsBlockV1 | src/conversion.rs:510-566 | the `Block` reader applied to a `BlockV1` encoding returns its block part, ignoring the extension |
| Buddy.TopBlockIsArena | src/balloc.rs:13-15 | `MIN_BLOCK << MAX_ORDER` is `MAX_TOTAL`: the top block is the whole arena |
| Buddy.ShlBlockSize | src/balloc.rs:56 | for orders up to `MAX_ORDER`, `MIN_BLOCK << order` does not wrap and is the block size |
| Buddy.InitInv | src/balloc.rs:17-38 | the start-up lists satisfy the layout invariant and hold `MAX_TOTAL` free bytes |
| FreeList.InitRepr | src/balloc.rs:17-38 | the start-up heads and the `0xff` bytes at the start of the arena represent the start-up lists; the top block's next word is the end mark |
| Buddy.Alloc | src/balloc.rs:50-74 | fails (offset `usize::MAX`, length 0, lists unchanged) exactly when no list from the order up is non-empty, which covers orders above `MAX_ORDER`; otherwise the block has length `MIN_BLOCK << order` and lies in the arena, and the lists below the order are untouched |
| Buddy.AllocPreservesInv | src/balloc.rs:50-74 | allocation keeps the layout invariant; a granted block is aligned, inside the arena, clear of every free block, and its bytes leave the free count |
| Buddy.AllocPopCase | src/balloc.rs:57-62 | with a non-empty list the head is returned and removed |
| Buddy.AllocFailCase | src/balloc.rs:63-67 | a failed recursive allocation is passed on |
| Buddy.AllocSplitCase | src/balloc.rs:63-72 | otherwise the lower half of the larger block is returned and the upper half at `offset + block_size` becomes the list of the order |
| Buddy.AllocSplitLeavesBuddy | src/balloc.rs:68-72 | after a split, the order's list was empty and is exactly the upper half |
| Buddy.AllocFromInit | src/balloc.rs:50-74 | from the start-up lists, `alloc(k)` returns offset 0 and leaves one free upper half at each order from k up to 13 |
| Buddy.Log2From | src/balloc.rs:176-185 | the loop returns the first round below 64 at which `m << i == n`, and `None` (the `unreachable!()`) when no such round exists |
| Buddy.Log2First | src/balloc.rs:176-185 | `log2(m, n)` is the least shift of `m` that gives `n` |
| Buddy.OrderOfBlockSize | src/balloc.rs:81 | `log2(MIN_BLOCK, MIN_BLOCK << k)` is k for every order |
| Buddy.BuddyGeometry | src/balloc.rs:82-86 | the buddy `((offset/len) ^ 1) * len` is the adjacent block of the same length, and the merged block is aligned to twice the length |
| Buddy.State | src/balloc.rs:98-114 | returns 0 exactly when the block's offset is on the list of its order, and 1 otherwise |
| Buddy.RemoveFirstNoDups | src/balloc.rs:116-137 | unlinking removes the offset and keeps every other entry |
| Buddy.MergeEffect | src/balloc.rs:116-137 | `merge` removes exactly the given free block, keeps the invariant, and reduces the free count by its length |
| Buddy.Close | src/balloc.rs:76-96 | closing offset `usize::MAX` changes nothing; closing a live block keeps the invariant and adds its length to the free count |
| Buddy.CloseCovers | src/balloc.rs:76-96 | after closing a live block, the block lies inside a free block and so is no longer live, and every block free before still lies inside a free block; with the count from `Close`, exactly the block's bytes became free |
| Buddy.CloseMergeCase | src/balloc.rs:87-91 | a free buddy is unlinked and the merged block is closed one order up |
| Buddy.ClosePushCase | src/balloc.rs:92-94 | otherwise the block is pushed at the head of its list |
| Buddy.TopBuddyNeverFree | src/balloc.rs:82-87 | the top block's buddy is at `MAX_TOTAL` and never free, so coalescing stops at `MAX_ORDER` |
| Buddy.CloseFromSplit | src/balloc.rs:76-96 | closing the block `alloc(k)` took from the start-up lists restores the start-up lists |
| FreeList.FindWalk | src/balloc.rs:101-112 | the walk along the stored next words returns 0 exactly when the offset is on the chain |
| FreeList.StateWalk | src/balloc.rs:98-114 | `state` on the words returns what `Buddy.State` returns on the lists |
| FreeList.RemoveFirstAt | src/balloc.rs:121-134 | unlinking the first occurrence leaves the entries before and after it in their order |
| FreeList.LinkedSplice | src/balloc.rs:130-132 | storing the successor's next word into a block splices the successor out of the chain |
| FreeList.UnlinkWalk | src/balloc.rs:116-137 | the merge walk changes only the words of the list's own blocks and its head, and leaves the chain without the offset |
| FreeList.MergeWalk | src/balloc.rs:116-137 | `merge` on the words represents `Buddy.Merge` on the lists |
| FreeList.PopRepr | src/balloc.rs:57-61 | taking the head's stored word as the new head pops the list |
| FreeList.SplitRepr | src/balloc.rs:68-71 | writing the end mark into the upper half and making it the head represents the split lists |
| FreeList.AllocWords | src/balloc.rs:50-74 | `alloc` on the words returns the block `Buddy.Alloc` returns and represents its lists |
| FreeList.PushRepr | src/balloc.rs:92-94 | storing the old head in the block and making it the head pushes it |
| FreeList.CloseWords | src/balloc.rs:76-96 | `close` on the words represents `Buddy.Close` on the lists |
| Adapter.CeilLog2 | src/balloc.rs:172-174 | the least exponent e with `n <= 2^e` |
| Adapter.Clp2Least | src/balloc.rs:172-174 | `next_power_of_two(n)` is at least n and at most every power of two that is at least n |
| Adapter.CeilLog2Bounded | src/balloc.rs:172-174 | sizes up to `isize::MAX` round to at most `2^63`, so the rounding does not overflow |
| Adapter.Log2Pow2 | src/balloc.rs:176-185 | `log2(64, 2^c)` is `c - 6` for c from 6 to 63 |
| Adapter.OrderForSize | src/balloc.rs:154 | the adapter's order is defined for every size up to `isize::MAX`; its block is at least the size, its next smaller block is not, and it is at most `MAX_ORDER` exactly when the size is at most `MAX_TOTAL` |
| Adapter.OrderForIsLeast | src/balloc.rs:154 | for sizes the arena holds, the order is the least k with `64 << k >= size` |
| Adapter.SizeOrder | src/balloc.rs:154 | the order of a size, which is at most `MAX_ORDER` exactly when the size is at most `MAX_TOTAL` |
| Adapter.GlobalAlloc | src/balloc.rs:151-158 | as written: always returns a non-null pointer and keeps the layout invariant; its offset is `usize::MAX` exactly when no block of the needed order or above is free, and then the lists are unchanged; any other result is the corrected adapter's, a live block of at least `size` bytes inside the arena |
| Adapter.GlobalAllocOversized | src/balloc.rs:151-158 | a request of twice the arena on a fresh arena returns `PTR_ALLOC + usize::MAX` |
| Adapter.GlobalAllocChecked | src/balloc.rs:151-158 | corrected: returns null exactly when no block of the needed order or above is free, keeps the invariant, and leaves the lists unchanged on failure |
| Adapter.GlobalAllocCheckedBlock | src/balloc.rs:151-158 | a non-null result starts a block of at least `size` bytes inside the arena, clear of every free block, whose bytes left the free count |
| Adapter.GlobalAllocCheckedOversized | src/balloc.rs:151-158 | every request larger than the arena returns null |
| Adapter.GlobalDealloc | src/balloc.rs:160-167 | freeing a live block with its allocation size keeps the invariant and adds the block's length to the free count; afterwards the block at `p` lies inside a free block and is no longer live, and every block free before still lies inside a free block |
| Adapter.AllocDeallocBytes | src/balloc.rs:151-167 | freeing what `alloc` handed out, with the same size, restores the free count |
| Adapter.AllocDeallocFresh | src/balloc.rs:151-167 | on a fresh arena, allocating any size the arena holds returns offset 0, and freeing it restores the start-up lists |

## Left out

- `src/atomic.rs`, `src/syscall.rs`, `src/lib.rs`, `src/global.rs` and `examples/` are not part of this model. They hold compiler shims, `ecall` assembly, process entry and demo programs, with no codec or allocator logic.
- `Script::hash` and `src/blake2b.rs` are not modelled: the hash is a foreign cryptographic function.
- Raw pointers are modelled as offsets from the arena start.
  - `PTR_ALLOC` arithmetic, `ptr.offset_from` and `Layout` alignment are not modelled.
  - Neither is the alignment of the `PRE_ALLOC` static.
- `UnsafeCell` and the allocator's lack of locking are not modelled. The model is sequential.
- The words that user code writes into a live block are not modelled. The word map holds only the next-words of free blocks.
- A 32-bit `usize` is not modelled. The target is 64-bit, and `PRE_ALLOC` sets 8 bytes to `0xff`.
- `block_idx ^ 1` is modelled as adding or subtracting one by parity (`Buddy.Xor1`). For a natural number this is the same as flipping the low bit.
- Offsets and lengths above 2^32 are not modelled. The dynvec and `Bytes` encoders truncate them to `u32`.
  - Molecule.DynvecRoundTrip, Molecule.BytesRoundTrip and Molecule.FixvecRoundTrip require the encoding, or the count, to stay below 2^32.
  - So do the record round-trips built on them.
- The debug-build overflow of `first / 4 - 1` when the first offset is below 4 is modelled as a failure. In release builds it wraps to a huge count, and the later reads panic anyway.
- Adapter.GlobalAlloc and Adapter.GlobalAllocChecked require `size <= isize::MAX`, which `Layout` guarantees. Larger sizes would overflow `next_power_of_two`.
- Adapter.GlobalDealloc, Buddy.Close and FreeList.CloseWords require a live block and the layout invariant.
  - The source does not check either. A double free, or a pointer that `alloc` did not return, corrupts its lists.
  - Adapter.GlobalDealloc also requires `size <= MAX_TOTAL`, since only such sizes can have come from a successful `alloc`.
- Buddy.Alloc requires only that the free blocks lie inside the arena (`InBounds`). FreeList.AllocWords and FreeList.MergeWalk also require the lists to be well formed (`Repr`, `Inv`). These are conditions that the source assumes of its own state.
- Buddy.State takes a block whose length is a valid block size. In the source, `log2` of any other length reaches `unreachable!()`.
- `molecule_size` of every record is stated as the length of its encoding, in the `Encode…` contracts. It is not a separate function.

## Dynvec edge cases

- **The two-item dynvec.** `[[AA],[BB,BB]]` encodes to 15 bytes: a 4-byte length word, two 4-byte offsets and three item bytes. `Molecule.DynvecExample` states this encoding.
- **A 4-byte dynvec.** `encode_dynvec` of no items is `[4,0,0,0]`, and `decode_dynvec` rejects it. The reason is that it reads the first offset from bytes 4..8 in every case (see "## Findings"). `Molecule.EmptyDynvecRejected` states the failure. The consequences are stated too:
  - Transactions.EmptyOutputsRejected;
  - Transactions.EmptyWitnessesRejected;
  - Blocks.BlockWithoutUnclesRejected.

## Findings

| source | as written | input that shows it | evidently intended | confidence | as-written member | corrected member |
|---|---|---|---|---|---|---|
| src/balloc.rs:151-157 | a failed allocation returns `PTR_ALLOC.add(usize::MAX)`, a non-null pointer outside the arena | `alloc` of a layout of size `2 * MAX_TOTAL` on a fresh arena: the order is 15 and `Algorithm::alloc` returns offset `usize::MAX` | return null on failure, as the `GlobalAlloc` contract requires | not executed | Adapter.GlobalAllocOversized | Adapter.GlobalAllocChecked |
| src/molecule.rs:4-7 | `decode_dynvec` reads the first offset from `data[4..8]` even when the buffer is the 4-byte empty dynvec, so it panics | `encode_dynvec(vec![])`, which is `[4,0,0,0]`; as a consequence, any `Block` with no uncles | the header-only buffer `[4,0,0,0]` decodes as the empty list | not executed | Molecule.EmptyDynvecRejected | Molecule.DynvecCheckedRoundTrip |

=== FILE: adapter.dfy ===
/** The `GlobalAlloc` face of `src/balloc.rs`: a request size is rounded up
    to a power of two, turned into an order, and served by the buddy
    allocator of module `Buddy`.  Pointers are offsets from the start of the
    arena. */
module Adapter {
  import opened Options
  import opened Buddy

  /** `isize::MAX`: the largest size a `Layout` may describe. */
  const ISIZE_MAX: nat := 0x7FFF_FFFF_FFFF_FFFF

  function Pow2(e: nat): (r: nat)
    ensures r >= 1
  {
    if e == 0 then 1 else 2 * Pow2(e - 1)
  }

  lemma {:induction false} Pow2Add(a: nat, b: nat)
    ensures Pow2(a + b) == Pow2(a) * Pow2(b)
    decreases b
  {
    if b > 0 {
      Pow2Add(a, b - 1);
      assert Pow2(a + b) == 2 * Pow2(a + b - 1);
    }
  }

  /** `2^63` is one past `isize::MAX` and `2^64` one past `usize::MAX`. */
  lemma Pow2Word()
    ensures Pow2(63) == ISIZE_MAX + 1 && Pow2(64) == USIZE_MAX + 1
  {
    Pow2Half();
    Pow2Add(32, 31);
    Pow2Add(32, 32);
  }

  lemma Pow2Half()
    ensures Pow2(32) == 0x1_0000_0000 && Pow2(31) == 0x8000_0000
  {
    var p8 := Pow2(8);
    assert p8 == 256;
    Pow2Add(8, 8);
    Pow2Add(16, 16);
    Pow2Add(16, 15);
    Pow2Add(8, 7);
  }

  lemma {:induction false} Pow2Grows(d: nat, e: nat)
    requires d < e
    ensures Pow2(d) < Pow2(e)
    decreases e
  {
    if d + 1 < e {
      Pow2Grows(d, e - 1);
    }
  }

  /** The least exponent whose power of two is at least `n`. */
  function CeilLog2(n: nat): (r: nat)
    ensures n <= Pow2(r)
    ensures forall e: nat :: e < r ==> Pow2(e) < n
  {
    if n <= 1 then 0
    else
      var c := CeilLog2((n + 1) / 2);
      assert forall e: nat :: e < c ==> Pow2(e) < (n + 1) / 2;
      c + 1
  }

  /** `usize::next_power_of_two`: the least power of two not below `n`
      (1 for 0). */
  function Clp2(n: nat): nat
  {
    Pow2(CeilLog2(n))
  }

  /** `clp2` returns a power of two that holds `n`, and no smaller power of two does. */
  lemma Clp2Least(n: nat, e: nat)
    ensures n <= Clp2(n)
    ensures n <= Pow2(e) ==> Clp2(n) <= Pow2(e)
  {
    var c := CeilLog2(n);
    if e > c {
      Pow2Grows(c, e);
    }
  }

  /** A size within `isize::MAX` rounds up to at most `2^63`, which a `usize` holds. */
  lemma CeilLog2Bounded(n: nat)
    requires n <= ISIZE_MAX
    ensures CeilLog2(n) <= 63
  {
    Pow2Word();
    assert !(Pow2(63) < n);
  }

  /** `MIN_BLOCK << s` for `s <= 57` is `2^(s+6)`: nothing is shifted out. */
  lemma {:induction false} ShlPow2(s: nat)
    requires s <= 57
    ensures Shl(MIN_BLOCK, s) == Pow2(s + 6)
  {
    if s == 0 {
      assert Pow2(6) == 64;
      NoWrap(MIN_BLOCK);
    } else {
      ShlPow2(s - 1);
      Pow2Grows(s + 6, 64);
      Pow2Word();
      NoWrap(Pow2(s + 6));
    }
  }

  /** `log2(MIN_BLOCK, 2^c)` is `c - 6` for `6 <= c <= 63`. */
  lemma Log2Pow2(c: nat)
    requires 6 <= c <= 63
    ensures Log2(MIN_BLOCK, Pow2(c)) == Some(c - 6)
  {
    ShlPow2(c - 6);
    forall t | 0 <= t < c - 6 ensures Shl(MIN_BLOCK, t) != Pow2(c) {
      ShlPow2(t);
      Pow2Grows(t + 6, c);
    }
    Log2First(MIN_BLOCK, Pow2(c), c - 6);
  }

  function Max(a: nat, b: nat): nat
  {
    if a >= b then a else b
  }

  /** The order `GlobalAlloc` asks for: `log2(MIN_BLOCK, max(clp2(size), MIN_BLOCK))`.
      `None` stands for the `unreachable!()` of `log2`. */
  function OrderFor(size: nat): Option<nat>
  {
    Log2(MIN_BLOCK, Max(Clp2(size), MIN_BLOCK))
  }

  lemma BlockSizePow2(k: nat)
    ensures BlockSize(k) == Pow2(k + 6)
  {
    if k == 0 {
      assert Pow2(6) == 64;
    } else {
      BlockSizePow2(k - 1);
    }
  }

  /** Every `Layout` size gets an order from `OrderFor`, and it is the least
      order whose block holds `size` bytes; sizes beyond the arena get orders
      past `MAX_ORDER`. */
  lemma OrderForSize(size: nat)
    requires size <= ISIZE_MAX
    ensures OrderFor(size).Some?
    ensures var k := OrderFor(size).value;
      && size <= Pow2(k + 6)
      && (k == 0 || Pow2(k + 5) < size)
      && (k <= MAX_ORDER <==> size <= MAX_TOTAL)
  {
    OrderForValue(size);
    RoundedOrder(size, Max(CeilLog2(size), 6) - 6);
  }

  /** `OrderFor` is the exponent of the rounded size, less the six of `MIN_BLOCK`. */
  lemma OrderForValue(size: nat)
    requires size <= ISIZE_MAX
    ensures OrderFor(size) == Some(Max(CeilLog2(size), 6) - 6)
  {
    var c := CeilLog2(size);
    CeilLog2Bounded(size);
    assert Pow2(6) == 64;
    if c <= 6 {
      if c < 6 {
        Pow2Grows(c, 6);
      }
      assert Max(Clp2(size), MIN_BLOCK) == Pow2(6);
      Log2Pow2(6);
    } else {
      Pow2Grows(6, c);
      Log2Pow2(c);
    }
  }

  /** What the exponent of the rounded size says about the order. */
  lemma RoundedOrder(size: nat, k: nat)
    requires k == Max(CeilLog2(size), 6) - 6
    ensures size <= Pow2(k + 6)
    ensures k == 0 || Pow2(k + 5) < size
    ensures k <= MAX_ORDER <==> size <= MAX_TOTAL
  {
    var c := CeilLog2(size);
    assert Pow2(6) == 64;
    if c < 6 {
      Pow2Grows(c, 6);
    }
    BlockSizePow2(MAX_ORDER);
    TopBlockIsArena();
    if k < MAX_ORDER {
      Pow2Grows(k + 6, MAX_ORDER + 6);
    } else if k > MAX_ORDER + 1 {
      Pow2Grows(MAX_ORDER + 6, k + 5);
    }
  }

  /** The least order whose block holds `size` bytes, for sizes the arena can hold. */
  lemma OrderForIsLeast(size: nat)
    requires size <= MAX_TOTAL
    ensures OrderFor(size).Some? && OrderFor(size).value <= MAX_ORDER
    ensures var k := OrderFor(size).value;
      && size <= BlockSize(k)
      && forall j: nat :: j < k ==> BlockSize(j) < size
  {
    OrderForSize(size);
    LeastOrder(size, OrderFor(size).value);
  }

  /** The order `GlobalAlloc` uses for a `Layout` of `size` bytes. */
  function SizeOrder(size: nat): (k: nat)
    requires size <= ISIZE_MAX
    ensures OrderFor(size) == Some(k)
    ensures k <= MAX_ORDER <==> size <= MAX_TOTAL
  {
    OrderForSize(size);
    OrderFor(size).value
  }

  /** An order whose block holds `size` bytes while the next smaller one does
      not is the least such order. */
  lemma LeastOrder(size: nat, k: nat)
    requires size <= Pow2(k + 6) && (k == 0 || Pow2(k + 5) < size)
    ensures size <= BlockSize(k)
    ensures forall j: nat :: j < k ==> BlockSize(j) < size
  {
    BlockSizePow2(k);
    forall j: nat | j < k ensures BlockSize(j) < size {
      BlockSizePow2(j);
      if j + 1 < k {
        Pow2Grows(j + 6, k + 5);
      }
    }
  }

  /** A pointer into the arena, as an offset from its start; `Null` is the
      null pointer. */
  datatype Ptr = Null | At(offset: nat)

  /** `<Allocator as GlobalAlloc>::alloc` as written: the arena start plus the
      offset of whatever block came back, a failed allocation included. */
  function GlobalAlloc(L: Lists, size: nat): (r: (Lists, Ptr))
    requires Inv(L) && size <= ISIZE_MAX
    ensures r.1.At? && Inv(r.0)
    ensures r.1.offset == USIZE_MAX <==> NothingFreeFrom(L, SizeOrder(size))
    ensures r.1.offset == USIZE_MAX ==> r.0 == L
    ensures r.1.offset != USIZE_MAX ==> r == GlobalAllocChecked(L, size)
    ensures r.1.offset != USIZE_MAX ==>
      && r.1.offset + size <= MAX_TOTAL
      && Live(r.0, r.1.offset, SizeOrder(size))
  {
    OrderForSize(size);
    GlobalAllocCheckedBlock(L, size);
    AllocPreservesInv(L, SizeOrder(size));
    var (L', b) := Alloc(L, SizeOrder(size));
    (L', At(b.offset))
  }

  /** A request larger than the arena gets the pointer `usize::MAX` bytes past
      its start instead of null. */
  lemma GlobalAllocOversized()
    ensures Inv(Init())
    ensures GlobalAlloc(Init(), 2 * MAX_TOTAL).1 == At(USIZE_MAX)
  {
    InitInv();
    OrderForSize(2 * MAX_TOTAL);
  }

  /** `alloc` returning null on failure, as the `GlobalAlloc` contract asks. */
  function GlobalAllocChecked(L: Lists, size: nat): (r: (Lists, Ptr))
    requires Inv(L) && size <= ISIZE_MAX
    ensures Inv(r.0)
    ensures r.1.Null? <==> NothingFreeFrom(L, SizeOrder(size))
    ensures r.1.Null? ==> r.0 == L
  {
    OrderForSize(size);
    AllocPreservesInv(L, SizeOrder(size));
    var (L', b) := Alloc(L, SizeOrder(size));
    if b.length == 0 then (L, Null) else (L', At(b.offset))
  }

  /** A non-null pointer from the corrected `alloc` starts a block of at
      least `size` bytes inside the arena, clear of every free block, whose
      bytes left the free lists. */
  lemma GlobalAllocCheckedBlock(L: Lists, size: nat)
    requires Inv(L) && size <= ISIZE_MAX
    ensures var (L', p) := GlobalAllocChecked(L, size);
      p.At? ==>
        && size <= MAX_TOTAL
        && SizeOrder(size) <= MAX_ORDER
        && p.offset + size <= MAX_TOTAL
        && Live(L', p.offset, SizeOrder(size))
        && FreeBytes(L') + BlockSize(SizeOrder(size)) == FreeBytes(L)
  {
    var k := SizeOrder(size);
    AllocPreservesInv(L, k);
    if Alloc(L, k).1.length != 0 {
      OrderForIsLeast(size);
    }
  }

  /** Requests the arena cannot hold come back null. */
  lemma GlobalAllocCheckedOversized(L: Lists, size: nat)
    requires Inv(L) && MAX_TOTAL < size <= ISIZE_MAX
    ensures GlobalAllocChecked(L, size).1 == Null
  {
    OrderForSize(size);
  }

  /** `<Allocator as GlobalAlloc>::dealloc`: the block at `p` of the length the
      order of `size` gives back goes through `close`. */
  function GlobalDealloc(L: Lists, p: nat, size: nat): (r: Lists)
    requires Inv(L) && size <= MAX_TOTAL
    requires p == USIZE_MAX || Live(L, p, SizeOrder(size))
    ensures Inv(r)
    ensures p != USIZE_MAX ==> FreeBytes(r) == FreeBytes(L) + BlockSize(SizeOrder(size))
    ensures p != USIZE_MAX ==> Covered(r, p, BlockSize(SizeOrder(size))) && CoveredBy(L, r)
    ensures p != USIZE_MAX ==> !Live(r, p, SizeOrder(size))
  {
    OrderForIsLeast(size);
    var k := SizeOrder(size);
    ShlBlockSize(k);
    OrderOfBlockSize(k);
    var b := Blockinfo(p, Shl(MIN_BLOCK, k));
    if p == USIZE_MAX then Close(L, b)
    else
      CloseCovers(L, b);
      Close(L, b)
  }

  /** Freeing what the corrected `alloc` handed out, with the same size, gives
      back exactly the bytes it took. */
  lemma AllocDeallocBytes(L: Lists, size: nat)
    requires Inv(L) && size <= ISIZE_MAX
    ensures var (L', p) := GlobalAllocChecked(L, size);
      p.At? ==>
        && Inv(L') && size <= MAX_TOTAL && p.offset != USIZE_MAX
        && Live(L', p.offset, SizeOrder(size))
        && FreeBytes(GlobalDealloc(L', p.offset, size)) == FreeBytes(L)
  {
    GlobalAllocCheckedBlock(L, size);
  }

  /** On a fresh arena, allocating any size the arena holds and freeing it
      again restores the start-up lists. */
  lemma AllocDeallocFresh(size: nat)
    requires size <= MAX_TOTAL
    ensures Inv(Init())
    ensures var (L', p) := GlobalAllocChecked(Init(), size);
      && p == At(0)
      && Inv(L') && Live(L', 0, SizeOrder(size))
      && GlobalDealloc(L', 0, size) == Init()
  {
    InitInv();
    OrderForIsLeast(size);
    var k := SizeOrder(size);
    AllocFromInit(k);
    AllocPreservesInv(Init(), k);
    CloseFromSplit(k);
    ShlBlockSize(k);
  }
}

=== FILE: arith.dfy ===
/** Small facts of integer arithmetic that the solver does not find unaided
    once a divisor or a factor is a variable. */
module Arith {

  lemma MulAtLeast(c: nat, a: nat)
    requires a >= 1
    ensures c * a >= c
  {
  }

  lemma Distrib(c: int, a: int, b: int)
    ensures c * a - c * b == c * (a - b)
  {
  }

  /** `c * (x / c)` never exceeds `x`. */
  lemma MulDivLe(x: nat, c: nat)
    requires c > 0
    ensures c * (x / c) <= x
  {
  }

  /** `(c * w) / c == w` for a positive `c`. */
  lemma DivOfProduct(c: nat, w: nat)
    requires c > 0
    ensures (c * w) / c == w
  {
    var q := (c * w) / c;
    var m := (c * w) % c;
    assert c * w == c * q + m;
    if q < w {
      MulAtLeast(c, w - q);
      Distrib(c, w, q);
    } else if q > w {
      MulAtLeast(c, q - w);
      Distrib(c, q, w);
    }
  }

  /** A multiple of `d` leaves no remainder, and dividing it by `d` gives the factor back. */
  lemma MulModZero(q: nat, d: nat)
    requires d > 0
    ensures (q * d) % d == 0 && (q * d) / d == q
  {
    DivOfProduct(d, q);
    assert q * d == d * q;
    assert q * d == d * ((q * d) / d) + (q * d) % d;
  }

  /** A number with no remainder modulo `d` is its quotient times `d`. */
  lemma ModMultiple(x: nat, d: nat)
    requires d > 0 && x % d == 0
    ensures x == (x / d) * d
  {
  }

  /** Alignment to `2a` gives alignment to `a` of both the number and its
      successor by `a`. */
  lemma HalfAligned(x: nat, a: nat)
    requires a > 0 && x % (2 * a) == 0
    ensures x % a == 0 && (x + a) % a == 0
  {
    ModMultiple(x, 2 * a);
    var q := x / (2 * a);
    assert x == (2 * q) * a;
    MulModZero(2 * q, a);
    assert x + a == (2 * q + 1) * a;
    MulModZero(2 * q + 1, a);
  }

  lemma MulSucc(n: nat, b: nat)
    ensures (n + 1) * b == n * b + b
  {
  }
}

=== FILE: blocks.dfy ===
/** Headers and blocks of `src/conversion.rs`: the raw header, the sealed
    header, uncle blocks and the two block layouts. */
module Blocks {

  import opened Options
  import opened LittleEndian
  import opened Molecule
  import opened Records
  import opened Transactions

  /* ---------------------------------------------------------------------- */
  /* RawHeader                                                               */
  /* ---------------------------------------------------------------------- */

  datatype RawHeader = RawHeader(
    version: u32,
    compactTarget: u32,
    timestamp: u64,
    number: u64,
    epoch: u64,
    parentHash: Byte32,
    transactionsRoot: Byte32,
    proposalsHash: Byte32,
    extraHash: Byte32,
    dao: Byte32)

  /** The widths of the ten raw header fields, in order. */
  const RAW_HEADER_SIZES: seq<nat> :=
    [U32_SIZE, U32_SIZE, U64_SIZE, U64_SIZE, U64_SIZE,
     BYTE32_SIZE, BYTE32_SIZE, BYTE32_SIZE, BYTE32_SIZE, BYTE32_SIZE]

  /** `RawHeader::molecule_size`: the sum of the field widths. */
  const RAW_HEADER_SIZE: nat := 192

  lemma RawHeaderSize()
    ensures Sum(RAW_HEADER_SIZES) == RAW_HEADER_SIZE
  {
    calc {
      Sum(RAW_HEADER_SIZES);
      Sum([4, 4, 8, 8, 8, 32, 32, 32, 32, 32]);
      192;
    }
  }

  function RawHeaderFields(h: RawHeader): (r: seq<seq<byte>>)
    ensures Lengths(r) == RAW_HEADER_SIZES
  {
    [EncodeU32(h.version), EncodeU32(h.compactTarget),
     EncodeU64(h.timestamp), EncodeU64(h.number), EncodeU64(h.epoch),
     EncodeByte32(h.parentHash), EncodeByte32(h.transactionsRoot), EncodeByte32(h.proposalsHash),
     EncodeByte32(h.extraHash), EncodeByte32(h.dao)]
  }

  /** `RawHeader::molecule`: a seq of the ten fields. */
  function EncodeRawHeader(h: RawHeader): (r: seq<byte>)
    ensures |r| == RAW_HEADER_SIZE
  {
    RawHeaderSize();
    EncodeSeq(RawHeaderFields(h))
  }

  /** `RawHeader::molecule_decode`: reads the first 192 bytes, ignoring any rest. */
  function DecodeRawHeader(data: seq<byte>): (r: Option<RawHeader>)
    ensures r.Some? <==> |data| >= RAW_HEADER_SIZE
    ensures r.Some? ==> EncodeRawHeader(r.value) == data[..RAW_HEADER_SIZE]
  {
    RawHeaderSize();
    var p :- DecodeSeq(data, RAW_HEADER_SIZES);
    assert |p| == |Lengths(p)| == 10;
    var h := RawHeader(
      DecodeU32(p[0]).value, DecodeU32(p[1]).value,
      DecodeU64(p[2]).value, DecodeU64(p[3]).value, DecodeU64(p[4]).value,
      DecodeByte32(p[5]).value, DecodeByte32(p[6]).value, DecodeByte32(p[7]).value,
      DecodeByte32(p[8]).value, DecodeByte32(p[9]).value);
    assert RawHeaderFields(h) == p;
    Some(h)
  }

  lemma RawHeaderRoundTrip(h: RawHeader)
    ensures DecodeRawHeader(EncodeRawHeader(h)) == Some(h)
  {
    var f := RawHeaderFields(h);
    SeqRoundTrip(f);
    RawHeaderSize();
    assert DecodeSeq(EncodeRawHeader(h), RAW_HEADER_SIZES) == Some(f);
    ScalarRoundTrip(h.version, h.timestamp, 0);
    ScalarRoundTrip(h.compactTarget, h.number, 0);
    ScalarRoundTrip(0, h.epoch, 0);
    ByteRoundTrip(0, h.parentHash);
    ByteRoundTrip(0, h.transactionsRoot);
    ByteRoundTrip(0, h.proposalsHash);
    ByteRoundTrip(0, h.extraHash);
    ByteRoundTrip(0, h.dao);
  }

  /* ---------------------------------------------------------------------- */
  /* Header                                                                  */
  /* ---------------------------------------------------------------------- */

  datatype Header = Header(raw: RawHeader, nonce: u128)

  /** `Header::molecule_size`. */
  const HEADER_SIZE: nat := RAW_HEADER_SIZE + U128_SIZE

  function HeaderFields(h: Header): (r: seq<seq<byte>>)
    ensures Lengths(r) == [RAW_HEADER_SIZE, U128_SIZE]
  {
    [EncodeRawHeader(h.raw), EncodeU128(h.nonce)]
  }

  /** `Header::molecule`: a seq of the raw header and the nonce. */
  function EncodeHeader(h: Header): (r: seq<byte>)
    ensures |r| == HEADER_SIZE
  {
    Sum2(RAW_HEADER_SIZE, U128_SIZE);
    EncodeSeq(HeaderFields(h))
  }

  /** `Header::molecule_decode`: reads the first 208 bytes, ignoring any rest. */
  function DecodeHeader(data: seq<byte>): (r: Option<Header>)
    ensures r.Some? <==> |data| >= HEADER_SIZE
    ensures r.Some? ==> EncodeHeader(r.value) == data[..HEADER_SIZE]
  {
    Sum2(RAW_HEADER_SIZE, U128_SIZE);
    var p :- DecodeSeq(data, [RAW_HEADER_SIZE, U128_SIZE]);
    assert |p| == |Lengths(p)| == 2;
    var h := Header(DecodeRawHeader(p[0]).value, DecodeU128(p[1]).value);
    assert p[0][..RAW_HEADER_SIZE] == p[0];
    assert HeaderFields(h) == p;
    Some(h)
  }

  lemma HeaderRoundTrip(h: Header)
    ensures DecodeHeader(EncodeHeader(h)) == Some(h)
  {
    var f := HeaderFields(h);
    SeqRoundTrip(f);
    Sum2(RAW_HEADER_SIZE, U128_SIZE);
    assert DecodeSeq(EncodeHeader(h), [RAW_HEADER_SIZE, U128_SIZE]) == Some(f);
    RawHeaderRoundTrip(h.raw);
    ScalarRoundTrip(0, 0, h.nonce);
    assert DecodeRawHeader(f[0]) == Some(h.raw);
    assert DecodeU128(f[1]) == Some(h.nonce);
  }

  /* ---------------------------------------------------------------------- */
  /* Proposals                                                               */
  /* ---------------------------------------------------------------------- */

  /** Proposal ids are written as a fixvec, which only reads back when they all
      have one width and their count fits the 32-bit count word. */
  predicate ProposalsDecodable(ps: seq<seq<byte>>)
  {
    && (forall i :: 0 <= i < |ps| ==> |ps[i]| == |ps[0]|)
    && |ps| < WORD
  }

  lemma ProposalsRoundTrip(ps: seq<seq<byte>>)
    requires ProposalsDecodable(ps)
    ensures DecodeFixvec(EncodeFixvec(ps)) == Some(ps)
  {
    FixvecRoundTrip(ps, if ps == [] then 0 else |ps[0]|);
  }

  /** Proposals of two different widths are cut at the wrong places. */
  lemma MixedProposalsMisread()
    ensures DecodeFixvec(EncodeFixvec([[1], [2, 3, 4]])) == Some([[1, 2], [3, 4]])
  {
    var ps: seq<seq<byte>> := [[1], [2, 3, 4]];
    var data := EncodeFixvec(ps);
    Concat2([1], [2, 3, 4]);
    assert data[4..] == [1, 2, 3, 4];
    assert ReadU32(data, 0) == 2;
    var r := DecodeFixvec(data).value;
    assert |r| == 2 && |r[0]| == 2 && |r[1]| == 2;
    Concat2(r[0], r[1]);
    assert r[0] + r[1] == [1, 2, 3, 4];
    assert r[0] == [1, 2] && r[1] == [3, 4];
    assert r == [[1, 2], [3, 4]];
  }

  /* ---------------------------------------------------------------------- */
  /* UncleBlock                                                              */
  /* ---------------------------------------------------------------------- */

  datatype UncleBlock = UncleBlock(header: Header, proposals: seq<seq<byte>>)

  function UncleBlockFields(u: UncleBlock): seq<seq<byte>>
  {
    [EncodeHeader(u.header), EncodeFixvec(u.proposals)]
  }

  /** `UncleBlock::molecule`: a dynvec of header and proposals. */
  function EncodeUncleBlock(u: UncleBlock): (r: seq<byte>)
    ensures |r| == 12 + HEADER_SIZE + 4 + Sum(Lengths(u.proposals))
  {
    var f := UncleBlockFields(u);
    Concat2(f[0], f[1]);
    EncodeDynvec(f)
  }

  /** `UncleBlock::molecule_decode`. */
  function DecodeUncleBlock(data: seq<byte>): (r: Option<UncleBlock>)
    ensures DecodeDynvec(data).None? ==> r.None?
    ensures r.Some? ==> |DecodeDynvec(data).value| >= 2
  {
    var items :- DecodeDynvec(data);
    if |items| < 2 then None
    else
      var header :- DecodeHeader(items[0]);
      var proposals :- DecodeFixvec(items[1]);
      Some(UncleBlock(header, proposals))
  }

  lemma UncleBlockRoundTrip(u: UncleBlock)
    requires ProposalsDecodable(u.proposals)
    requires |EncodeUncleBlock(u)| < WORD
    ensures DecodeUncleBlock(EncodeUncleBlock(u)) == Some(u)
  {
    var f := UncleBlockFields(u);
    DynvecRoundTrip(f);
    HeaderRoundTrip(u.header);
    ProposalsRoundTrip(u.proposals);
  }

  /** A non-empty list of uncles round-trips through a dynvec. */
  lemma UnclesRoundTrip(xs: seq<UncleBlock>)
    requires |xs| > 0
    requires forall i :: 0 <= i < |xs| ==> ProposalsDecodable(xs[i].proposals)
    requires |EncodeDynvec(MapSeq(xs, EncodeUncleBlock))| < WORD
    ensures DecodeDynvec(EncodeDynvec(MapSeq(xs, EncodeUncleBlock))) == Some(MapSeq(xs, EncodeUncleBlock))
    ensures DecodeAll(MapSeq(xs, EncodeUncleBlock), DecodeUncleBlock) == Some(xs)
  {
    forall i | 0 <= i < |xs| && |EncodeUncleBlock(xs[i])| < WORD
      ensures DecodeUncleBlock(EncodeUncleBlock(xs[i])) == Some(xs[i])
    {
      UncleBlockRoundTrip(xs[i]);
    }
    DynvecOfRecords(xs, EncodeUncleBlock, DecodeUncleBlock);
  }

  /** A non-empty list of decodable transactions round-trips through a dynvec. */
  lemma TransactionsRoundTrip(xs: seq<Transaction>)
    requires |xs| > 0
    requires forall i :: 0 <= i < |xs| ==> TransactionDecodable(xs[i])
    requires |EncodeDynvec(MapSeq(xs, EncodeTransaction))| < WORD
    ensures DecodeDynvec(EncodeDynvec(MapSeq(xs, EncodeTransaction))) == Some(MapSeq(xs, EncodeTransaction))
    ensures DecodeAll(MapSeq(xs, EncodeTransaction), DecodeTransaction) == Some(xs)
  {
    forall i | 0 <= i < |xs| && |EncodeTransaction(xs[i])| < WORD
      ensures DecodeTransaction(EncodeTransaction(xs[i])) == Some(xs[i])
    {
      TransactionRoundTrip(xs[i]);
    }
    DynvecOfRecords(xs, EncodeTransaction, DecodeTransaction);
  }

  /* ---------------------------------------------------------------------- */
  /* Block                                                                   */
  /* ---------------------------------------------------------------------- */

  datatype Block = Block(
    header: Header,
    uncles: seq<UncleBlock>,
    transactions: seq<Transaction>,
    proposals: seq<seq<byte>>)

  function BlockFields(b: Block): seq<seq<byte>>
  {
    [ EncodeHeader(b.header),
      EncodeDynvec(MapSeq(b.uncles, EncodeUncleBlock)),
      EncodeDynvec(MapSeq(b.transactions, EncodeTransaction)),
      EncodeFixvec(b.proposals) ]
  }

  /** `Block::molecule`: a dynvec of header, uncles, transactions and proposals. */
  function EncodeBlock(b: Block): (r: seq<byte>)
    ensures |r| >= 20 + HEADER_SIZE
  {
    var f := BlockFields(b);
    DynvecItemShorter(f, 0);
    EncodeDynvec(f)
  }

  /** The four block fields, read from the items of a block's dynvec; items
      past the fourth are not looked at. */
  function BlockOfItems(items: seq<seq<byte>>): (r: Option<Block>)
    ensures |items| < 4 ==> r.None?
    ensures |items| >= 4 && DecodeDynvec(items[1]).None? ==> r.None?
    ensures |items| >= 4 && DecodeDynvec(items[2]).None? ==> r.None?
  {
    if |items| < 4 then None else BlockOfParts(items[0], items[1], items[2], items[3])
  }

  /** The block whose header, uncles, transactions and proposals are encoded
      in the four given buffers, decoded in that order. */
  function BlockOfParts(h: seq<byte>, u: seq<byte>, t: seq<byte>, p: seq<byte>): (r: Option<Block>)
    ensures DecodeDynvec(u).None? ==> r.None?
    ensures DecodeDynvec(t).None? ==> r.None?
  {
    BlockOfLists(h, DecodeDynvec(u), DecodeDynvec(t), p)
  }

  /** The block from its header buffer, the items of its uncles and
      transactions lists as the dynvec reader returned them, and its
      proposals buffer. */
  function BlockOfLists(h: seq<byte>, uncleParts: Option<seq<seq<byte>>>,
                        txParts: Option<seq<seq<byte>>>, p: seq<byte>): (r: Option<Block>)
    ensures uncleParts.None? || txParts.None? ==> r.None?
  {
    var header :- DecodeHeader(h);
    var up :- uncleParts;
    var uncles :- DecodeAll(up, DecodeUncleBlock);
    var tp :- txParts;
    var transactions :- DecodeAll(tp, DecodeTransaction);
    var proposals :- DecodeFixvec(p);
    Some(Block(header, uncles, transactions, proposals))
  }

  /** `Block::molecule_decode`. */
  function DecodeBlock(data: seq<byte>): (r: Option<Block>)
    ensures DecodeDynvec(data).None? ==> r.None?
    ensures r.Some? ==> |DecodeDynvec(data).value| >= 4
  {
    var items :- DecodeDynvec(data);
    BlockOfItems(items)
  }

  /** Only the first four items matter to the block reader. */
  lemma BlockOfItemsPrefix(items: seq<seq<byte>>)
    requires |items| >= 4
    ensures BlockOfItems(items) == BlockOfItems(items[..4])
  {
    var p := items[..4];
    assert p[0] == items[0] && p[1] == items[1] && p[2] == items[2] && p[3] == items[3];
    assert BlockOfItems(p) == BlockOfParts(items[0], items[1], items[2], items[3]);
  }

  /** The blocks the decoder can read back: at least one uncle and one
      transaction (empty dynvecs are rejected), every nested list decodable,
      and proposals of one width. */
  predicate BlockDecodable(b: Block)
  {
    && |b.uncles| > 0
    && |b.transactions| > 0
    && BlockContentsDecodable(b)
  }

  /** Every nested list of the block decodable, and proposals of one width. */
  predicate BlockContentsDecodable(b: Block)
  {
    && (forall i :: 0 <= i < |b.uncles| ==> ProposalsDecodable(b.uncles[i].proposals))
    && (forall i :: 0 <= i < |b.transactions| ==> TransactionDecodable(b.transactions[i]))
    && ProposalsDecodable(b.proposals)
  }

  /** The fields of a decodable block read back, given that its two dynvec
      lists fit the 32-bit length word. */
  lemma BlockItemsRoundTrip(b: Block)
    requires BlockDecodable(b)
    requires |BlockFields(b)[1]| < WORD && |BlockFields(b)[2]| < WORD
    ensures BlockOfItems(BlockFields(b)) == Some(b)
  {
    var f := BlockFields(b);
    HeaderRoundTrip(b.header);
    UnclesRoundTrip(b.uncles);
    TransactionsRoundTrip(b.transactions);
    ProposalsRoundTrip(b.proposals);
    assert BlockOfItems(f) == BlockOfParts(f[0], f[1], f[2], f[3]);
  }

  lemma BlockRoundTrip(b: Block)
    requires BlockDecodable(b)
    requires |EncodeBlock(b)| < WORD
    ensures DecodeBlock(EncodeBlock(b)) == Some(b)
  {
    var f := BlockFields(b);
    DynvecRoundTrip(f);
    DynvecItemShorter(f, 1);
    DynvecItemShorter(f, 2);
    BlockItemsRoundTrip(b);
  }

  /** A block without uncles is encoded but its encoding does not decode: the
      uncles field is the four-byte empty dynvec. */
  lemma BlockWithoutUnclesRejected(b: Block)
    requires |b.uncles| == 0
    requires |EncodeBlock(b)| < WORD
    ensures DecodeBlock(EncodeBlock(b)) == None
  {
    var f := BlockFields(b);
    DynvecRoundTrip(f);
    assert MapSeq(b.uncles, EncodeUncleBlock) == [];
    EmptyDynvecRejected();
  }

  /* ---------------------------------------------------------------------- */
  /* Block, read with the corrected dynvec reader                            */
  /* ---------------------------------------------------------------------- */

  /** The block reader with the uncles and transactions lists read by
      `DecodeDynvecChecked`, so that an empty list reads back as empty. */
  function BlockOfPartsChecked(h: seq<byte>, u: seq<byte>, t: seq<byte>, p: seq<byte>): (r: Option<Block>)
    ensures DecodeDynvecChecked(u).None? ==> r.None?
    ensures DecodeDynvecChecked(t).None? ==> r.None?
  {
    BlockOfLists(h, DecodeDynvecChecked(u), DecodeDynvecChecked(t), p)
  }

  function DecodeBlockChecked(data: seq<byte>): (r: Option<Block>)
    ensures DecodeDynvecChecked(data).None? ==> r.None?
    ensures r.Some? ==> |DecodeDynvecChecked(data).value| >= 4
  {
    var items :- DecodeDynvecChecked(data);
    if |items| < 4 then None else BlockOfPartsChecked(items[0], items[1], items[2], items[3])
  }

  lemma UnclesCheckedRoundTrip(xs: seq<UncleBlock>)
    requires forall i :: 0 <= i < |xs| ==> ProposalsDecodable(xs[i].proposals)
    requires |EncodeDynvec(MapSeq(xs, EncodeUncleBlock))| < WORD
    ensures DecodeDynvecChecked(EncodeDynvec(MapSeq(xs, EncodeUncleBlock))) == Some(MapSeq(xs, EncodeUncleBlock))
    ensures DecodeAll(MapSeq(xs, EncodeUncleBlock), DecodeUncleBlock) == Some(xs)
  {
    DynvecCheckedRoundTrip(MapSeq(xs, EncodeUncleBlock));
    if |xs| > 0 {
      UnclesRoundTrip(xs);
    } else {
      assert MapSeq(xs, EncodeUncleBlock) == [];
    }
  }

  lemma TransactionsCheckedRoundTrip(xs: seq<Transaction>)
    requires forall i :: 0 <= i < |xs| ==> TransactionDecodable(xs[i])
    requires |EncodeDynvec(MapSeq(xs, EncodeTransaction))| < WORD
    ensures DecodeDynvecChecked(EncodeDynvec(MapSeq(xs, EncodeTransaction))) == Some(MapSeq(xs, EncodeTransaction))
    ensures DecodeAll(MapSeq(xs, EncodeTransaction), DecodeTransaction) == Some(xs)
  {
    DynvecCheckedRoundTrip(MapSeq(xs, EncodeTransaction));
    if |xs| > 0 {
      TransactionsRoundTrip(xs);
    } else {
      assert MapSeq(xs, EncodeTransaction) == [];
    }
  }

  /** With the corrected reader a block round-trips whether or not it has
      uncles or transactions. */
  lemma BlockCheckedRoundTrip(b: Block)
    requires BlockContentsDecodable(b)
    requires |EncodeBlock(b)| < WORD
    ensures DecodeBlockChecked(EncodeBlock(b)) == Some(b)
  {
    var f := BlockFields(b);
    DynvecRoundTrip(f);
    DynvecItemShorter(f, 1);
    DynvecItemShorter(f, 2);
    HeaderRoundTrip(b.header);
    UnclesCheckedRoundTrip(b.uncles);
    TransactionsCheckedRoundTrip(b.transactions);
    ProposalsRoundTrip(b.proposals);
    assert DecodeBlockChecked(EncodeBlock(b)) == BlockOfPartsChecked(f[0], f[1], f[2], f[3]);
  }

  /** Wherever the as-written reader returns a block, the corrected reader
      returns the same block. */
  lemma BlockCheckedAgrees(data: seq<byte>)
    requires DecodeBlock(data).Some?
    ensures DecodeBlockChecked(data) == DecodeBlock(data)
  {
    var items := DecodeDynvec(data).value;
    assert DecodeDynvecChecked(data) == Some(items);
    assert DecodeBlock(data) == BlockOfParts(items[0], items[1], items[2], items[3]);
    BlockPartsAgree(items[0], items[1], items[2], items[3]);
  }

  lemma BlockPartsAgree(h: seq<byte>, u: seq<byte>, t: seq<byte>, p: seq<byte>)
    requires BlockOfParts(h, u, t, p).Some?
    ensures BlockOfPartsChecked(h, u, t, p) == BlockOfParts(h, u, t, p)
  {
    assert DecodeDynvecChecked(u) == DecodeDynvec(u);
    assert DecodeDynvecChecked(t) == DecodeDynvec(t);
  }

  /* ---------------------------------------------------------------------- */
  /* BlockV1                                                                 */
  /* ---------------------------------------------------------------------- */

  datatype BlockV1 = BlockV1(
    header: Header,
    uncles: seq<UncleBlock>,
    transactions: seq<Transaction>,
    proposals: seq<seq<byte>>,
    extension: seq<byte>)

  /** The fields a `BlockV1` shares with a `Block`. */
  function BlockV1Base(b: BlockV1): Block
  {
    Block(b.header, b.uncles, b.transactions, b.proposals)
  }

  function BlockV1Fields(b: BlockV1): seq<seq<byte>>
  {
    BlockFields(BlockV1Base(b)) + [EncodeBytes(b.extension)]
  }

  /** `BlockV1::molecule`: the four block fields, then the extension as `Bytes`. */
  function EncodeBlockV1(b: BlockV1): (r: seq<byte>)
    ensures |r| >= 24 + HEADER_SIZE + 4 + |b.extension|
  {
    var f := BlockV1Fields(b);
    assert |f| == 5 && |f[0]| == HEADER_SIZE && |f[4]| == 4 + |b.extension| by {
      assert f[0] == EncodeHeader(b.header) && f[4] == EncodeBytes(b.extension);
    }
    ConcatTwoParts(f, 0, 4);
    EncodeDynvec(f)
  }

  /** `BlockV1::molecule_decode`: the block fields, then the extension. */
  function DecodeBlockV1(data: seq<byte>): (r: Option<BlockV1>)
    ensures DecodeDynvec(data).None? ==> r.None?
    ensures r.Some? ==> |DecodeDynvec(data).value| >= 5
    ensures r.Some? ==> DecodeBlock(data) == Some(BlockV1Base(r.value))
  {
    var items :- DecodeDynvec(data);
    if |items| < 5 then None
    else
      var base :- BlockOfItems(items);
      var extension :- DecodeBytes(items[4]);
      Some(BlockV1(base.header, base.uncles, base.transactions, base.proposals, extension))
  }

  lemma BlockV1RoundTrip(b: BlockV1)
    requires BlockDecodable(BlockV1Base(b))
    requires |EncodeBlockV1(b)| < WORD
    ensures DecodeBlockV1(EncodeBlockV1(b)) == Some(b)
  {
    var f := BlockV1Fields(b);
    DynvecRoundTrip(f);
    DynvecItemShorter(f, 1);
    DynvecItemShorter(f, 2);
    DynvecItemShorter(f, 4);
    BlockOfItemsPrefix(f);
    assert f[..4] == BlockFields(BlockV1Base(b));
    BlockItemsRoundTrip(BlockV1Base(b));
    BytesRoundTrip(b.extension);
  }

  /** The plain block decoder reads a version-1 encoding as the block it
      extends: the fifth item, the extension, is ignored. */
  lemma BlockReadsBlockV1(b: BlockV1)
    requires BlockDecodable(BlockV1Base(b))
    requires |EncodeBlockV1(b)| < WORD
    ensures DecodeBlock(EncodeBlockV1(b)) == Some(BlockV1Base(b))
  {
    BlockV1RoundTrip(b);
  }
}

=== FILE: buddy.dfy ===
/** The buddy allocator of `src/balloc.rs`, seen abstractly: the fifteen free
    lists are sequences of block offsets, head first, and the allocator is a
    pair of pure functions over them.  The word-level representation, in which
    each free block stores the offset of the next one in its first word, is
    the subject of module `FreeList`. */
module Buddy {
  import opened Options
  import Arith

  /** The smallest block handed out, in bytes. */
  const MIN_BLOCK: nat := 64
  /** The largest order; a block of order `k` spans `MIN_BLOCK << k` bytes. */
  const MAX_ORDER: nat := 14
  /** The size of the arena, one block of the largest order. */
  const MAX_TOTAL: nat := 1024 * 1024
  /** The number of bits of a `usize` on the 64-bit target. */
  const USIZE_BITS: nat := 64
  /** `usize::MAX`: the end-of-list mark and the offset of a failed allocation. */
  const USIZE_MAX: nat := 0xFFFF_FFFF_FFFF_FFFF

  /** `MIN_BLOCK << k`. */
  function BlockSize(k: nat): (r: nat)
    ensures r >= MIN_BLOCK
  {
    if k == 0 then MIN_BLOCK else 2 * BlockSize(k - 1)
  }

  lemma {:induction false} BlockSizeGrows(j: nat, k: nat)
    requires j < k
    ensures 2 * BlockSize(j) <= BlockSize(k)
    decreases k
  {
    if j + 1 < k {
      BlockSizeGrows(j, k - 1);
    }
  }

  /** The top block is the whole arena. */
  lemma TopBlockIsArena()
    ensures BlockSize(MAX_ORDER) == MAX_TOTAL
  {
    calc {
      BlockSize(MAX_ORDER);
      BlockSize(14);
      1048576;
    }
  }

  lemma BlockSizeBounded(k: nat)
    requires k <= MAX_ORDER
    ensures BlockSize(k) <= MAX_TOTAL
  {
    TopBlockIsArena();
    if k < MAX_ORDER {
      BlockSizeGrows(k, MAX_ORDER);
    }
  }

  /** A block handed out or returned: its offset in the arena and its length. */
  datatype Blockinfo = Blockinfo(offset: nat, length: nat)

  /** What `alloc` returns when no block is left. */
  const FAILED: Blockinfo := Blockinfo(USIZE_MAX, 0)

  /** The free lists, indexed by order, each head first. */
  type Lists = seq<seq<nat>>

  /** The lists at start-up: the whole arena is the one free block of the top order. */
  function Init(): (r: Lists)
    ensures |r| == MAX_ORDER + 1
    ensures forall k :: 0 <= k < MAX_ORDER ==> r[k] == []
    ensures r[MAX_ORDER] == [0]
  {
    seq(MAX_ORDER + 1, k => if k == MAX_ORDER then [0] else [])
  }

  // ---------------------------------------------------------------------------
  // The layout invariant

  predicate IsFree(L: Lists, k: nat, x: nat)
  {
    k < |L| && x in L[k]
  }

  /** A block of order `k` at `x` is aligned to its size and lies in the arena. */
  predicate InArena(x: nat, k: nat)
  {
    x % BlockSize(k) == 0 && x + BlockSize(k) <= MAX_TOTAL
  }

  /** Two blocks do not overlap. */
  predicate Apart(x: nat, k: nat, y: nat, j: nat)
  {
    x + BlockSize(k) <= y || y + BlockSize(j) <= x
  }

  predicate NoDups(l: seq<nat>)
  {
    forall i, j :: 0 <= i < j < |l| ==> l[i] != l[j]
  }

  /** Fifteen lists; each free block is aligned and inside the arena, appears
      once, and overlaps no other free block. */
  ghost predicate Inv(L: Lists)
  {
    && |L| == MAX_ORDER + 1
    && (forall k :: 0 <= k < |L| ==> NoDups(L[k]))
    && (forall k: nat, x: nat :: IsFree(L, k, x) ==> InArena(x, k))
    && (forall k: nat, x: nat, j: nat, y: nat :: IsFree(L, k, x) && IsFree(L, j, y) && (k != j || x != y) ==> Apart(x, k, y, j))
  }

  /** Fifteen lists whose free blocks all end inside the arena. */
  ghost predicate InBounds(L: Lists)
  {
    |L| == MAX_ORDER + 1 && forall k: nat, x: nat :: IsFree(L, k, x) ==> x + BlockSize(k) <= MAX_TOTAL
  }

  /** A block of order `k` at `x` that the allocator may have handed out:
      inside the arena and clear of every free block. */
  ghost predicate Live(L: Lists, x: nat, k: nat)
  {
    InArena(x, k) && forall j: nat, y: nat :: IsFree(L, j, y) ==> Apart(x, k, y, j)
  }

  /** The number of free bytes on the lists. */
  function FreeBytes(L: Lists): nat
  {
    FreeBytesFrom(L, 0)
  }

  function FreeBytesFrom(L: Lists, k: nat): nat
    decreases |L| - k
  {
    if k >= |L| then 0 else |L[k]| * BlockSize(k) + FreeBytesFrom(L, k + 1)
  }

  /** Replacing one list changes the free bytes by its change in length times the block size. */
  lemma {:induction false} FreeBytesUpdate(L: Lists, k: nat, l: seq<nat>)
    requires k < |L|
    ensures FreeBytes(L[k := l]) + |L[k]| * BlockSize(k) == FreeBytes(L) + |l| * BlockSize(k)
  {
    FreeBytesFromUpdate(L, k, l, 0);
  }

  /** One block fewer on a list: its bytes leave the count. */
  lemma FreeBytesOneLess(L: Lists, k: nat, l: seq<nat>)
    requires k < |L| && |L[k]| == |l| + 1
    ensures FreeBytes(L[k := l]) + BlockSize(k) == FreeBytes(L)
  {
    FreeBytesUpdate(L, k, l);
    Arith.MulSucc(|l|, BlockSize(k));
  }

  /** One block more on a list: its bytes join the count. */
  lemma FreeBytesOneMore(L: Lists, k: nat, l: seq<nat>)
    requires k < |L| && |l| == |L[k]| + 1
    ensures FreeBytes(L[k := l]) == FreeBytes(L) + BlockSize(k)
  {
    FreeBytesUpdate(L, k, l);
    Arith.MulSucc(|L[k]|, BlockSize(k));
  }

  lemma {:induction false} FreeBytesFromUpdate(L: Lists, k: nat, l: seq<nat>, i: nat)
    requires k < |L| && i <= |L|
    ensures i <= k ==> FreeBytesFrom(L[k := l], i) + |L[k]| * BlockSize(k) == FreeBytesFrom(L, i) + |l| * BlockSize(k)
    ensures i > k ==> FreeBytesFrom(L[k := l], i) == FreeBytesFrom(L, i)
    decreases |L| - i
  {
    if i < |L| {
      FreeBytesFromUpdate(L, k, l, i + 1);
    }
  }

  lemma InitInv()
    ensures Inv(Init()) && FreeBytes(Init()) == MAX_TOTAL
  {
    var L := Init();
    TopBlockIsArena();
    forall k: nat, x: nat | IsFree(L, k, x) ensures k == MAX_ORDER && x == 0 {
    }
    InitFreeBytes();
  }

  lemma InitFreeBytes()
    ensures FreeBytes(Init()) == MAX_TOTAL
  {
    var L := Init();
    TopBlockIsArena();
    assert FreeBytesFrom(L, MAX_ORDER + 1) == 0;
    assert FreeBytesFrom(L, MAX_ORDER) == MAX_TOTAL;
    var i := MAX_ORDER;
    while i > 0
      invariant 0 <= i <= MAX_ORDER
      invariant FreeBytesFrom(L, i) == MAX_TOTAL
    {
      i := i - 1;
      assert L[i] == [];
    }
  }

  /** Lists whose free blocks are all free in `L`, without repeats, keep the invariant. */
  lemma InvSubset(L: Lists, L': Lists)
    requires Inv(L) && |L'| == |L|
    requires forall k :: 0 <= k < |L'| ==> NoDups(L'[k])
    requires forall k: nat, x: nat :: IsFree(L', k, x) ==> IsFree(L, k, x)
    ensures Inv(L')
  {
  }

  /** No offset is free on two lists at once. */
  lemma ListsDisjoint(L: Lists, k: nat, j: nat, x: nat)
    requires Inv(L) && IsFree(L, k, x) && IsFree(L, j, x)
    ensures k == j
  {
    assert !Apart(x, k, x, j);
  }

  // ---------------------------------------------------------------------------
  // Allocation

  /** Every list from `order` up to the top one is empty. */
  predicate NothingFreeFrom(L: Lists, order: nat)
    requires |L| == MAX_ORDER + 1
  {
    forall j :: order <= j <= MAX_ORDER ==> L[j] == []
  }

  /** `Algorithm::alloc`: take the head of the list of `order`, or else split a
      block of the next order and keep its upper half free. */
  function Alloc(L: Lists, order: nat): (r: (Lists, Blockinfo))
    requires InBounds(L)
    ensures |r.0| == MAX_ORDER + 1
    ensures r.1.length == 0 <==> NothingFreeFrom(L, order)
    ensures r.1.length == 0 ==> r == (L, FAILED)
    ensures r.1.length != 0 ==> order <= MAX_ORDER && r.1.length == BlockSize(order)
    ensures r.1.length != 0 ==> r.1.offset + r.1.length <= MAX_TOTAL
    ensures forall j :: 0 <= j < order && j <= MAX_ORDER ==> r.0[j] == L[j]
    decreases MAX_ORDER + 1 - order
  {
    if order > MAX_ORDER then (L, FAILED)
    else if L[order] != [] then
      assert IsFree(L, order, L[order][0]);
      (L[order := L[order][1..]], Blockinfo(L[order][0], BlockSize(order)))
    else
      var (L1, b) := Alloc(L, order + 1);
      if b.offset == USIZE_MAX then (L1, Blockinfo(b.offset, 0))
      else
        BlockSizeGrows(order, order + 1);
        (L1[order := [b.offset + BlockSize(order)]], Blockinfo(b.offset, BlockSize(order)))
  }

  /** Allocation keeps the invariant, hands out an aligned block that overlaps no
      free block, and takes exactly its bytes off the lists. */
  lemma {:induction false} AllocPreservesInv(L: Lists, order: nat)
    requires Inv(L)
    ensures Inv(Alloc(L, order).0)
    ensures var (L', b) := Alloc(L, order);
      b.length != 0 ==>
        && b.offset < MAX_TOTAL
        && Live(L', b.offset, order)
        && FreeBytes(L') + b.length == FreeBytes(L)
    decreases MAX_ORDER + 1 - order
  {
    if order > MAX_ORDER {
    } else if L[order] != [] {
      PopKeepsInv(L, order);
    } else {
      AllocPreservesInv(L, order + 1);
      AllocSplitKeepsInv(L, order);
    }
  }

  /** The inductive step of `AllocPreservesInv` for an empty list of `order`. */
  lemma AllocSplitKeepsInv(L: Lists, order: nat)
    requires Inv(L) && order <= MAX_ORDER && L[order] == []
    requires Inv(Alloc(L, order + 1).0)
    requires var (L1, b1) := Alloc(L, order + 1);
      b1.length != 0 ==>
        && Live(L1, b1.offset, order + 1)
        && FreeBytes(L1) + b1.length == FreeBytes(L)
    ensures Inv(Alloc(L, order).0)
    ensures var (L', b) := Alloc(L, order);
      b.length != 0 ==>
        && b.offset < MAX_TOTAL
        && Live(L', b.offset, order)
        && FreeBytes(L') + b.length == FreeBytes(L)
  {
    var (L1, b1) := Alloc(L, order + 1);
    if b1.offset != USIZE_MAX {
      assert b1.length != 0 && order < MAX_ORDER;
      AllocSplitCase(L, order);
      SplitKeepsInv(L1, b1.offset, order);
      assert BlockSize(order + 1) == 2 * BlockSize(order);
    }
  }

  /** Taking the head of a list keeps the invariant and leaves the head live. */
  lemma PopKeepsInv(L: Lists, order: nat)
    requires Inv(L) && order <= MAX_ORDER && L[order] != []
    ensures var L' := L[order := L[order][1..]];
      && Inv(L')
      && Live(L', L[order][0], order)
      && FreeBytes(L') + BlockSize(order) == FreeBytes(L)
  {
    var L' := L[order := L[order][1..]];
    var x := L[order][0];
    var l := L[order][1..];
    assert IsFree(L, order, x);
    forall k: nat, y: nat | IsFree(L', k, y) ensures IsFree(L, k, y) && (k, y) != (order, x) {
      if k == order {
        var i :| 0 <= i < |l| && l[i] == y;
        assert L[order][i + 1] == y;
      }
    }
    InvSubset(L, L');
    FreeBytesOneLess(L, order, l);
  }

  /** Splitting a live block of order `order + 1` keeps the invariant: its
      upper half becomes the one free block of `order` and its lower half is live. */
  lemma SplitKeepsInv(L: Lists, x: nat, order: nat)
    requires Inv(L) && order < MAX_ORDER && L[order] == [] && Live(L, x, order + 1)
    ensures var L' := L[order := [x + BlockSize(order)]];
      && Inv(L')
      && Live(L', x, order)
      && FreeBytes(L') == FreeBytes(L) + BlockSize(order)
  {
    var L' := L[order := [x + BlockSize(order)]];
    SplitHalves(L, x, order);
    FreeBytesOneMore(L, order, [x + BlockSize(order)]);
  }

  /** The invariant and liveness half of `SplitKeepsInv`. */
  lemma SplitHalves(L: Lists, x: nat, order: nat)
    requires Inv(L) && order < MAX_ORDER && L[order] == [] && Live(L, x, order + 1)
    ensures var L' := L[order := [x + BlockSize(order)]];
      Inv(L') && Live(L', x, order)
  {
    var s := BlockSize(order);
    var L' := L[order := [x + s]];
    assert BlockSize(order + 1) == 2 * s;
    Arith.HalfAligned(x, s);
    SplitFree(L, x + s, order);
    SplitDisjoint(L, L', x, order);
  }

  /** After pushing `u` onto the empty list of `order`, the free blocks are
      those of before and `u`. */
  lemma SplitFree(L: Lists, u: nat, order: nat)
    requires |L| == MAX_ORDER + 1 && order <= MAX_ORDER && L[order] == []
    ensures forall k: nat, y: nat :: IsFree(L[order := [u]], k, y) ==> (k, y) == (order, u) || IsFree(L, k, y)
  {
    var L' := L[order := [u]];
    forall k: nat, y: nat | IsFree(L', k, y) ensures (k, y) == (order, u) || IsFree(L, k, y) {
      if k == order {
        assert y in [u];
      }
    }
  }

  /** The halves of a live block are clear of every free block and of each other. */
  lemma SplitDisjoint(L: Lists, L': Lists, x: nat, order: nat)
    requires Inv(L) && order < MAX_ORDER && Live(L, x, order + 1) && |L'| == |L|
    requires BlockSize(order + 1) == 2 * BlockSize(order)
    requires forall k: nat, y: nat :: IsFree(L', k, y) ==> (k, y) == (order, x + BlockSize(order)) || IsFree(L, k, y)
    ensures forall k: nat, y: nat, j: nat, z: nat :: IsFree(L', k, y) && IsFree(L', j, z) && (k != j || y != z) ==> Apart(y, k, z, j)
    ensures forall j: nat, y: nat :: IsFree(L', j, y) ==> Apart(x, order, y, j)
  {
    var u := x + BlockSize(order);
    forall k: nat, y: nat, j: nat, z: nat | IsFree(L', k, y) && IsFree(L', j, z) && (k != j || y != z)
      ensures Apart(y, k, z, j)
    {
      if (k, y) == (order, u) {
        assert Apart(x, order + 1, z, j);
      } else if (j, z) == (order, u) {
        assert Apart(x, order + 1, y, k);
      }
    }
    forall j: nat, y: nat | IsFree(L', j, y) ensures Apart(x, order, y, j) {
      if (j, y) != (order, u) {
        assert Apart(x, order + 1, y, j);
      }
    }
  }

  /** Allocation from `order` when the list of that order is empty leaves the
      upper half of the split block as the only free block of that order. */
  lemma AllocSplitLeavesBuddy(L: Lists, order: nat)
    requires Inv(L) && order <= MAX_ORDER && L[order] == []
    ensures var (L', b) := Alloc(L, order);
      b.length != 0 ==> L'[order] == [b.offset + b.length]
  {
    if Alloc(L, order + 1).1.offset != USIZE_MAX {
      AllocSplitCase(L, order);
    } else {
      AllocFailCase(L, order);
    }
  }

  // ---------------------------------------------------------------------------
  // Orders from lengths

  /** `m << i` on a 64-bit `usize`: bits shifted past the top are lost. */
  function Shl(m: nat, i: nat): (r: nat)
    ensures r <= USIZE_MAX
  {
    if i == 0 then m % (USIZE_MAX + 1) else (2 * Shl(m, i - 1)) % (USIZE_MAX + 1)
  }

  /** The loop of `log2(m, n)` from round `i`: the first round `i <= s < 64`
      at which `m << s == n`; `None` stands for `unreachable!()`. */
  function Log2From(m: nat, n: nat, i: nat): (r: Option<nat>)
    ensures r.Some? ==> i <= r.value < USIZE_BITS && Shl(m, r.value) == n
    ensures r.Some? ==> forall s :: i <= s < r.value ==> Shl(m, s) != n
    ensures r.None? ==> forall s :: i <= s < USIZE_BITS ==> Shl(m, s) != n
    decreases USIZE_BITS - i
  {
    if i >= USIZE_BITS then None
    else if Shl(m, i) == n then Some(i)
    else Log2From(m, n, i + 1)
  }

  /** `log2(m, n)`. */
  function Log2(m: nat, n: nat): Option<nat>
  {
    Log2From(m, n, 0)
  }

  /** `log2(m, n)` is the first shift of `m` that reaches `n`. */
  lemma Log2First(m: nat, n: nat, s: nat)
    requires s < USIZE_BITS && Shl(m, s) == n
    requires forall t :: 0 <= t < s ==> Shl(m, t) != n
    ensures Log2(m, n) == Some(s)
  {
    var r := Log2From(m, n, 0);
    assert r.Some? ==> r.value <= s;
    assert r.Some? ==> r.value >= s;
  }

  /** A value that fits in a `usize` is unchanged by the wrap-around. */
  lemma NoWrap(x: nat)
    requires x <= USIZE_MAX
    ensures x % (USIZE_MAX + 1) == x
  {
  }

  /** Within the orders the shift does not wrap: `MIN_BLOCK << k` is the block size. */
  lemma {:induction false} ShlBlockSize(k: nat)
    requires k <= MAX_ORDER
    ensures Shl(MIN_BLOCK, k) == BlockSize(k)
  {
    BlockSizeBounded(k);
    if k == 0 {
      NoWrap(MIN_BLOCK);
    } else {
      ShlBlockSize(k - 1);
      NoWrap(BlockSize(k));
    }
  }

  /** A length the allocator accepts: `MIN_BLOCK` shifted by an order at most `MAX_ORDER`. */
  predicate ValidLength(n: nat)
  {
    && MIN_BLOCK <= n <= MAX_TOTAL
    && Log2(MIN_BLOCK, n).Some? && Log2(MIN_BLOCK, n).value <= MAX_ORDER
  }

  function OrderOf(n: nat): nat
    requires ValidLength(n)
  {
    Log2(MIN_BLOCK, n).value
  }

  /** The accepted lengths are exactly the block sizes, and `log2` recovers the order. */
  lemma OrderOfBlockSize(k: nat)
    requires k <= MAX_ORDER
    ensures ValidLength(BlockSize(k)) && OrderOf(BlockSize(k)) == k
  {
    forall s: nat | s <= MAX_ORDER ensures Shl(MIN_BLOCK, s) == BlockSize(s) {
      ShlBlockSize(s);
    }
    forall s: nat | s < k ensures BlockSize(s) < BlockSize(k) {
      BlockSizeGrows(s, k);
    }
    BlockSizeBounded(k);
  }

  lemma ValidLengthIsBlockSize(n: nat)
    requires ValidLength(n)
    ensures n == BlockSize(OrderOf(n))
  {
    ShlBlockSize(OrderOf(n));
  }

  // ---------------------------------------------------------------------------
  // Freeing

  /** `block_idx ^ 1`. */
  function Xor1(i: nat): nat
  {
    if i % 2 == 0 then i + 1 else i - 1
  }

  function Min(a: nat, b: nat): nat
  {
    if a <= b then a else b
  }

  /** The buddy of a block: the other half of the block of twice its length. */
  function BuddyOf(b: Blockinfo): Blockinfo
    requires b.length > 0
  {
    Blockinfo(Xor1(b.offset / b.length) * b.length, b.length)
  }

  /** The block of twice the length that a block and its buddy merge into. */
  function Upper(b: Blockinfo): Blockinfo
    requires b.length > 0
  {
    Blockinfo(Min(b.offset, BuddyOf(b).offset), 2 * b.length)
  }

  /** A block and its buddy are neighbours, and the lower of the two is
      aligned to their combined length. */
  lemma BuddyGeometry(b: Blockinfo)
    requires b.length > 0 && b.offset % b.length == 0
    ensures var y := BuddyOf(b).offset;
      && (y == b.offset + b.length || y + b.length == b.offset)
      && y % b.length == 0
      && Upper(b).offset % (2 * b.length) == 0
      && (Upper(b).offset == b.offset || Upper(b).offset == y)
  {
    var len := b.length;
    var i := b.offset / len;
    Arith.ModMultiple(b.offset, len);
    assert b.offset == i * len;
    Arith.MulModZero(Xor1(i), len);
    var q := i / 2;
    if i % 2 == 0 {
      assert i == 2 * q;
      assert b.offset == q * (2 * len);
      assert Xor1(i) * len == i * len + len;
      Arith.MulModZero(q, 2 * len);
    } else {
      assert i == 2 * q + 1;
      assert Xor1(i) * len == q * (2 * len);
      assert Xor1(i) * len + len == i * len;
      Arith.MulModZero(q, 2 * len);
    }
  }

  /** `Algorithm::state`: 0 when the block is on the free list of its order, 1 otherwise. */
  function State(L: Lists, b: Blockinfo): (r: nat)
    requires |L| == MAX_ORDER + 1 && ValidLength(b.length)
    ensures r == 0 <==> IsFree(L, OrderOf(b.length), b.offset)
    ensures r <= 1
  {
    if b.offset in L[OrderOf(b.length)] then 0 else 1
  }

  /** The list with the first occurrence of `x` taken out. */
  function RemoveFirst(l: seq<nat>, x: nat): (r: seq<nat>)
    ensures x in l ==> |r| == |l| - 1
    ensures x !in l ==> r == l
    ensures forall y :: y in r ==> y in l
  {
    if l == [] then []
    else if l[0] == x then l[1..]
    else [l[0]] + RemoveFirst(l[1..], x)
  }

  lemma {:induction false} RemoveFirstNoDups(l: seq<nat>, x: nat)
    requires NoDups(l)
    ensures NoDups(RemoveFirst(l, x)) && x !in RemoveFirst(l, x)
    ensures forall y :: y in l && y != x ==> y in RemoveFirst(l, x)
  {
    if l != [] {
      assert NoDups(l[1..]);
      RemoveFirstNoDups(l[1..], x);
      if l[0] != x {
        var t := RemoveFirst(l[1..], x);
        assert l[0] !in l[1..] by {
          forall i | 0 <= i < |l| - 1 ensures l[1..][i] != l[0] {
            assert l[1..][i] == l[i + 1];
          }
        }
        forall y | y in l && y != x ensures y in [l[0]] + t {
          if y != l[0] {
            var i :| 0 <= i < |l| && l[i] == y;
            assert l[1..][i - 1] == y;
          }
        }
      }
    }
  }

  /** `Algorithm::merge`: take the block off the free list of its order. */
  function Merge(L: Lists, b: Blockinfo): (r: Lists)
    requires |L| == MAX_ORDER + 1 && ValidLength(b.length)
  {
    L[OrderOf(b.length) := RemoveFirst(L[OrderOf(b.length)], b.offset)]
  }

  /** What `Algorithm::merge` does to the free blocks: exactly the given one is
      no longer free, and the free bytes drop by its length. */
  lemma MergeEffect(L: Lists, b: Blockinfo)
    requires Inv(L) && ValidLength(b.length) && IsFree(L, OrderOf(b.length), b.offset)
    ensures Inv(Merge(L, b))
    ensures forall k: nat, x: nat :: IsFree(Merge(L, b), k, x) <==> IsFree(L, k, x) && (k, x) != (OrderOf(b.length), b.offset)
    ensures FreeBytes(Merge(L, b)) + b.length == FreeBytes(L)
  {
    var k := OrderOf(b.length);
    var l := RemoveFirst(L[k], b.offset);
    RemoveFirstNoDups(L[k], b.offset);
    InvSubset(L, Merge(L, b));
    FreeBytesOneLess(L, k, l);
    ValidLengthIsBlockSize(b.length);
  }

  /** A block that may be given back: the failure offset, or a live block of an accepted length. */
  ghost predicate Closable(L: Lists, b: Blockinfo)
  {
    b.offset == USIZE_MAX || (ValidLength(b.length) && Live(L, b.offset, OrderOf(b.length)))
  }

  /** The two halves of a block are clear of a block exactly when the whole is. */
  lemma MergedApart(x: nat, y: nat, s: nat, z: nat, t: nat)
    requires t > 0 && (y == x + s || x == y + s)
    requires x + s <= z || z + t <= x
    requires y + s <= z || z + t <= y
    ensures Min(x, y) + 2 * s <= z || z + t <= Min(x, y)
  {
  }

  /** When the buddy of a live block is free, it merges with it into a live
      block of the next order. */
  lemma CloseStep(L: Lists, b: Blockinfo)
    requires Inv(L) && b.offset != USIZE_MAX && ValidLength(b.length)
    requires Live(L, b.offset, OrderOf(b.length))
    requires IsFree(L, OrderOf(b.length), BuddyOf(b).offset)
    ensures OrderOf(b.length) < MAX_ORDER
    ensures Inv(Merge(L, BuddyOf(b))) && Closable(Merge(L, BuddyOf(b)), Upper(b))
    ensures Upper(b).length == BlockSize(OrderOf(b.length) + 1)
    ensures FreeBytes(Merge(L, BuddyOf(b))) + b.length == FreeBytes(L)
    ensures Upper(b).offset != USIZE_MAX && Upper(b).length <= MAX_TOTAL
  {
    var k := OrderOf(b.length);
    ValidLengthIsBlockSize(b.length);
    BuddyGeometry(b);
    var y := BuddyOf(b).offset;
    assert InArena(y, k);
    MergeTarget(b.offset, y, k);
    OrderOfBlockSize(k + 1);
    MergeEffect(L, BuddyOf(b));
    MergedLive(L, Merge(L, BuddyOf(b)), b.offset, y, k);
  }

  /** Two buddies inside the arena merge into a block of the next order inside the arena. */
  lemma MergeTarget(x: nat, y: nat, k: nat)
    requires InArena(x, k) && InArena(y, k)
    requires y == x + BlockSize(k) || x == y + BlockSize(k)
    requires Min(x, y) % (2 * BlockSize(k)) == 0
    ensures k < MAX_ORDER && BlockSize(k + 1) == 2 * BlockSize(k)
    ensures InArena(Min(x, y), k + 1)
  {
    var s := BlockSize(k);
    assert Min(x, y) + 2 * s <= MAX_TOTAL;
    TopBlockIsArena();
    forall j: nat | MAX_ORDER < j ensures MAX_TOTAL < BlockSize(j) {
      BlockSizeGrows(MAX_ORDER, j);
    }
    assert BlockSize(k + 1) == 2 * s;
  }

  /** The merged block overlaps no block that stays free. */
  lemma MergedLive(L: Lists, L': Lists, x: nat, y: nat, k: nat)
    requires Inv(L) && Live(L, x, k) && IsFree(L, k, y)
    requires y == x + BlockSize(k) || x == y + BlockSize(k)
    requires InArena(Min(x, y), k + 1)
    requires forall j: nat, z: nat :: IsFree(L', j, z) ==> IsFree(L, j, z) && (j, z) != (k, y)
    ensures Live(L', Min(x, y), k + 1)
  {
    forall j: nat, z: nat | IsFree(L', j, z) ensures Apart(Min(x, y), k + 1, z, j) {
      assert Apart(x, k, z, j);
      assert Apart(y, k, z, j);
      MergedApart(x, y, BlockSize(k), z, BlockSize(j));
    }
  }

  /** Some free block holds the `n` bytes at `x`. */
  ghost predicate Covered(L: Lists, x: nat, n: nat)
  {
    exists j: nat, y: nat :: IsFree(L, j, y) && y <= x && x + n <= y + BlockSize(j)
  }

  /** Every block free in `L` lies inside a block free in `L'`. */
  ghost predicate CoveredBy(L: Lists, L': Lists)
  {
    forall k: nat, x: nat :: IsFree(L, k, x) ==> Covered(L', x, BlockSize(k))
  }

  /** A stretch inside a covered stretch is covered. */
  lemma CoveredInside(L: Lists, u: nat, m: nat, x: nat, n: nat)
    requires Covered(L, u, m) && u <= x && x + n <= u + m
    ensures Covered(L, x, n)
  {
    var j: nat, y: nat :| IsFree(L, j, y) && y <= u && u + m <= y + BlockSize(j);
    assert IsFree(L, j, y) && y <= x && x + n <= y + BlockSize(j);
  }

  /** A covered block overlaps a free block, so it is no longer live. */
  lemma CoveredNotLive(L: Lists, x: nat, k: nat)
    requires Covered(L, x, BlockSize(k))
    ensures !Live(L, x, k)
  {
    var j: nat, y: nat :| IsFree(L, j, y) && y <= x && x + BlockSize(k) <= y + BlockSize(j);
    assert !Apart(x, k, y, j);
  }

  /** When the merged block ends up inside a free block, so do the block and
      its buddy, and so does every block free before the merge. */
  lemma CloseMergeCovers(L: Lists, b: Blockinfo, r: Lists)
    requires Inv(L) && b.offset != USIZE_MAX && ValidLength(b.length)
    requires Live(L, b.offset, OrderOf(b.length))
    requires IsFree(L, OrderOf(b.length), BuddyOf(b).offset)
    requires Covered(r, Upper(b).offset, Upper(b).length)
    requires CoveredBy(Merge(L, BuddyOf(b)), r)
    ensures Covered(r, b.offset, b.length) && CoveredBy(L, r)
  {
    var k := OrderOf(b.length);
    var y := BuddyOf(b).offset;
    ValidLengthIsBlockSize(b.length);
    BuddyGeometry(b);
    MergeEffect(L, BuddyOf(b));
    CoveredInside(r, Upper(b).offset, Upper(b).length, b.offset, b.length);
    forall j: nat, z: nat | IsFree(L, j, z) ensures Covered(r, z, BlockSize(j)) {
      if (j, z) == (k, y) {
        CoveredInside(r, Upper(b).offset, Upper(b).length, z, BlockSize(j));
      } else {
        assert IsFree(Merge(L, BuddyOf(b)), j, z);
      }
    }
  }

  /** `Algorithm::close`: merge with the buddy while it is free, then push the
      block on the list of its order.  Which bytes become free is stated by
      `CloseCovers`. */
  function Close(L: Lists, b: Blockinfo): (r: Lists)
    requires Inv(L) && Closable(L, b)
    ensures Inv(r)
    ensures b.offset == USIZE_MAX ==> r == L
    ensures b.offset != USIZE_MAX ==> FreeBytes(r) == FreeBytes(L) + b.length
    decreases 2 * MAX_TOTAL - b.length
  {
    if b.offset == USIZE_MAX then L
    else
      var k := OrderOf(b.length);
      var buddy := BuddyOf(b);
      if State(L, buddy) == 0 then
        CloseStep(L, b);
        Close(Merge(L, buddy), Upper(b))
      else
        ValidLengthIsBlockSize(b.length);
        PushPreservesInv(L, b.offset, k);
        L[k := [b.offset] + L[k]]
  }

  /** The bytes `close` frees are the block's own: afterwards the block lies
      inside a free block (so it is no longer live), and every block that was
      free still lies inside one.  With the free-byte count of `Close`, this
      says the free space grows by exactly the given block. */
  lemma {:induction false} CloseCovers(L: Lists, b: Blockinfo)
    requires Inv(L) && Closable(L, b) && b.offset != USIZE_MAX
    ensures Covered(Close(L, b), b.offset, b.length)
    ensures CoveredBy(L, Close(L, b))
    ensures !Live(Close(L, b), b.offset, OrderOf(b.length))
    decreases 2 * MAX_TOTAL - b.length
  {
    var k := OrderOf(b.length);
    var buddy := BuddyOf(b);
    ValidLengthIsBlockSize(b.length);
    var r := Close(L, b);
    if State(L, buddy) == 0 {
      CloseStep(L, b);
      assert r == Close(Merge(L, buddy), Upper(b));
      CloseCovers(Merge(L, buddy), Upper(b));
      CloseMergeCovers(L, b, r);
    } else {
      assert r == L[k := [b.offset] + L[k]];
      assert IsFree(r, k, b.offset);
      forall j: nat, z: nat | IsFree(L, j, z) ensures Covered(r, z, BlockSize(j)) {
        assert IsFree(r, j, z);
      }
    }
    CoveredNotLive(r, b.offset, k);
  }

  /** Pushing a live block on the list of its order keeps the invariant and adds its bytes. */
  lemma PushPreservesInv(L: Lists, x: nat, k: nat)
    requires Inv(L) && k <= MAX_ORDER && Live(L, x, k)
    ensures Inv(L[k := [x] + L[k]])
    ensures FreeBytes(L[k := [x] + L[k]]) == FreeBytes(L) + BlockSize(k)
  {
    var L' := L[k := [x] + L[k]];
    assert !Apart(x, k, x, k);
    ConsNoDups(x, L[k]);
    forall j: nat, y: nat | IsFree(L', j, y) ensures (j, y) == (k, x) || IsFree(L, j, y) {
      if j == k && y != x {
        assert y in L[k];
      }
    }
    PushDisjoint(L, L', x, k);
    FreeBytesOneMore(L, k, [x] + L[k]);
  }

  lemma ConsNoDups(x: nat, l: seq<nat>)
    requires NoDups(l) && x !in l
    ensures NoDups([x] + l)
  {
    forall a, c | 0 <= a < c < |l| + 1 ensures ([x] + l)[a] != ([x] + l)[c] {
      assert ([x] + l)[c] == l[c - 1];
      if a > 0 {
        assert ([x] + l)[a] == l[a - 1];
      }
    }
  }

  /** Adding a live block to the free blocks keeps them pairwise apart. */
  lemma PushDisjoint(L: Lists, L': Lists, x: nat, k: nat)
    requires Inv(L) && Live(L, x, k) && |L'| == |L|
    requires forall j: nat, y: nat :: IsFree(L', j, y) ==> (j, y) == (k, x) || IsFree(L, j, y)
    ensures forall j: nat, y: nat, i: nat, z: nat :: IsFree(L', j, y) && IsFree(L', i, z) && (j != i || y != z) ==> Apart(y, j, z, i)
  {
  }

  /** The buddy of the whole arena lies past its end, so it is never free and
      merging stops at the top order. */
  lemma TopBuddyNeverFree(L: Lists)
    requires Inv(L)
    ensures BuddyOf(Blockinfo(0, MAX_TOTAL)).offset == MAX_TOTAL
    ensures ValidLength(MAX_TOTAL) && State(L, BuddyOf(Blockinfo(0, MAX_TOTAL))) == 1
  {
    TopBlockIsArena();
    OrderOfBlockSize(MAX_ORDER);
    assert !InArena(MAX_TOTAL, MAX_ORDER);
  }

  // ---------------------------------------------------------------------------
  // From the initial state

  /** The lists after splitting the arena down to one block of order `k`: one
      free block of each order from `k` up to the one below the top. */
  function Split(k: nat): (r: Lists)
    ensures |r| == MAX_ORDER + 1
    ensures forall j :: 0 <= j <= MAX_ORDER ==> r[j] == if k <= j < MAX_ORDER then [BlockSize(j)] else []
  {
    seq(MAX_ORDER + 1, j => if k <= j < MAX_ORDER then [BlockSize(j)] else [])
  }

  /** The first allocation of order `k` splits the arena down to `k` and hands
      out the block at offset 0. */
  lemma {:induction false} AllocFromInit(k: nat)
    requires k <= MAX_ORDER
    ensures InBounds(Init()) && Alloc(Init(), k) == (Split(k), Blockinfo(0, BlockSize(k)))
    decreases MAX_ORDER - k
  {
    InitInBounds();
    var L := Init();
    if k == MAX_ORDER {
      SplitTop();
    } else {
      AllocFromInit(k + 1);
      assert L[k] == [];
      var r1 := Alloc(L, k + 1);
      assert r1 == (Split(k + 1), Blockinfo(0, BlockSize(k + 1)));
      SplitStep(k);
      AllocSplitCase(L, k);
    }
  }

  /** The pop branch of `Algorithm::alloc`. */
  lemma AllocPopCase(L: Lists, order: nat)
    requires InBounds(L) && order <= MAX_ORDER && L[order] != []
    ensures Alloc(L, order) == (L[order := L[order][1..]], Blockinfo(L[order][0], BlockSize(order)))
  {
  }

  /** The branch of `Algorithm::alloc` where the next order has nothing to split either. */
  lemma AllocFailCase(L: Lists, order: nat)
    requires InBounds(L) && order <= MAX_ORDER && L[order] == []
    requires Alloc(L, order + 1).1.offset == USIZE_MAX
    ensures Alloc(L, order) == (Alloc(L, order + 1).0, FAILED)
  {
  }

  /** The split branch of `Algorithm::alloc`. */
  lemma AllocSplitCase(L: Lists, order: nat)
    requires InBounds(L) && order <= MAX_ORDER && L[order] == []
    requires Alloc(L, order + 1).1.offset != USIZE_MAX
    ensures var (L1, b) := Alloc(L, order + 1);
      Alloc(L, order) == (L1[order := [b.offset + BlockSize(order)]], Blockinfo(b.offset, BlockSize(order)))
  {
  }

  lemma InitInBounds()
    ensures InBounds(Init())
  {
    TopBlockIsArena();
    forall k: nat, x: nat | IsFree(Init(), k, x) ensures k == MAX_ORDER && x == 0 {
    }
  }

  lemma SplitTop()
    ensures Init()[MAX_ORDER := Init()[MAX_ORDER][1..]] == Split(MAX_ORDER)
  {
    assert Init()[MAX_ORDER][1..] == [];
    forall j | 0 <= j <= MAX_ORDER ensures Init()[MAX_ORDER := []][j] == Split(MAX_ORDER)[j] {
    }
  }

  lemma SplitStep(k: nat)
    requires k < MAX_ORDER
    ensures Split(k + 1)[k := [BlockSize(k)]] == Split(k)
  {
    forall j | 0 <= j <= MAX_ORDER ensures Split(k + 1)[k := [BlockSize(k)]][j] == Split(k)[j] {
    }
  }

  /** The merge branch of `Algorithm::close`. */
  lemma CloseMergeCase(L: Lists, b: Blockinfo)
    requires Inv(L) && b.offset != USIZE_MAX && Closable(L, b)
    requires State(L, BuddyOf(b)) == 0
    ensures Inv(Merge(L, BuddyOf(b))) && Closable(Merge(L, BuddyOf(b)), Upper(b))
    ensures Close(L, b) == Close(Merge(L, BuddyOf(b)), Upper(b))
  {
    CloseStep(L, b);
  }

  /** The push branch of `Algorithm::close`. */
  lemma ClosePushCase(L: Lists, b: Blockinfo)
    requires Inv(L) && b.offset != USIZE_MAX && Closable(L, b)
    requires State(L, BuddyOf(b)) == 1
    ensures Close(L, b) == L[OrderOf(b.length) := [b.offset] + L[OrderOf(b.length)]]
  {
  }

  /** The lists after the first allocation keep the invariant, and the block handed out is live. */
  lemma SplitInv(k: nat)
    requires k <= MAX_ORDER
    ensures Inv(Split(k)) && Live(Split(k), 0, k)
  {
    InitInv();
    AllocFromInit(k);
    AllocPreservesInv(Init(), k);
  }

  lemma MergeSplit(k: nat)
    requires k < MAX_ORDER
    ensures ValidLength(BlockSize(k)) && OrderOf(BlockSize(k)) == k
    ensures Merge(Split(k), Blockinfo(BlockSize(k), BlockSize(k))) == Split(k + 1)
  {
    OrderOfBlockSize(k);
    forall j | 0 <= j <= MAX_ORDER
      ensures Merge(Split(k), Blockinfo(BlockSize(k), BlockSize(k)))[j] == Split(k + 1)[j]
    {
    }
  }

  lemma PushTop()
    ensures Split(MAX_ORDER)[MAX_ORDER := [0] + Split(MAX_ORDER)[MAX_ORDER]] == Init()
  {
    forall j | 0 <= j <= MAX_ORDER
      ensures Split(MAX_ORDER)[MAX_ORDER := [0] + Split(MAX_ORDER)[MAX_ORDER]][j] == Init()[j]
    {
    }
  }

  /** Freeing the block of order `k` below the top merges it with its free
      buddy into the block of order `k + 1` that the next allocation split. */
  lemma CloseSplitStep(k: nat)
    requires k < MAX_ORDER
    ensures Inv(Split(k)) && Closable(Split(k), Blockinfo(0, BlockSize(k)))
    ensures Inv(Split(k + 1)) && Closable(Split(k + 1), Blockinfo(0, BlockSize(k + 1)))
    ensures Close(Split(k), Blockinfo(0, BlockSize(k))) == Close(Split(k + 1), Blockinfo(0, BlockSize(k + 1)))
  {
    SplitInv(k);
    SplitInv(k + 1);
    OrderOfBlockSize(k);
    OrderOfBlockSize(k + 1);
    var L := Split(k);
    var b := Blockinfo(0, BlockSize(k));
    assert BuddyOf(b).offset == BlockSize(k) by {
      Arith.MulModZero(1, BlockSize(k));
    }
    assert IsFree(L, k, BlockSize(k));
    CloseMergeCase(L, b);
    MergeSplit(k);
    assert Upper(b) == Blockinfo(0, BlockSize(k + 1));
  }

  /** Freeing the whole arena pushes it back on the top list. */
  lemma CloseSplitTop()
    ensures Inv(Split(MAX_ORDER)) && Closable(Split(MAX_ORDER), Blockinfo(0, MAX_TOTAL))
    ensures Close(Split(MAX_ORDER), Blockinfo(0, MAX_TOTAL)) == Init()
  {
    TopBlockIsArena();
    SplitInv(MAX_ORDER);
    OrderOfBlockSize(MAX_ORDER);
    var L := Split(MAX_ORDER);
    TopBuddyNeverFree(L);
    ClosePushCase(L, Blockinfo(0, MAX_TOTAL));
    PushTop();
  }

  /** Freeing that block again merges all the way up and restores the initial lists. */
  lemma {:induction false} CloseFromSplit(k: nat)
    requires k <= MAX_ORDER
    ensures Inv(Split(k)) && Closable(Split(k), Blockinfo(0, BlockSize(k)))
    ensures Close(Split(k), Blockinfo(0, BlockSize(k))) == Init()
    decreases MAX_ORDER - k
  {
    if k == MAX_ORDER {
      TopBlockIsArena();
      CloseSplitTop();
    } else {
      CloseSplitStep(k);
      CloseFromSplit(k + 1);
    }
  }
}

=== FILE: freelist.dfy ===
/** The buddy allocator of `src/balloc.rs` at the level of words: `FREE_LIST`
    holds the offset of the first free block of each order, and each free
    block stores the offset of the next one of its order in its first word,
    `usize::MAX` ending the list.  Each method follows its Rust counterpart
    step by step and is shown to do to the words what the functions of module
    `Buddy` do to the abstract lists. */
module FreeList {
  import opened Buddy

  /** The offset that ends a list. */
  const SENTINEL: nat := USIZE_MAX

  /** The allocator's state: the list heads, one per order, and the words
      stored at the start of blocks, keyed by offset. */
  datatype Arena = Arena(heads: seq<nat>, words: map<nat, nat>)

  /** The state at start-up: every list empty but the top one, whose single
      block at offset 0 holds the end mark in its first word. */
  function InitArena(): Arena
  {
    Arena(seq(MAX_ORDER + 1, k => if k == MAX_ORDER then 0 else SENTINEL), map[0 := SENTINEL])
  }

  /** `uldr`: the word at an offset. */
  function Load(a: Arena, p: nat): nat
    requires p in a.words
  {
    a.words[p]
  }

  /** `ustr`: overwrite the word at an offset. */
  function Store(a: Arena, p: nat, v: nat): Arena
  {
    a.(words := a.words[p := v])
  }

  /** What the word of the `i`th block of a list holds: the offset of the next one, or the end mark. */
  function Next(l: seq<nat>, i: nat): nat
  {
    if i + 1 < |l| then l[i + 1] else SENTINEL
  }

  /** The chain from `h` through the words visits exactly the offsets of `l`,
      in order.  (The second quantifier fires on a word read only, so that its
      instances do not feed one another.) */
  ghost predicate Linked(h: nat, w: map<nat, nat>, l: seq<nat>)
  {
    && h == (if l == [] then SENTINEL else l[0])
    && (forall i :: 0 <= i < |l| ==> l[i] != SENTINEL && l[i] in w)
    && (forall i {:trigger w[l[i]]} :: 0 <= i < |l| ==> w[l[i]] == Next(l, i))
  }

  /** The arena stores the lists `L`. */
  ghost predicate Repr(a: Arena, L: Lists)
  {
    |a.heads| == |L| == MAX_ORDER + 1 && forall k :: 0 <= k < |L| ==> Linked(a.heads[k], a.words, L[k])
  }

  lemma InitRepr()
    ensures Repr(InitArena(), Init())
  {
    var a := InitArena();
    forall k | 0 <= k < MAX_ORDER + 1 ensures Linked(a.heads[k], a.words, Init()[k]) {
      if k == MAX_ORDER {
        assert Init()[k] == [0];
      } else {
        assert Init()[k] == [];
      }
    }
  }

  /** Writing the word of a block that is on no list leaves every list intact. */
  lemma StoreOffList(a: Arena, L: Lists, p: nat, v: nat)
    requires Repr(a, L)
    requires forall k :: 0 <= k < |L| ==> p !in L[k]
    ensures Repr(Store(a, p, v), L)
  {
    var a' := Store(a, p, v);
    forall k | 0 <= k < |L| ensures Linked(a'.heads[k], a'.words, L[k]) {
      forall i | 0 <= i < |L[k]| ensures a'.words[L[k][i]] == a.words[L[k][i]] {
        assert L[k][i] != p;
      }
    }
  }

  /** The list of the head's successor is the tail. */
  lemma LinkedTail(h: nat, w: map<nat, nat>, l: seq<nat>)
    requires Linked(h, w, l) && l != []
    ensures h in w && Linked(w[h], w, l[1..])
  {
    assert w[l[0]] == Next(l, 0);
    forall i | 0 <= i < |l| - 1 ensures w[l[1..][i]] == Next(l[1..], i) {
      assert w[l[i + 1]] == Next(l, i + 1);
    }
  }

  // ---------------------------------------------------------------------------
  // Walking a list

  /** The loop of `Algorithm::state`: follow the chain from `h` until the end
      mark (1) or the offset `x` (0). */
  method FindWalk(a: Arena, h: nat, x: nat, ghost l: seq<nat>) returns (r: nat)
    requires Linked(h, a.words, l)
    ensures r == 0 <==> x in l
    ensures r <= 1
  {
    var n := h;
    ghost var i := 0;
    while n != SENTINEL
      invariant 0 <= i <= |l|
      invariant n == if i < |l| then l[i] else SENTINEL
      invariant forall j :: 0 <= j < i ==> l[j] != x
      decreases |l| - i
    {
      var m := Load(a, n);
      if n == x {
        return 0;
      }
      n := m;
      i := i + 1;
    }
    return 1;
  }

  /** `Algorithm::state`: search the list of the block's order for its offset. */
  method StateWalk(a: Arena, b: Blockinfo, ghost L: Lists) returns (r: nat)
    requires Repr(a, L) && ValidLength(b.length)
    ensures r == State(L, b)
  {
    var order := OrderOf(b.length);
    r := FindWalk(a, a.heads[order], b.offset, L[order]);
  }

  /** The first occurrence of `x` sits at `j`: removing it splices the list there. */
  lemma RemoveFirstAt(l: seq<nat>, x: nat, j: nat)
    requires j < |l| && l[j] == x
    requires forall t :: 0 <= t < j ==> l[t] != x
    ensures RemoveFirst(l, x) == l[..j] + l[j + 1..]
  {
    if j > 0 {
      assert l[0] != x;
      RemoveFirstAt(l[1..], x, j - 1);
      assert l[1..][..j - 1] + l[1..][j..] == l[1..j] + l[j + 1..];
      assert l[..j] + l[j + 1..] == [l[0]] + (l[1..j] + l[j + 1..]);
    }
  }

  /** Positions in a list with its `(i+1)`th element cut out. */
  lemma SpliceIndex(l: seq<nat>, i: nat, j: nat)
    requires i + 1 < |l| && j + 1 < |l|
    ensures (l[..i + 1] + l[i + 2..])[j] == if j <= i then l[j] else l[j + 1]
    ensures Next(l[..i + 1] + l[i + 2..], j) == if j < i then Next(l, j) else Next(l, j + 1)
  {
  }

  /** Unlinking the block after the `i`th: the `i`th block takes over its word. */
  lemma LinkedSplice(h: nat, w: map<nat, nat>, l: seq<nat>, i: nat)
    requires Linked(h, w, l) && NoDups(l) && i + 1 < |l|
    ensures Linked(h, w[l[i] := w[l[i + 1]]], l[..i + 1] + l[i + 2..])
  {
    var n := l[i];
    var x := l[i + 1];
    var w' := w[n := w[x]];
    var l' := l[..i + 1] + l[i + 2..];
    assert |l'| == |l| - 1;
    forall j | 0 <= j < |l'| ensures l'[j] != SENTINEL && l'[j] in w' && w'[l'[j]] == Next(l', j) {
      SpliceIndex(l, i, j);
      if j < i {
        assert l[j] != n;
        assert w[l[j]] == Next(l, j);
      } else if j == i {
        assert w[x] == Next(l, i + 1);
      } else {
        assert l[j + 1] != n;
        assert w[l[j + 1]] == Next(l, j + 1);
      }
    }
  }

  /** The arena after one list changed: the head of order `k` and, possibly,
      the word of one block of that list. */
  ghost predicate ChangedOnly(a: Arena, a': Arena, k: nat, l: seq<nat>)
  {
    && |a'.heads| == |a.heads|
    && (forall j :: 0 <= j < |a.heads| && j != k ==> a'.heads[j] == a.heads[j])
    && (forall p :: p in a.words && p !in l ==> p in a'.words && a'.words[p] == a.words[p])
  }

  /** The loop of `Algorithm::merge` on the list of order `k`: unlink the
      first block at offset `x`, if there is one. */
  method UnlinkWalk(a: Arena, k: nat, x: nat, ghost l: seq<nat>) returns (a': Arena)
    requires k < |a.heads| && Linked(a.heads[k], a.words, l) && NoDups(l) && x != SENTINEL
    ensures ChangedOnly(a, a', k, l)
    ensures Linked(a'.heads[k], a'.words, RemoveFirst(l, x))
  {
    var n := a.heads[k];
    ghost var i := 0;
    while n != SENTINEL
      invariant 0 <= i <= |l|
      invariant n == if i < |l| then l[i] else SENTINEL
      invariant forall j :: 0 <= j < i ==> l[j] != x
      invariant i > 0 ==> n != x
      decreases |l| - i
    {
      var m := Load(a, n);
      assert m == Next(l, i);
      if n == x {
        LinkedTail(n, a.words, l);
        return a.(heads := a.heads[k := m]);
      }
      if m == x {
        RemoveFirstAt(l, x, i + 1);
        LinkedSplice(a.heads[k], a.words, l, i);
        return Store(a, n, Load(a, m));
      }
      n := m;
      i := i + 1;
    }
    return a;
  }

  /** `Algorithm::merge`: unlink the block from the list of its order. */
  method MergeWalk(a: Arena, b: Blockinfo, ghost L: Lists) returns (a': Arena)
    requires Repr(a, L) && Inv(L) && ValidLength(b.length) && b.offset != SENTINEL
    ensures Repr(a', Merge(L, b))
  {
    var order := OrderOf(b.length);
    a' := UnlinkWalk(a, order, b.offset, L[order]);
    MergeFrame(a, a', L, order, RemoveFirst(L[order], b.offset));
  }

  /** The other lists survive a change confined to the list of order `k`. */
  lemma MergeFrame(a: Arena, a': Arena, L: Lists, k: nat, l': seq<nat>)
    requires Repr(a, L) && Inv(L) && k < |L|
    requires ChangedOnly(a, a', k, L[k]) && Linked(a'.heads[k], a'.words, l')
    ensures Repr(a', L[k := l'])
  {
    forall j | 0 <= j < |L| && j != k ensures Linked(a'.heads[j], a'.words, L[j]) {
      forall t | 0 <= t < |L[j]| ensures L[j][t] !in L[k] {
        if L[j][t] in L[k] {
          ListsDisjoint(L, j, k, L[j][t]);
        }
      }
      forall t | 0 <= t < |L[j]| ensures a'.words[L[j][t]] == a.words[L[j][t]] {
        assert L[j][t] in a.words;
      }
    }
  }

  // ---------------------------------------------------------------------------
  // Allocating and freeing

  /** Taking the head block off its list: its successor becomes the head. */
  lemma PopRepr(a: Arena, L: Lists, k: nat)
    requires Repr(a, L) && k <= MAX_ORDER && L[k] != []
    ensures a.heads[k] in a.words
    ensures Repr(a.(heads := a.heads[k := a.words[a.heads[k]]]), L[k := L[k][1..]])
  {
    LinkedTail(a.heads[k], a.words, L[k]);
  }

  /** `Algorithm::alloc` on the words. */
  method AllocWords(a: Arena, order: nat, ghost L: Lists) returns (a': Arena, b: Blockinfo)
    requires Repr(a, L) && Inv(L)
    ensures Repr(a', Alloc(L, order).0) && b == Alloc(L, order).1
    decreases MAX_ORDER + 1 - order
  {
    if order > MAX_ORDER {
      return a, Blockinfo(USIZE_MAX, 0);
    }
    var size := Shl(MIN_BLOCK, order);
    ShlBlockSize(order);
    if a.heads[order] != SENTINEL {
      var off := a.heads[order];
      AllocPopCase(L, order);
      PopRepr(a, L, order);
      a' := a.(heads := a.heads[order := Load(a, off)]);
      assert a'.heads[order] == a.words[a.heads[order]];
      return a', Blockinfo(off, size);
    }
    assert L[order] == [];
    var a1, blk := AllocWords(a, order + 1, L);
    if blk.offset == USIZE_MAX {
      AllocFailCase(L, order);
      return a1, Blockinfo(blk.offset, 0);
    }
    var buddy := blk.offset + size;
    SplitRepr(a1, L, order, buddy);
    a' := Store(a1, buddy, SENTINEL).(heads := a1.heads[order := buddy]);
    b := Blockinfo(blk.offset, size);
    AllocSplitCase(L, order);
  }

  /** The split branch of `Algorithm::alloc` on the words: the upper half of the
      split block becomes the one block on the emptied list. */
  lemma SplitRepr(a1: Arena, L: Lists, order: nat, u: nat)
    requires Inv(L) && order <= MAX_ORDER && L[order] == []
    requires Alloc(L, order + 1).1.offset != USIZE_MAX
    requires u == Alloc(L, order + 1).1.offset + BlockSize(order)
    requires Repr(a1, Alloc(L, order + 1).0)
    ensures Repr(Store(a1, u, SENTINEL).(heads := a1.heads[order := u]), Alloc(L, order).0)
  {
    AllocSplitCase(L, order);
    AllocPreservesInv(L, order + 1);
    var (L1, blk) := Alloc(L, order + 1);
    forall k | 0 <= k < |L1| ensures u !in L1[k] {
      assert !Apart(blk.offset, order + 1, u, k);
    }
    assert L1[order] == [] && a1.heads[order] == SENTINEL;
    PushRepr(a1, L1, order, u);
    assert [u] + L1[order] == [u];
  }

  /** Pushing a block that is on no list. */
  lemma PushRepr(a: Arena, L: Lists, k: nat, x: nat)
    requires Repr(a, L) && k <= MAX_ORDER && x != SENTINEL
    requires forall j :: 0 <= j < |L| ==> x !in L[j]
    ensures Repr(Store(a, x, a.heads[k]).(heads := a.heads[k := x]), L[k := [x] + L[k]])
  {
    StoreOffList(a, L, x, a.heads[k]);
    var a1 := Store(a, x, a.heads[k]);
    var l := [x] + L[k];
    forall i | 0 <= i < |l| ensures l[i] != SENTINEL && l[i] in a1.words && a1.words[l[i]] == Next(l, i) {
      if i > 0 {
        assert l[i] == L[k][i - 1];
        assert Next(l, i) == Next(L[k], i - 1);
      }
    }
  }

  /** `Algorithm::close` on the words. */
  method CloseWords(a: Arena, b: Blockinfo, ghost L: Lists) returns (a': Arena)
    requires Repr(a, L) && Inv(L) && Closable(L, b)
    ensures Repr(a', Close(L, b))
    decreases 2 * MAX_TOTAL - b.length
  {
    if b.offset == USIZE_MAX {
      return a;
    }
    var order := OrderOf(b.length);
    var buddy := BuddyOf(b);
    var upper := Upper(b);
    var s := StateWalk(a, buddy, L);
    if s == 0 {
      var a1 := MergeWalk(a, buddy, L);
      CloseMergeCase(L, b);
      CloseStep(L, b);
      a' := CloseWords(a1, upper, Merge(L, buddy));
      return;
    }
    ClosePushCase(L, b);
    forall j | 0 <= j < |L| ensures b.offset !in L[j] {
      assert !Apart(b.offset, order, b.offset, j);
    }
    PushRepr(a, L, order, b.offset);
    var a1 := Store(a, b.offset, a.heads[order]);
    a' := a1.(heads := a1.heads[order := b.offset]);
  }
}

=== FILE: little_endian.dfy ===
/** Bytes and the little-endian integers the codec is built from. */
module LittleEndian {

  /** An octet (`u8`). */
  type byte = x: int | 0 <= x < 256

  /** 2^32: the range of the `u32` words used for lengths, counts and offsets. */
  const WORD: nat := 0x1_0000_0000

  /** 256^w: the number of values a `w`-byte unsigned integer can hold. */
  function Pow256(w: nat): (r: nat)
    ensures r >= 1
  {
    if w == 0 then 1 else 256 * Pow256(w - 1)
  }

  lemma WordIsPow256()
    ensures Pow256(4) == WORD
  {
  }

  /** `n.to_le_bytes()` for an unsigned integer of `w` bytes holding `n`. */
  function ToLE(n: nat, w: nat): (r: seq<byte>)
    requires n < Pow256(w)
    ensures |r| == w
  {
    if w == 0 then [] else [n % 256] + ToLE(n / 256, w - 1)
  }

  /** `from_le_bytes`: the unsigned integer whose little-endian bytes are `s`. */
  function FromLE(s: seq<byte>): (r: nat)
    ensures r < Pow256(|s|)
  {
    if s == [] then 0 else s[0] + 256 * FromLE(s[1..])
  }

  /** Reading back what was written gives the integer back. */
  lemma {:induction false} FromToLE(n: nat, w: nat)
    requires n < Pow256(w)
    ensures FromLE(ToLE(n, w)) == n
  {
    if w > 0 {
      FromToLE(n / 256, w - 1);
      assert ToLE(n, w)[1..] == ToLE(n / 256, w - 1);
    }
  }

  /** Every byte string is the encoding of the integer it decodes to. */
  lemma {:induction false} ToFromLE(s: seq<byte>)
    ensures ToLE(FromLE(s), |s|) == s
  {
    if s != [] {
      ToFromLE(s[1..]);
      var n := FromLE(s);
      assert n % 256 == s[0];
      assert n / 256 == FromLE(s[1..]);
    }
  }

  /** Two byte strings of one width that decode alike are equal. */
  lemma FromLEInjective(s: seq<byte>, t: seq<byte>)
    requires |s| == |t| && FromLE(s) == FromLE(t)
    ensures s == t
  {
    ToFromLE(s);
    ToFromLE(t);
  }

  /** `(n as u32).to_le_bytes()`: the four low-order bytes of `n`. */
  function U32Bytes(n: nat): (r: seq<byte>)
    ensures |r| == 4 && FromLE(r) == n % WORD
  {
    WordIsPow256();
    FromToLE(n % WORD, 4);
    ToLE(n % WORD, 4)
  }

  /** `u32::from_le_bytes(data[at..at + 4])`. */
  function ReadU32(data: seq<byte>, at: nat): (r: nat)
    requires at + 4 <= |data|
    ensures r < WORD
  {
    WordIsPow256();
    FromLE(data[at..at + 4])
  }
}

=== FILE: molecule.dfy ===
/** The molecule container codec of `src/molecule.rs`: the three container
    shapes (`seq`, `fixvec`, `dynvec`), the length-prefixed `Bytes` blob and the
    fixed-width little-endian scalars.  Decoders are shallow: a container
    decodes to the list of its raw sub-buffers and the caller decodes each one
    by its expected type. */
module Molecule {

  import opened Options
  import opened LittleEndian
  import Arith

  /* ---------------------------------------------------------------------- */
  /* Concatenation and prefix sums                                           */
  /* ---------------------------------------------------------------------- */

  /** All parts, concatenated in order. */
  function Concat(parts: seq<seq<byte>>): seq<byte>
  {
    if parts == [] then [] else parts[0] + Concat(parts[1..])
  }

  function Sum(ns: seq<nat>): nat
  {
    if ns == [] then 0 else ns[0] + Sum(ns[1..])
  }

  /** The length of each part. */
  function Lengths(parts: seq<seq<byte>>): (r: seq<nat>)
    ensures |r| == |parts|
    ensures forall i :: 0 <= i < |parts| ==> r[i] == |parts[i]|
  {
    seq(|parts|, i requires 0 <= i < |parts| => |parts[i]|)
  }

  lemma {:induction false} ConcatAppend(a: seq<seq<byte>>, b: seq<seq<byte>>)
    ensures Concat(a + b) == Concat(a) + Concat(b)
  {
    if a == [] {
      assert a + b == b;
    } else {
      assert (a + b)[0] == a[0];
      assert (a + b)[1..] == a[1..] + b;
      ConcatAppend(a[1..], b);
    }
  }

  lemma {:induction false} ConcatLength(parts: seq<seq<byte>>)
    ensures |Concat(parts)| == Sum(Lengths(parts))
  {
    if parts != [] {
      assert Lengths(parts)[1..] == Lengths(parts[1..]);
      ConcatLength(parts[1..]);
    }
  }

  lemma ConcatSingleton(p: seq<byte>)
    ensures Concat([p]) == p
  {
    assert [p][1..] == [];
  }

  /** The concatenation of a literal list of two or three parts. */
  lemma Concat2(a: seq<byte>, b: seq<byte>)
    ensures Concat([a, b]) == a + b
  {
    assert [a, b][1..] == [b];
    ConcatSingleton(b);
  }

  lemma Concat3(a: seq<byte>, b: seq<byte>, c: seq<byte>)
    ensures Concat([a, b, c]) == a + b + c
  {
    assert [a, b, c][1..] == [b, c];
    Concat2(b, c);
  }

  lemma Sum2(x: nat, y: nat)
    ensures Sum([x, y]) == x + y
  {
    assert [x, y][1..] == [y];
    assert [y][1..] == [];
    assert Sum([y]) == y + Sum([]);
  }

  /** Part `i` sits in the concatenation right after the parts before it. */
  lemma ConcatSlice(parts: seq<seq<byte>>, i: nat)
    requires i < |parts|
    ensures |Concat(parts[..i])| + |parts[i]| <= |Concat(parts)|
    ensures Concat(parts)[|Concat(parts[..i])|..|Concat(parts[..i])| + |parts[i]|] == parts[i]
  {
    assert parts == parts[..i] + [parts[i]] + parts[i + 1..];
    ConcatAppend(parts[..i] + [parts[i]], parts[i + 1..]);
    ConcatAppend(parts[..i], [parts[i]]);
    ConcatSingleton(parts[i]);
  }

  /** Appending part `i` to the first `i` parts adds its length. */
  lemma ConcatPrefixStep(parts: seq<seq<byte>>, i: nat)
    requires i < |parts|
    ensures |Concat(parts[..i + 1])| == |Concat(parts[..i])| + |parts[i]|
  {
    assert parts[..i + 1] == parts[..i] + [parts[i]];
    ConcatAppend(parts[..i], [parts[i]]);
    ConcatSingleton(parts[i]);
  }

  /** Two distinct parts fit in the concatenation side by side. */
  lemma ConcatTwoParts(parts: seq<seq<byte>>, i: nat, j: nat)
    requires i < j < |parts|
    ensures |parts[i]| + |parts[j]| <= |Concat(parts)|
  {
    ConcatSlice(parts, j);
    ConcatPrefixMono(parts, i + 1, j);
    ConcatPrefixStep(parts, i);
  }

  /** Longer prefixes concatenate to longer byte strings. */
  lemma ConcatPrefixMono(parts: seq<seq<byte>>, i: nat, j: nat)
    requires i <= j <= |parts|
    ensures |Concat(parts[..i])| <= |Concat(parts[..j])| <= |Concat(parts)|
  {
    assert parts[..j] == parts[..i] + parts[i..j];
    ConcatAppend(parts[..i], parts[i..j]);
    assert parts == parts[..j] + parts[j..];
    ConcatAppend(parts[..j], parts[j..]);
  }

  /** Lists of parts with the same lengths and the same concatenation are equal. */
  lemma {:induction false} ConcatInjective(a: seq<seq<byte>>, b: seq<seq<byte>>)
    requires Lengths(a) == Lengths(b)
    requires Concat(a) == Concat(b)
    ensures a == b
  {
    if a != [] {
      assert |a[0]| == Lengths(a)[0] == Lengths(b)[0] == |b[0]|;
      assert a[0] == Concat(a)[..|a[0]|] == Concat(b)[..|b[0]|] == b[0];
      assert Lengths(a[1..]) == Lengths(a)[1..];
      assert Lengths(b[1..]) == Lengths(b)[1..];
      ConcatInjective(a[1..], b[1..]);
    }
  }

  /** Parts that are all `w` bytes long concatenate to `|parts| * w` bytes. */
  lemma {:induction false} ConcatUniformLength(parts: seq<seq<byte>>, w: nat)
    requires forall i :: 0 <= i < |parts| ==> |parts[i]| == w
    ensures |Concat(parts)| == |parts| * w
  {
    if parts != [] {
      ConcatUniformLength(parts[1..], w);
    }
  }

  /* ---------------------------------------------------------------------- */
  /* seq                                                                     */
  /* ---------------------------------------------------------------------- */

  /** `encode_seq`: the fields back to back, with no header. */
  function EncodeSeq(fields: seq<seq<byte>>): (r: seq<byte>)
    ensures |r| == Sum(Lengths(fields))
    ensures forall i :: 0 <= i < |fields| ==>
      && |Concat(fields[..i])| + |fields[i]| <= |r|
      && r[|Concat(fields[..i])|..|Concat(fields[..i])| + |fields[i]|] == fields[i]
  {
    ConcatLength(fields);
    forall i | 0 <= i < |fields|
      ensures |Concat(fields[..i])| + |fields[i]| <= |Concat(fields)|
      ensures Concat(fields)[|Concat(fields[..i])|..|Concat(fields[..i])| + |fields[i]|] == fields[i]
    {
      ConcatSlice(fields, i);
    }
    Concat(fields)
  }

  /** `decode_seq`: cut `data` into consecutive slices of the given sizes.
      Bytes past the last slice are ignored. */
  function DecodeSeq(data: seq<byte>, sizes: seq<nat>): (r: Option<seq<seq<byte>>>)
    ensures r.Some? <==> Sum(sizes) <= |data|
    ensures r.Some? ==> Lengths(r.value) == sizes
    ensures r.Some? ==> Concat(r.value) == data[..Sum(sizes)]
    decreases |sizes|
  {
    if sizes == [] then Some([])
    else if sizes[0] > |data| then None
    else
      var rest :- DecodeSeq(data[sizes[0]..], sizes[1..]);
      var r := [data[..sizes[0]]] + rest;
      assert r[1..] == rest;
      assert Lengths(r) == [sizes[0]] + Lengths(rest);
      Some(r)
  }

  /** `decode_seq(encode_seq(fields), lengths(fields)) == fields`. */
  lemma SeqRoundTrip(fields: seq<seq<byte>>)
    ensures DecodeSeq(EncodeSeq(fields), Lengths(fields)) == Some(fields)
  {
    var r := DecodeSeq(EncodeSeq(fields), Lengths(fields));
    ConcatLength(fields);
    ConcatInjective(r.value, fields);
  }

  /* ---------------------------------------------------------------------- */
  /* fixvec                                                                  */
  /* ---------------------------------------------------------------------- */

  /** `encode_fixvec`: the item count as a `u32`, then the items.  The items
      are meant to be of equal length; nothing checks it. */
  function EncodeFixvec(items: seq<seq<byte>>): (r: seq<byte>)
    ensures |r| == 4 + Sum(Lengths(items))
    ensures ReadU32(r, 0) == |items| % WORD
    ensures r[4..] == Concat(items)
  {
    ConcatLength(items);
    var r := U32Bytes(|items|) + Concat(items);
    assert r[0..4] == U32Bytes(|items|);
    r
  }

  /** `count` consecutive slices of `size` bytes from the front of `body`. */
  function Chunks(body: seq<byte>, count: nat, size: nat): (r: seq<seq<byte>>)
    requires count * size <= |body|
    ensures |r| == count
    ensures forall i :: 0 <= i < count ==> |r[i]| == size
    ensures Concat(r) <= body
  {
    if count == 0 then []
    else
      assert (count - 1) * size == count * size - size;
      var rest := Chunks(body[size..], count - 1, size);
      var r := [body[..size]] + rest;
      assert r[1..] == rest;
      r
  }

  /** `count` equal slices of `body`, as long as `body` allows. */
  function EvenSplit(body: seq<byte>, count: nat): (r: seq<seq<byte>>)
    requires count > 0
    ensures |r| == count
    ensures forall i :: 0 <= i < count ==> |r[i]| == |body| / count
    ensures Concat(r) <= body
  {
    Arith.MulDivLe(|body|, count);
    Chunks(body, count, |body| / count)
  }

  /** `decode_fixvec`: read the count, then cut the rest of the buffer into that
      many equal slices; a remainder that does not fill a slice is ignored. */
  function DecodeFixvec(data: seq<byte>): (r: Option<seq<seq<byte>>>)
    ensures r.None? <==> |data| < 4
    ensures r.Some? && ReadU32(data, 0) == 0 ==> r.value == []
    ensures r.Some? && ReadU32(data, 0) > 0 ==>
      && |r.value| == ReadU32(data, 0)
      && (forall i :: 0 <= i < |r.value| ==> |r.value[i]| == (|data| - 4) / ReadU32(data, 0))
      && Concat(r.value) <= data[4..]
  {
    if |data| < 4 then None
    else
      var count := ReadU32(data, 0);
      if count == 0 then Some([]) else Some(EvenSplit(data[4..], count))
  }

  /** Equal-length items round-trip through a fixvec, including no items at all. */
  lemma FixvecRoundTrip(items: seq<seq<byte>>, w: nat)
    requires forall i :: 0 <= i < |items| ==> |items[i]| == w
    requires |items| < WORD
    ensures DecodeFixvec(EncodeFixvec(items)) == Some(items)
  {
    var data := EncodeFixvec(items);
    var c := |items|;
    ConcatUniformLength(items, w);
    assert ReadU32(data, 0) == c;
    assert data[4..] == Concat(items);
    if c > 0 {
      var r := EvenSplit(data[4..], c);
      assert DecodeFixvec(data) == Some(r);
      Arith.DivOfProduct(c, w);
      assert |data[4..]| / c == w;
      ConcatUniformLength(r, w);
      assert Concat(r) == Concat(items);
      assert Lengths(r) == Lengths(items);
      ConcatInjective(r, items);
    }
  }

  /* ---------------------------------------------------------------------- */
  /* dynvec                                                                  */
  /* ---------------------------------------------------------------------- */

  /** One `u32` start offset per item, the first being `at`. */
  function OffsetTable(items: seq<seq<byte>>, at: nat): (r: seq<byte>)
    ensures |r| == 4 * |items|
  {
    if items == [] then [] else U32Bytes(at) + OffsetTable(items[1..], at + |items[0]|)
  }

  /** `encode_dynvec`: total length, one start offset per item, then the items.
      Offsets and total are truncated to 32 bits as the `as u32` casts do. */
  function EncodeDynvec(items: seq<seq<byte>>): (r: seq<byte>)
    ensures |r| == 4 + 4 * |items| + |Concat(items)|
    ensures r[0..4] == U32Bytes(|r|)
    ensures r[4..4 + 4 * |items|] == OffsetTable(items, 4 + 4 * |items|)
    ensures r[4 + 4 * |items|..] == Concat(items)
  {
    var headSize := 4 + 4 * |items|;
    var a := U32Bytes(headSize + |Concat(items)|);
    var t := OffsetTable(items, headSize);
    PrefixAndSuffix(a, t, Concat(items));
    a + t + Concat(items)
  }

  /** Entry `i` of the offset table holds `at` plus the lengths of the items before item `i`. */
  lemma {:induction false} OffsetTableEntry(items: seq<seq<byte>>, at: nat, i: nat)
    requires i < |items|
    ensures FromLE(OffsetTable(items, at)[4 * i..4 * i + 4]) == (at + |Concat(items[..i])|) % WORD
  {
    var t := OffsetTable(items, at);
    var head := U32Bytes(at);
    var tail := OffsetTable(items[1..], at + |items[0]|);
    assert t == head + tail;
    if i == 0 {
      assert t[0..4] == head;
      assert items[..0] == [];
    } else {
      OffsetTableEntry(items[1..], at + |items[0]|, i - 1);
      assert t[4..4 + |tail|] == tail;
      SliceOfSlice(t, 4, |tail|, 4 * (i - 1), 4 * i);
      ConcatPrefixCons(items, i);
    }
  }

  /** The first `i` parts are the first part and then the next `i - 1`. */
  lemma ConcatPrefixCons(items: seq<seq<byte>>, i: nat)
    requires 0 < i <= |items|
    ensures |Concat(items[..i])| == |items[0]| + |Concat(items[1..][..i - 1])|
  {
    assert items[..i] == [items[0]] + items[1..][..i - 1];
    ConcatAppend([items[0]], items[1..][..i - 1]);
    ConcatSingleton(items[0]);
  }

  lemma SliceOfSlice(data: seq<byte>, k: nat, m: nat, a: nat, b: nat)
    requires a <= b <= m && k + m <= |data|
    ensures data[k + a..k + b] == data[k..k + m][a..b]
  {
    var u := data[k + a..k + b];
    var v := data[k..k + m][a..b];
    assert |u| == |v|;
    forall j | 0 <= j < |u| ensures u[j] == v[j] {
      assert u[j] == data[k + a + j];
      assert v[j] == data[k..k + m][a + j];
    }
  }

  /** Offset `i` of a dynvec encoding, read back from its bytes. */
  lemma DynvecOffset(items: seq<seq<byte>>, i: nat)
    requires i < |items|
    ensures ReadU32(EncodeDynvec(items), 4 + 4 * i) == (4 + 4 * |items| + |Concat(items[..i])|) % WORD
  {
    var headSize := 4 + 4 * |items|;
    OffsetTableEntry(items, headSize, i);
    SliceOfSlice(EncodeDynvec(items), 4, 4 * |items|, 4 * i, 4 * i + 4);
  }

  /** The first word of a dynvec encoding is its length. */
  lemma DynvecLengthWord(items: seq<seq<byte>>)
    ensures ReadU32(EncodeDynvec(items), 0) == |EncodeDynvec(items)| % WORD
  {
  }

  /** The items follow the header of a dynvec encoding. */
  lemma DynvecBody(items: seq<seq<byte>>)
    ensures EncodeDynvec(items)[4 + 4 * |items|..] == Concat(items)
  {
  }

  lemma PrefixAndSuffix(a: seq<byte>, t: seq<byte>, c: seq<byte>)
    ensures (a + t + c)[0..|a|] == a
    ensures (a + t + c)[|a|..|a| + |t|] == t
    ensures (a + t + c)[|a| + |t|..] == c
  {
  }

  /** The offset of item `i` in `encode_dynvec` is the header size plus the
      lengths of the items before it. */
  lemma DynvecOffsets(items: seq<seq<byte>>)
    ensures forall i :: 0 <= i < |items| ==>
      ReadU32(EncodeDynvec(items), 4 + 4 * i) == (4 + 4 * |items| + |Concat(items[..i])|) % WORD
  {
    forall i | 0 <= i < |items|
      ensures ReadU32(EncodeDynvec(items), 4 + 4 * i) == (4 + 4 * |items| + |Concat(items[..i])|) % WORD
    {
      DynvecOffset(items, i);
    }
  }

  /** The offset table of a dynvec buffer holding `n` items, closed by the
      buffer length (the `head` vector of `decode_dynvec`). */
  function Heads(data: seq<byte>, n: nat): (h: seq<nat>)
    requires 4 * n + 4 <= |data|
    ensures |h| == n + 1 && h[n] == |data|
    ensures forall i :: 0 <= i < n ==> h[i] == ReadU32(data, 4 + 4 * i)
  {
    seq(n, i requires 0 <= i < n => ReadU32(data, 4 + 4 * i)) + [|data|]
  }

  /** Offsets never decrease and never pass `bound`.  The source checks this
      pair by pair, as the bounds of consecutive slices; the pairwise form says
      the same of a sequence. */
  predicate Ascending(h: seq<nat>, bound: nat)
  {
    && (forall i, j :: 0 <= i <= j < |h| ==> h[i] <= h[j])
    && (forall i :: 0 <= i < |h| ==> h[i] <= bound)
  }

  /** The slices `data[h[i]..h[i + 1]]`. */
  function Slices(data: seq<byte>, h: seq<nat>): (r: seq<seq<byte>>)
    requires |h| >= 1 && Ascending(h, |data|)
    ensures |r| == |h| - 1
    ensures forall i :: 0 <= i < |r| ==> r[i] == data[h[i]..h[i + 1]]
  {
    seq(|h| - 1, i requires 0 <= i < |h| - 1 => data[h[i]..h[i + 1]])
  }

  /** Consecutive slices concatenate to the stretch from the first offset to the last. */
  lemma {:induction false} ConcatSlices(data: seq<byte>, h: seq<nat>)
    requires |h| >= 1 && Ascending(h, |data|)
    ensures h[0] <= h[|h| - 1] <= |data|
    ensures Concat(Slices(data, h)) == data[h[0]..h[|h| - 1]]
  {
    var s := Slices(data, h);
    if |h| == 1 {
      assert s == [];
    } else {
      assert Ascending(h[1..], |data|);
      assert s[1..] == Slices(data, h[1..]);
      ConcatSlices(data, h[1..]);
    }
  }

  /** `decode_dynvec`.  The first word must equal the buffer length (as a
      `u32`); the first offset fixes the item count as `offset / 4 - 1`; the
      offsets, closed by the buffer length, must ascend within the buffer.
      A buffer of exactly four bytes, the encoding of no items, is rejected
      because the first offset is read unconditionally. */
  function DecodeDynvec(data: seq<byte>): (r: Option<seq<seq<byte>>>)
    ensures |data| <= 4 ==> r.None?
    ensures |data| >= 4 && ReadU32(data, 0) != |data| % WORD ==> r.None?
    ensures |data| >= 8 && ReadU32(data, 4) < 4 ==> r.None?
    ensures r.Some? ==>
      && |data| >= 8
      && |r.value| == ReadU32(data, 4) / 4 - 1
      && 4 * |r.value| + 4 <= |data|
      && Ascending(Heads(data, |r.value|), |data|)
      && r.value == Slices(data, Heads(data, |r.value|))
    ensures
      && |data| >= 8
      && ReadU32(data, 0) == |data| % WORD
      && ReadU32(data, 4) >= 4
      && 4 * (ReadU32(data, 4) / 4 - 1) + 4 <= |data|
      && Ascending(Heads(data, ReadU32(data, 4) / 4 - 1), |data|)
      ==> r.Some?
    ensures r.Some? && r.value != [] ==>
      ReadU32(data, 4) <= |data| && Concat(r.value) == data[ReadU32(data, 4)..]
  {
    if |data| < 4 || ReadU32(data, 0) != |data| % WORD || |data| < 8 then None
    else
      var first := ReadU32(data, 4);
      if first < 4 then None
      else
        var n := first / 4 - 1;
        if 4 * n + 4 > |data| then None
        else
          var head := Heads(data, n);
          if !Ascending(head, |data|) then None
          else
            ConcatSlices(data, head);
            Some(Slices(data, head))
  }

  /** A non-empty list of items whose encoding fits the 32-bit length word
      round-trips, empty items (the encoding of `None`) included. */
  lemma DynvecRoundTrip(items: seq<seq<byte>>)
    requires |items| > 0
    requires |EncodeDynvec(items)| < WORD
    ensures DecodeDynvec(EncodeDynvec(items)) == Some(items)
  {
    var data := EncodeDynvec(items);
    var n := |items|;
    DynvecHeads(items);
    var head := Heads(data, n);
    forall i, j | 0 <= i <= j <= n
      ensures head[i] <= head[j]
    {
      ConcatPrefixMono(items, i, j);
    }
    assert Ascending(head, |data|);
    var s := Slices(data, head);
    forall i | 0 <= i < n
      ensures s[i] == items[i]
    {
      DynvecSlice(items, i);
    }
    assert s == items;
  }

  /** The decoder reads back the item count and every offset the encoder wrote. */
  lemma DynvecHeads(items: seq<seq<byte>>)
    requires |items| > 0
    requires |EncodeDynvec(items)| < WORD
    ensures var data := EncodeDynvec(items);
      && |data| >= 8
      && ReadU32(data, 0) == |data| % WORD
      && ReadU32(data, 4) >= 4
      && ReadU32(data, 4) / 4 - 1 == |items|
      && 4 * |items| + 4 <= |data|
      && forall i :: 0 <= i <= |items| ==>
           Heads(data, |items|)[i] == 4 + 4 * |items| + |Concat(items[..i])|
  {
    var data := EncodeDynvec(items);
    var n := |items|;
    var headSize := 4 + 4 * n;
    assert ReadU32(data, 0) == |data| % WORD by {
      DynvecLengthWord(items);
    }
    assert ReadU32(data, 4) == headSize by {
      DynvecOffset(items, 0);
      assert items[..0] == [];
    }
    forall i | 0 <= i <= n
      ensures Heads(data, n)[i] == headSize + |Concat(items[..i])|
    {
      DynvecHead(items, i);
    }
  }

  /** Entry `i` of the offsets the decoder reads, the closing length included. */
  lemma DynvecHead(items: seq<seq<byte>>, i: nat)
    requires i <= |items|
    requires |EncodeDynvec(items)| < WORD
    ensures 4 * |items| + 4 <= |EncodeDynvec(items)|
    ensures Heads(EncodeDynvec(items), |items|)[i] == 4 + 4 * |items| + |Concat(items[..i])|
  {
    var n := |items|;
    assert items[..n] == items;
    if i < n {
      DynvecOffset(items, i);
      ConcatPrefixMono(items, i, n);
    }
  }

  /** Slice `i` of the decoded buffer is item `i`. */
  lemma DynvecSlice(items: seq<seq<byte>>, i: nat)
    requires i < |items|
    requires |EncodeDynvec(items)| < WORD
    ensures var data := EncodeDynvec(items);
      var head := (DynvecHeads(items); Heads(data, |items|));
      && head[i] <= head[i + 1] <= |data|
      && data[head[i]..head[i + 1]] == items[i]
  {
    var data := EncodeDynvec(items);
    var n := |items|;
    var headSize := 4 + 4 * n;
    DynvecHeads(items);
    DynvecBody(items);
    var p := |Concat(items[..i])|;
    ConcatPrefixStep(items, i);
    ConcatSlice(items, i);
    SliceOfSuffix(data, headSize, p, p + |items[i]|);
  }

  /** Every item of a dynvec is shorter than the whole encoding, by at least the header. */
  lemma DynvecItemShorter(items: seq<seq<byte>>, i: nat)
    requires i < |items|
    ensures 4 + 4 * |items| + |items[i]| <= |EncodeDynvec(items)|
  {
    ConcatSlice(items, i);
  }

  /** Every item of a fixvec is shorter than the whole encoding, by at least the count. */
  lemma FixvecItemShorter(items: seq<seq<byte>>, i: nat)
    requires i < |items|
    ensures 4 + |items[i]| <= |EncodeFixvec(items)|
  {
    ConcatSlice(items, i);
    ConcatLength(items);
  }

  lemma SliceOfSuffix(data: seq<byte>, k: nat, a: nat, b: nat)
    requires a <= b && k + b <= |data|
    ensures data[k + a..k + b] == data[k..][a..b]
  {
  }

  /** The encoding of no items is the bare length word `[4, 0, 0, 0]`. */
  lemma EmptyDynvecEncoding()
    ensures EncodeDynvec([]) == [4, 0, 0, 0]
  {
    var r := EncodeDynvec([]);
    WordIsPow256();
    FromToLE(4, 4);
    ToFromLE(r);
    assert FromLE(r) == 4;
  }

  /** ... and it does not decode: the empty dynvec does not round-trip. */
  lemma EmptyDynvecRejected()
    ensures DecodeDynvec(EncodeDynvec([])) == None
  {
    EmptyDynvecEncoding();
  }

  /** The reading the format intends for a dynvec: the bare length word `4`
      is the list of no items, and every other buffer is read as
      `DecodeDynvec` reads it. */
  function DecodeDynvecChecked(data: seq<byte>): (r: Option<seq<seq<byte>>>)
    ensures DecodeDynvec(data).Some? ==> r == DecodeDynvec(data)
    ensures r.Some? ==> |data| >= 4 && ReadU32(data, 0) == |data| % WORD
    ensures r.Some? ==> 4 * |r.value| + 4 <= |data|
  {
    if |data| == 4 && ReadU32(data, 0) == 4 then Some([]) else DecodeDynvec(data)
  }

  /** With the corrected reader every list of items whose encoding fits the
      32-bit length word round-trips, the empty list included. */
  lemma DynvecCheckedRoundTrip(items: seq<seq<byte>>)
    requires |EncodeDynvec(items)| < WORD
    ensures DecodeDynvecChecked(EncodeDynvec(items)) == Some(items)
  {
    if items == [] {
      EmptyDynvecEncoding();
      SmallU32(4);
      assert [4, 0, 0, 0][0..4] == U32Bytes(4);
    } else {
      DynvecRoundTrip(items);
    }
  }

  /* ---------------------------------------------------------------------- */
  /* Bytes                                                                   */
  /* ---------------------------------------------------------------------- */

  /** `Bytes::molecule`: a `u32` byte count followed by the bytes. */
  function EncodeBytes(b: seq<byte>): (r: seq<byte>)
    ensures |r| == 4 + |b|
    ensures ReadU32(r, 0) == |b| % WORD
    ensures r[4..] == b
  {
    var r := U32Bytes(|b|) + b;
    assert r[0..4] == U32Bytes(|b|);
    r
  }

  /** `Bytes::molecule_decode`: fails unless the count word equals the number
      of bytes that follow it exactly. */
  function DecodeBytes(data: seq<byte>): (r: Option<seq<byte>>)
    ensures r.Some? <==> |data| >= 4 && ReadU32(data, 0) == |data| - 4
    ensures r.Some? ==> |r.value| == |data| - 4 && EncodeBytes(r.value) == data
  {
    if |data| < 4 || ReadU32(data, 0) != |data| - 4 then None
    else
      var b := data[4..];
      var e := EncodeBytes(b);
      assert e[..4] == data[..4] by {
        WordIsPow256();
        FromLEInjective(e[..4], data[..4]);
      }
      assert e == e[..4] + e[4..];
      assert data == data[..4] + data[4..];
      Some(b)
  }

  lemma BytesRoundTrip(b: seq<byte>)
    requires |b| < WORD
    ensures DecodeBytes(EncodeBytes(b)) == Some(b)
  {
  }

  /* ---------------------------------------------------------------------- */
  /* Scalars                                                                 */
  /* ---------------------------------------------------------------------- */

  /** `molecule_size` of the fixed-width scalars. */
  const BYTE_SIZE: nat := 1
  const BYTE32_SIZE: nat := 32
  const U32_SIZE: nat := 4
  const U64_SIZE: nat := 8
  const U128_SIZE: nat := 16

  /** A 32-byte array (`[u8; 32]`), the payload of `Byte32`. */
  type Byte32 = s: seq<byte> | |s| == BYTE32_SIZE witness seq(32, _ => 0)

  type u32 = x: nat | x < 0x1_0000_0000
  type u64 = x: nat | x < 0x1_0000_0000_0000_0000
  type u128 = x: nat | x < 0x1_0000_0000_0000_0000_0000_0000_0000_0000

  lemma ScalarBounds()
    ensures Pow256(U32_SIZE) == 0x1_0000_0000
    ensures Pow256(U64_SIZE) == 0x1_0000_0000_0000_0000
    ensures Pow256(U128_SIZE) == 0x1_0000_0000_0000_0000_0000_0000_0000_0000
  {
    assert Pow256(4) == 0x1_0000_0000;
    assert Pow256(8) == Pow256(4) * Pow256(4) by { Pow256Add(4, 4); }
    assert Pow256(16) == Pow256(8) * Pow256(8) by { Pow256Add(8, 8); }
  }

  lemma {:induction false} Pow256Add(a: nat, b: nat)
    ensures Pow256(a + b) == Pow256(a) * Pow256(b)
  {
    if a > 0 {
      Pow256Add(a - 1, b);
    }
  }

  /** `to_le_bytes` of a `w`-byte unsigned scalar. */
  function EncodeUint(n: nat, w: nat): (r: seq<byte>)
    requires n < Pow256(w)
    ensures |r| == w && FromLE(r) == n
  {
    FromToLE(n, w);
    ToLE(n, w)
  }

  /** `molecule_decode` of a `w`-byte unsigned scalar: the buffer must be
      exactly `w` bytes long. */
  function DecodeUint(data: seq<byte>, w: nat): (r: Option<nat>)
    ensures r.Some? <==> |data| == w
    ensures r.Some? ==> r.value < Pow256(w) && EncodeUint(r.value, w) == data
  {
    if |data| != w then None
    else
      ToFromLE(data);
      Some(FromLE(data))
  }

  lemma UintRoundTrip(n: nat, w: nat)
    requires n < Pow256(w)
    ensures DecodeUint(EncodeUint(n, w), w) == Some(n)
  {
  }

  /** `Byte::molecule` / `Byte::molecule_decode`. */
  function EncodeByte(b: byte): (r: seq<byte>)
    ensures |r| == BYTE_SIZE && FromLE(r) == b
  {
    [b]
  }

  function DecodeByte(data: seq<byte>): (r: Option<byte>)
    ensures r.Some? <==> |data| == BYTE_SIZE
    ensures r.Some? ==> EncodeByte(r.value) == data
  {
    if |data| != BYTE_SIZE then None else Some(data[0])
  }

  /** `Byte32::molecule` / `Byte32::molecule_decode`: the 32 bytes as they are. */
  function EncodeByte32(h: Byte32): (r: seq<byte>)
    ensures |r| == BYTE32_SIZE
    ensures forall i :: 0 <= i < BYTE32_SIZE ==> r[i] == h[i]
  {
    h
  }

  function DecodeByte32(data: seq<byte>): (r: Option<Byte32>)
    ensures r.Some? <==> |data| == BYTE32_SIZE
    ensures r.Some? ==> forall i :: 0 <= i < BYTE32_SIZE ==> r.value[i] == data[i]
    ensures r.Some? ==> EncodeByte32(r.value) == data
  {
    if |data| != BYTE32_SIZE then None else Some(data)
  }

  lemma ByteRoundTrip(b: byte, h: Byte32)
    ensures DecodeByte(EncodeByte(b)) == Some(b)
    ensures DecodeByte32(EncodeByte32(h)) == Some(h)
  {
  }

  /** `U32`, `U64`, `U128`: the scalars at their fixed widths. */
  function EncodeU32(n: u32): (r: seq<byte>)
    ensures |r| == U32_SIZE && FromLE(r) == n
  {
    ScalarBounds();
    EncodeUint(n, U32_SIZE)
  }

  function DecodeU32(data: seq<byte>): (r: Option<u32>)
    ensures r.Some? <==> |data| == U32_SIZE
    ensures r.Some? ==> EncodeU32(r.value) == data
  {
    ScalarBounds();
    var v :- DecodeUint(data, U32_SIZE);
    Some(v)
  }

  function EncodeU64(n: u64): (r: seq<byte>)
    ensures |r| == U64_SIZE && FromLE(r) == n
  {
    ScalarBounds();
    EncodeUint(n, U64_SIZE)
  }

  function DecodeU64(data: seq<byte>): (r: Option<u64>)
    ensures r.Some? <==> |data| == U64_SIZE
    ensures r.Some? ==> EncodeU64(r.value) == data
  {
    ScalarBounds();
    var v :- DecodeUint(data, U64_SIZE);
    Some(v)
  }

  function EncodeU128(n: u128): (r: seq<byte>)
    ensures |r| == U128_SIZE && FromLE(r) == n
  {
    ScalarBounds();
    EncodeUint(n, U128_SIZE)
  }

  function DecodeU128(data: seq<byte>): (r: Option<u128>)
    ensures r.Some? <==> |data| == U128_SIZE
    ensures r.Some? ==> EncodeU128(r.value) == data
  {
    ScalarBounds();
    var v :- DecodeUint(data, U128_SIZE);
    Some(v)
  }

  /** Every fixed-width scalar reads back as written. */
  lemma ScalarRoundTrip(a: u32, b: u64, c: u128)
    ensures DecodeU32(EncodeU32(a)) == Some(a)
    ensures DecodeU64(EncodeU64(b)) == Some(b)
    ensures DecodeU128(EncodeU128(c)) == Some(c)
  {
    ScalarBounds();
    UintRoundTrip(a, U32_SIZE);
    UintRoundTrip(b, U64_SIZE);
    UintRoundTrip(c, U128_SIZE);
  }

  /* ---------------------------------------------------------------------- */
  /* Worked examples                                                         */
  /* ---------------------------------------------------------------------- */

  /** A word below 256 is written as that byte and three zeros. */
  lemma SmallU32(n: nat)
    requires n < 256
    ensures U32Bytes(n) == [n, 0, 0, 0]
  {
    var b: seq<byte> := [n, 0, 0, 0];
    var z := b[1..];
    assert z[1..][1..][1..] == [];
    assert FromLE(z[1..][1..]) == 0;
    assert FromLE(z[1..]) == 0;
    assert FromLE(z) == 0;
    assert FromLE(b) == n;
    FromLEInjective(U32Bytes(n), b);
  }

  /** The two-item dynvec `[[AA], [BB, BB]]`: total length 15, offsets 12 and 13. */
  lemma DynvecExample(items: seq<seq<byte>>)
    requires items == [[0xAA], [0xBB, 0xBB]]
    ensures EncodeDynvec(items) == [15, 0, 0, 0, 12, 0, 0, 0, 13, 0, 0, 0, 0xAA, 0xBB, 0xBB]
    ensures DecodeDynvec(EncodeDynvec(items)) == Some(items)
  {
    var r := EncodeDynvec(items);
    assert Concat(items) == [0xAA, 0xBB, 0xBB] by {
      Concat2(items[0], items[1]);
    }
    assert OffsetTable(items, 12) == U32Bytes(12) + U32Bytes(13) by {
      assert items[1..] == [[0xBB, 0xBB]] && items[1..][1..] == [];
    }
    SmallU32(15);
    SmallU32(12);
    SmallU32(13);
    assert r == r[0..4] + r[4..12] + r[12..];
    DynvecRoundTrip(items);
  }

  /** A first offset from 4 to 7 announces no items, whatever follows. */
  lemma ShortHeaderDecodesEmpty(data: seq<byte>)
    requires |data| >= 8 && ReadU32(data, 0) == |data| % WORD
    requires 4 <= ReadU32(data, 4) < 8
    ensures DecodeDynvec(data) == Some([])
  {
    var h := Heads(data, 0);
    assert h == [|data|];
    assert Slices(data, h) == [];
  }
}

=== FILE: options.dfy ===
/** The failure-compatible optional value every decoder returns: `None` stands
    for the panic (`assert!` failure, out-of-range slice, arithmetic underflow)
    the Rust code raises on malformed input, so nothing is ever half decoded. */
module Options {

  datatype Option<+T> = None | Some(value: T) {

    predicate IsFailure() {
      None?
    }

    function PropagateFailure<U>(): Option<U>
      requires None?
    {
      None
    }

    function Extract(): T
      requires Some?
    {
      value
    }
  }
}

=== FILE: records.dfy ===
/** The cell-level chain records of `src/conversion.rs` and their molecule
    encodings: scripts, out points, cell inputs, outputs and deps, witness
    arguments and the cellbase witness.  Every `molecule_decode` that panics
    in the source (a short buffer, a missing item, a field of the wrong width)
    decodes to `None` here. */
module Records {

  import opened Options
  import opened LittleEndian
  import opened Molecule

  /* ---------------------------------------------------------------------- */
  /* Lists of records                                                        */
  /* ---------------------------------------------------------------------- */

  /** `iter().map(f).collect()`. */
  function MapSeq<A, B>(xs: seq<A>, f: A -> B): (r: seq<B>)
    ensures |r| == |xs|
    ensures forall i :: 0 <= i < |xs| ==> r[i] == f(xs[i])
  {
    seq(|xs|, i requires 0 <= i < |xs| => f(xs[i]))
  }

  /** Decode every part with `dec`; the first failure fails the whole list,
      as a panic inside the `map` closure does. */
  function DecodeAll<T>(parts: seq<seq<byte>>, dec: seq<byte> -> Option<T>): (r: Option<seq<T>>)
    ensures r.Some? <==> forall i :: 0 <= i < |parts| ==> dec(parts[i]).Some?
    ensures r.Some? ==> |r.value| == |parts| && forall i :: 0 <= i < |parts| ==> dec(parts[i]) == Some(r.value[i])
  {
    if parts == [] then Some([])
    else
      var x :- dec(parts[0]);
      var rest :- DecodeAll(parts[1..], dec);
      var r := [x] + rest;
      assert forall i :: 1 <= i < |parts| ==> parts[i] == parts[1..][i - 1];
      Some(r)
  }

  /** Encoding each record and decoding each part gives the records back. */
  lemma DecodeAllRoundTrip<T>(xs: seq<T>, enc: T -> seq<byte>, dec: seq<byte> -> Option<T>)
    requires forall i :: 0 <= i < |xs| ==> dec(enc(xs[i])) == Some(xs[i])
    ensures DecodeAll(MapSeq(xs, enc), dec) == Some(xs)
  {
    var r := DecodeAll(MapSeq(xs, enc), dec);
    assert forall i :: 0 <= i < |xs| ==> MapSeq(xs, enc)[i] == enc(xs[i]);
    assert r.Some?;
    assert forall i :: 0 <= i < |xs| ==> dec(enc(xs[i])) == Some(r.value[i]);
    assert r.value == xs;
  }

  /** A list of equal-width records round-trips through a fixvec. */
  lemma FixvecOfRecords<T>(xs: seq<T>, enc: T -> seq<byte>, dec: seq<byte> -> Option<T>, w: nat)
    requires w > 0
    requires forall i :: 0 <= i < |xs| ==> |enc(xs[i])| == w && dec(enc(xs[i])) == Some(xs[i])
    requires |EncodeFixvec(MapSeq(xs, enc))| < WORD
    ensures DecodeFixvec(EncodeFixvec(MapSeq(xs, enc))) == Some(MapSeq(xs, enc))
    ensures DecodeAll(MapSeq(xs, enc), dec) == Some(xs)
  {
    var parts := MapSeq(xs, enc);
    assert |parts| < WORD by {
      ConcatUniformLength(parts, w);
      Arith.MulAtLeast(|xs|, w);
    }
    FixvecRoundTrip(parts, w);
    DecodeAllRoundTrip(xs, enc, dec);
  }

  /** A non-empty list of records round-trips through a dynvec when each record does. */
  lemma DynvecOfRecords<T>(xs: seq<T>, enc: T -> seq<byte>, dec: seq<byte> -> Option<T>)
    requires |xs| > 0
    requires |EncodeDynvec(MapSeq(xs, enc))| < WORD
    requires forall i :: 0 <= i < |xs| && |enc(xs[i])| < WORD ==> dec(enc(xs[i])) == Some(xs[i])
    ensures DecodeDynvec(EncodeDynvec(MapSeq(xs, enc))) == Some(MapSeq(xs, enc))
    ensures DecodeAll(MapSeq(xs, enc), dec) == Some(xs)
  {
    var parts := MapSeq(xs, enc);
    DynvecRoundTrip(parts);
    forall i | 0 <= i < |xs|
      ensures dec(enc(xs[i])) == Some(xs[i])
    {
      DynvecItemShorter(parts, i);
    }
    DecodeAllRoundTrip(xs, enc, dec);
  }

  /* ---------------------------------------------------------------------- */
  /* Optional fields                                                         */
  /* ---------------------------------------------------------------------- */

  /** An absent optional field is written as an empty item. */
  function EncodeOptional<T>(x: Option<T>, enc: T -> seq<byte>): seq<byte>
  {
    match x
    case None => []
    case Some(v) => enc(v)
  }

  /** An empty item reads as absent; anything else must decode. */
  function DecodeOptional<T>(b: seq<byte>, dec: seq<byte> -> Option<T>): (r: Option<Option<T>>)
    ensures b == [] ==> r == Some(None)
    ensures b != [] ==> (r.Some? <==> dec(b).Some?) && (r.Some? ==> r.value == dec(b))
  {
    if b == [] then Some(None)
    else
      var v :- dec(b);
      Some(Some(v))
  }

  /** An optional field round-trips when its present value never encodes to nothing. */
  lemma OptionalRoundTrip<T>(x: Option<T>, enc: T -> seq<byte>, dec: seq<byte> -> Option<T>)
    requires x.Some? ==> enc(x.value) != [] && dec(enc(x.value)) == x
    ensures DecodeOptional(EncodeOptional(x, enc), dec) == Some(x)
  {
  }

  /* ---------------------------------------------------------------------- */
  /* Script                                                                  */
  /* ---------------------------------------------------------------------- */

  /** The script hash types. */
  const SCRIPT_HASH_TYPE_DATA: byte := 0
  const SCRIPT_HASH_TYPE_TYPE: byte := 1
  const SCRIPT_HASH_TYPE_DATA1: byte := 2
  const SCRIPT_HASH_TYPE_DATA2: byte := 4

  datatype Script = Script(codeHash: Byte32, hashType: byte, args: seq<byte>)

  /** The smallest script encoding: a three-item dynvec header (16 bytes), the
      32-byte code hash, the hash type byte and an empty `Bytes` (4 bytes). */
  const SCRIPT_MIN_SIZE: nat := 53

  /** `Script::new_type_id`: the well-known type-id script, whose code hash is
      25 zero bytes followed by the ASCII text "TYPE_ID". */
  function NewTypeId(args: seq<byte>): (r: Script)
    ensures r.hashType == SCRIPT_HASH_TYPE_TYPE && r.args == args
    ensures forall i :: 0 <= i < 25 ==> r.codeHash[i] == 0
    ensures forall i :: 0 <= i < 7 ==> r.codeHash[25 + i] == "TYPE_ID"[i] as int
  {
    var tag: seq<byte> := [0x54, 0x59, 0x50, 0x45, 0x5f, 0x49, 0x44];
    Script(seq(25, _ => 0) + tag, SCRIPT_HASH_TYPE_TYPE, args)
  }

  function ScriptFields(s: Script): seq<seq<byte>>
  {
    [EncodeByte32(s.codeHash), EncodeByte(s.hashType), EncodeBytes(s.args)]
  }

  /** `Script::molecule`: a dynvec of code hash, hash type and args. */
  function EncodeScript(s: Script): (r: seq<byte>)
    ensures |r| == SCRIPT_MIN_SIZE + |s.args|
  {
    var f := ScriptFields(s);
    Concat3(f[0], f[1], f[2]);
    EncodeDynvec(f)
  }

  /** `Script::molecule_decode`: the fields come from the first three items,
      and items past the third are ignored. */
  function DecodeScript(data: seq<byte>): (r: Option<Script>)
    ensures DecodeDynvec(data).None? ==> r.None?
    ensures r.Some? ==> |DecodeDynvec(data).value| >= 3
    ensures r.Some? ==>
      var items := DecodeDynvec(data).value;
      && DecodeByte32(items[0]) == Some(r.value.codeHash)
      && DecodeByte(items[1]) == Some(r.value.hashType)
      && DecodeBytes(items[2]) == Some(r.value.args)
  {
    var items :- DecodeDynvec(data);
    if |items| < 3 then None
    else
      var codeHash :- DecodeByte32(items[0]);
      var hashType :- DecodeByte(items[1]);
      var args :- DecodeBytes(items[2]);
      Some(Script(codeHash, hashType, args))
  }

  lemma ScriptRoundTrip(s: Script)
    requires |EncodeScript(s)| < WORD
    ensures DecodeScript(EncodeScript(s)) == Some(s)
  {
    var f := ScriptFields(s);
    DynvecRoundTrip(f);
    DynvecItemShorter(f, 2);
    ByteRoundTrip(s.hashType, s.codeHash);
    BytesRoundTrip(s.args);
  }

  /* ---------------------------------------------------------------------- */
  /* OutPoint                                                                */
  /* ---------------------------------------------------------------------- */

  datatype OutPoint = OutPoint(txHash: Byte32, index: u32)

  /** `OutPoint::molecule_size`. */
  const OUT_POINT_SIZE: nat := BYTE32_SIZE + U32_SIZE

  function OutPointFields(o: OutPoint): seq<seq<byte>>
  {
    [EncodeByte32(o.txHash), EncodeU32(o.index)]
  }

  /** `OutPoint::molecule`: a seq of transaction hash and index. */
  function EncodeOutPoint(o: OutPoint): (r: seq<byte>)
    ensures |r| == OUT_POINT_SIZE
  {
    var f := OutPointFields(o);
    assert Lengths(f) == [BYTE32_SIZE, U32_SIZE];
    Sum2(BYTE32_SIZE, U32_SIZE);
    EncodeSeq(f)
  }

  /** `OutPoint::molecule_decode`: reads the first 36 bytes, ignoring any rest. */
  function DecodeOutPoint(data: seq<byte>): (r: Option<OutPoint>)
    ensures r.Some? <==> |data| >= OUT_POINT_SIZE
    ensures r.Some? ==> EncodeOutPoint(r.value) == data[..OUT_POINT_SIZE]
  {
    var sizes := [BYTE32_SIZE, U32_SIZE];
    Sum2(BYTE32_SIZE, U32_SIZE);
    var parts :- DecodeSeq(data, sizes);
    assert |parts| == |Lengths(parts)| == 2;
    var o := OutPoint(DecodeByte32(parts[0]).value, DecodeU32(parts[1]).value);
    assert OutPointFields(o) == parts;
    Some(o)
  }

  lemma OutPointRoundTrip(o: OutPoint)
    ensures DecodeOutPoint(EncodeOutPoint(o)) == Some(o)
  {
    var f := OutPointFields(o);
    var sizes := [BYTE32_SIZE, U32_SIZE];
    assert Lengths(f) == sizes;
    SeqRoundTrip(f);
    assert DecodeSeq(EncodeOutPoint(o), sizes) == Some(f);
    ByteRoundTrip(0, o.txHash);
    ScalarRoundTrip(o.index, 0, 0);
    assert DecodeByte32(f[0]) == Some(o.txHash);
    assert DecodeU32(f[1]) == Some(o.index);
  }

  /* ---------------------------------------------------------------------- */
  /* CellInput                                                               */
  /* ---------------------------------------------------------------------- */

  datatype CellInput = CellInput(since: u64, previousOutput: OutPoint)

  /** `CellInput::molecule_size`. */
  const CELL_INPUT_SIZE: nat := U64_SIZE + OUT_POINT_SIZE

  function CellInputFields(c: CellInput): seq<seq<byte>>
  {
    [EncodeU64(c.since), EncodeOutPoint(c.previousOutput)]
  }

  /** `CellInput::molecule`: a seq of `since` and the previous output. */
  function EncodeCellInput(c: CellInput): (r: seq<byte>)
    ensures |r| == CELL_INPUT_SIZE
  {
    var f := CellInputFields(c);
    assert Lengths(f) == [U64_SIZE, OUT_POINT_SIZE];
    Sum2(U64_SIZE, OUT_POINT_SIZE);
    EncodeSeq(f)
  }

  /** `CellInput::molecule_decode`: reads the first 44 bytes, ignoring any rest. */
  function DecodeCellInput(data: seq<byte>): (r: Option<CellInput>)
    ensures r.Some? <==> |data| >= CELL_INPUT_SIZE
    ensures r.Some? ==> EncodeCellInput(r.value) == data[..CELL_INPUT_SIZE]
  {
    var sizes := [U64_SIZE, OUT_POINT_SIZE];
    Sum2(U64_SIZE, OUT_POINT_SIZE);
    var parts :- DecodeSeq(data, sizes);
    assert |parts| == |Lengths(parts)| == 2;
    var c := CellInput(DecodeU64(parts[0]).value, DecodeOutPoint(parts[1]).value);
    assert parts[1][..OUT_POINT_SIZE] == parts[1];
    assert CellInputFields(c) == parts;
    Some(c)
  }

  lemma CellInputRoundTrip(c: CellInput)
    ensures DecodeCellInput(EncodeCellInput(c)) == Some(c)
  {
    var f := CellInputFields(c);
    var sizes := [U64_SIZE, OUT_POINT_SIZE];
    assert Lengths(f) == sizes;
    SeqRoundTrip(f);
    assert DecodeSeq(EncodeCellInput(c), sizes) == Some(f);
    ScalarRoundTrip(0, c.since, 0);
    OutPointRoundTrip(c.previousOutput);
    assert DecodeU64(f[0]) == Some(c.since);
    assert DecodeOutPoint(f[1]) == Some(c.previousOutput);
  }

  /* ---------------------------------------------------------------------- */
  /* CellOutput                                                              */
  /* ---------------------------------------------------------------------- */

  /** A cell output; `typeScript` is the source's `kype`. */
  datatype CellOutput = CellOutput(capacity: u64, lock: Script, typeScript: Option<Script>)

  function CellOutputFields(c: CellOutput): seq<seq<byte>>
  {
    [EncodeU64(c.capacity), EncodeScript(c.lock), EncodeOptional(c.typeScript, EncodeScript)]
  }

  /** `CellOutput::molecule`: a dynvec of capacity, lock and type script, an
      absent type script being an empty item. */
  function EncodeCellOutput(c: CellOutput): (r: seq<byte>)
    ensures |r| == 16 + U64_SIZE + |EncodeScript(c.lock)| + |EncodeOptional(c.typeScript, EncodeScript)|
  {
    var f := CellOutputFields(c);
    Concat3(f[0], f[1], f[2]);
    EncodeDynvec(f)
  }

  /** `CellOutput::molecule_decode`: a non-empty third item must be a script. */
  function DecodeCellOutput(data: seq<byte>): (r: Option<CellOutput>)
    ensures DecodeDynvec(data).None? ==> r.None?
    ensures r.Some? ==> |DecodeDynvec(data).value| >= 3
    ensures r.Some? ==> (r.value.typeScript.None? <==> DecodeDynvec(data).value[2] == [])
  {
    var items :- DecodeDynvec(data);
    if |items| < 3 then None
    else
      var capacity :- DecodeU64(items[0]);
      var lock :- DecodeScript(items[1]);
      var typeScript :- DecodeOptional(items[2], DecodeScript);
      Some(CellOutput(capacity, lock, typeScript))
  }

  lemma CellOutputRoundTrip(c: CellOutput)
    requires |EncodeCellOutput(c)| < WORD
    ensures DecodeCellOutput(EncodeCellOutput(c)) == Some(c)
  {
    var f := CellOutputFields(c);
    DynvecRoundTrip(f);
    ScalarRoundTrip(0, c.capacity, 0);
    DynvecItemShorter(f, 1);
    ScriptRoundTrip(c.lock);
    if c.typeScript.Some? {
      DynvecItemShorter(f, 2);
      ScriptRoundTrip(c.typeScript.value);
    }
    OptionalRoundTrip(c.typeScript, EncodeScript, DecodeScript);
  }

  /* ---------------------------------------------------------------------- */
  /* CellDep                                                                 */
  /* ---------------------------------------------------------------------- */

  datatype CellDep = CellDep(outPoint: OutPoint, depType: byte)

  /** `CellDep::molecule_size`. */
  const CELL_DEP_SIZE: nat := OUT_POINT_SIZE + BYTE_SIZE

  function CellDepFields(c: CellDep): seq<seq<byte>>
  {
    [EncodeOutPoint(c.outPoint), EncodeByte(c.depType)]
  }

  /** `CellDep::molecule`: a seq of out point and dep type. */
  function EncodeCellDep(c: CellDep): (r: seq<byte>)
    ensures |r| == CELL_DEP_SIZE
  {
    var f := CellDepFields(c);
    assert Lengths(f) == [OUT_POINT_SIZE, BYTE_SIZE];
    Sum2(OUT_POINT_SIZE, BYTE_SIZE);
    EncodeSeq(f)
  }

  /** `CellDep::molecule_decode`: reads the first 37 bytes, ignoring any rest. */
  function DecodeCellDep(data: seq<byte>): (r: Option<CellDep>)
    ensures r.Some? <==> |data| >= CELL_DEP_SIZE
    ensures r.Some? ==> EncodeCellDep(r.value) == data[..CELL_DEP_SIZE]
  {
    var sizes := [OUT_POINT_SIZE, BYTE_SIZE];
    Sum2(OUT_POINT_SIZE, BYTE_SIZE);
    var parts :- DecodeSeq(data, sizes);
    assert |parts| == |Lengths(parts)| == 2;
    var c := CellDep(DecodeOutPoint(parts[0]).value, DecodeByte(parts[1]).value);
    assert parts[0][..OUT_POINT_SIZE] == parts[0];
    assert CellDepFields(c) == parts;
    Some(c)
  }

  lemma CellDepRoundTrip(c: CellDep)
    ensures DecodeCellDep(EncodeCellDep(c)) == Some(c)
  {
    var f := CellDepFields(c);
    SeqRoundTrip(f);
    OutPointRoundTrip(c.outPoint);
    ByteRoundTrip(c.depType, c.outPoint.txHash);
    assert Lengths(f) == [OUT_POINT_SIZE, BYTE_SIZE];
  }

  /* ---------------------------------------------------------------------- */
  /* WitnessArgs                                                             */
  /* ---------------------------------------------------------------------- */

  datatype WitnessArgs = WitnessArgs(lock: Option<seq<byte>>, inputType: Option<seq<byte>>, outputType: Option<seq<byte>>)

  function WitnessArgsFields(w: WitnessArgs): seq<seq<byte>>
  {
    [EncodeOptional(w.lock, EncodeBytes), EncodeOptional(w.inputType, EncodeBytes),
     EncodeOptional(w.outputType, EncodeBytes)]
  }

  /** `WitnessArgs::molecule`: a dynvec of three optional `Bytes`. */
  function EncodeWitnessArgs(w: WitnessArgs): (r: seq<byte>)
    ensures |r| == 16 + |EncodeOptional(w.lock, EncodeBytes)| + |EncodeOptional(w.inputType, EncodeBytes)|
                      + |EncodeOptional(w.outputType, EncodeBytes)|
  {
    var f := WitnessArgsFields(w);
    Concat3(f[0], f[1], f[2]);
    EncodeDynvec(f)
  }

  /** `WitnessArgs::molecule_decode`: each empty item is an absent field. */
  function DecodeWitnessArgs(data: seq<byte>): (r: Option<WitnessArgs>)
    ensures DecodeDynvec(data).None? ==> r.None?
    ensures r.Some? ==> |DecodeDynvec(data).value| >= 3
    ensures r.Some? ==>
      && (r.value.lock.None? <==> DecodeDynvec(data).value[0] == [])
      && (r.value.inputType.None? <==> DecodeDynvec(data).value[1] == [])
      && (r.value.outputType.None? <==> DecodeDynvec(data).value[2] == [])
  {
    var items :- DecodeDynvec(data);
    if |items| < 3 then None
    else
      var lock :- DecodeOptional(items[0], DecodeBytes);
      var inputType :- DecodeOptional(items[1], DecodeBytes);
      var outputType :- DecodeOptional(items[2], DecodeBytes);
      Some(WitnessArgs(lock, inputType, outputType))
  }

  /** A present `Bytes` field is at least its 4-byte count, so it never reads as absent. */
  lemma OptionalBytesRoundTrip(x: Option<seq<byte>>)
    requires |EncodeOptional(x, EncodeBytes)| < WORD
    ensures DecodeOptional(EncodeOptional(x, EncodeBytes), DecodeBytes) == Some(x)
  {
    if x.Some? {
      BytesRoundTrip(x.value);
    }
    OptionalRoundTrip(x, EncodeBytes, DecodeBytes);
  }

  lemma WitnessArgsRoundTrip(w: WitnessArgs)
    requires |EncodeWitnessArgs(w)| < WORD
    ensures DecodeWitnessArgs(EncodeWitnessArgs(w)) == Some(w)
  {
    var f := WitnessArgsFields(w);
    DynvecRoundTrip(f);
    OptionalBytesRoundTrip(w.lock);
    OptionalBytesRoundTrip(w.inputType);
    OptionalBytesRoundTrip(w.outputType);
  }

  /** All three fields absent: three empty items, 16 bytes of header. */
  lemma EmptyWitnessArgs()
    ensures EncodeWitnessArgs(WitnessArgs(None, None, None))
         == [16, 0, 0, 0, 16, 0, 0, 0, 16, 0, 0, 0, 16, 0, 0, 0]
  {
    ThreeEmptyItems(WitnessArgsFields(WitnessArgs(None, None, None)));
  }

  /** The dynvec of three empty items. */
  lemma ThreeEmptyItems(f: seq<seq<byte>>)
    requires f == [[], [], []]
    ensures EncodeDynvec(f) == [16, 0, 0, 0, 16, 0, 0, 0, 16, 0, 0, 0, 16, 0, 0, 0]
  {
    var e: seq<byte> := [];
    Concat3(e, e, e);
    var r := EncodeDynvec(f);
    var word := U32Bytes(16);
    ThreeEmptyOffsets(f, word);
    assert r == r[0..4] + r[4..16] + r[16..];
    FourWords(word);
  }

  lemma FourWords(word: seq<byte>)
    requires word == U32Bytes(16)
    ensures word + (word + word + word) + [] == [16, 0, 0, 0, 16, 0, 0, 0, 16, 0, 0, 0, 16, 0, 0, 0]
  {
    SmallU32(16);
  }

  lemma ThreeEmptyOffsets(f: seq<seq<byte>>, word: seq<byte>)
    requires f == [[], [], []] && word == U32Bytes(16)
    ensures OffsetTable(f, 16) == word + word + word
  {
    var e: seq<byte> := [];
    var f1: seq<seq<byte>> := [e, e];
    var f2: seq<seq<byte>> := [e];
    assert f[1..] == f1 && f1[1..] == f2 && f2[1..] == [];
    assert OffsetTable(f2, 16) == word + OffsetTable([], 16) == word;
    assert OffsetTable(f1, 16) == word + OffsetTable(f2, 16);
    assert OffsetTable(f, 16) == word + OffsetTable(f1, 16);
  }

  /* ---------------------------------------------------------------------- */
  /* CellbaseWitness                                                         */
  /* ---------------------------------------------------------------------- */

  datatype CellbaseWitness = CellbaseWitness(lock: Script, message: seq<byte>)

  function CellbaseWitnessFields(c: CellbaseWitness): seq<seq<byte>>
  {
    [EncodeScript(c.lock), EncodeBytes(c.message)]
  }

  /** `CellbaseWitness::molecule`: a dynvec of lock script and message. */
  function EncodeCellbaseWitness(c: CellbaseWitness): (r: seq<byte>)
    ensures |r| == 12 + SCRIPT_MIN_SIZE + |c.lock.args| + 4 + |c.message|
  {
    var f := CellbaseWitnessFields(c);
    Concat2(f[0], f[1]);
    EncodeDynvec(f)
  }

  /** `CellbaseWitness::molecule_decode`. */
  function DecodeCellbaseWitness(data: seq<byte>): (r: Option<CellbaseWitness>)
    ensures DecodeDynvec(data).None? ==> r.None?
    ensures r.Some? ==> |DecodeDynvec(data).value| >= 2
  {
    var items :- DecodeDynvec(data);
    if |items| < 2 then None
    else
      var lock :- DecodeScript(items[0]);
      var message :- DecodeBytes(items[1]);
      Some(CellbaseWitness(lock, message))
  }

  lemma CellbaseWitnessRoundTrip(c: CellbaseWitness)
    requires |EncodeCellbaseWitness(c)| < WORD
    ensures DecodeCellbaseWitness(EncodeCellbaseWitness(c)) == Some(c)
  {
    var f := CellbaseWitnessFields(c);
    DynvecRoundTrip(f);
    ScriptRoundTrip(c.lock);
    BytesRoundTrip(c.message);
  }
}

=== FILE: transactions.dfy ===
/** Transactions of `src/conversion.rs`: the raw transaction and the signed
    transaction with its witnesses. */
module Transactions {

  import opened Options
  import opened LittleEndian
  import opened Molecule
  import opened Records

  /* ---------------------------------------------------------------------- */
  /* Field lists                                                             */
  /* ---------------------------------------------------------------------- */

  /** Cell deps, 37 bytes each, round-trip through a fixvec. */
  lemma CellDepsRoundTrip(xs: seq<CellDep>)
    requires |EncodeFixvec(MapSeq(xs, EncodeCellDep))| < WORD
    ensures DecodeFixvec(EncodeFixvec(MapSeq(xs, EncodeCellDep))) == Some(MapSeq(xs, EncodeCellDep))
    ensures DecodeAll(MapSeq(xs, EncodeCellDep), DecodeCellDep) == Some(xs)
  {
    forall i | 0 <= i < |xs|
      ensures |EncodeCellDep(xs[i])| == CELL_DEP_SIZE && DecodeCellDep(EncodeCellDep(xs[i])) == Some(xs[i])
    {
      CellDepRoundTrip(xs[i]);
    }
    FixvecOfRecords(xs, EncodeCellDep, DecodeCellDep, CELL_DEP_SIZE);
  }

  /** Header deps, 32-byte hashes, round-trip through a fixvec. */
  lemma HeaderDepsRoundTrip(xs: seq<Byte32>)
    requires |EncodeFixvec(MapSeq(xs, EncodeByte32))| < WORD
    ensures DecodeFixvec(EncodeFixvec(MapSeq(xs, EncodeByte32))) == Some(MapSeq(xs, EncodeByte32))
    ensures DecodeAll(MapSeq(xs, EncodeByte32), DecodeByte32) == Some(xs)
  {
    forall i | 0 <= i < |xs|
      ensures |EncodeByte32(xs[i])| == BYTE32_SIZE && DecodeByte32(EncodeByte32(xs[i])) == Some(xs[i])
    {
      ByteRoundTrip(0, xs[i]);
    }
    FixvecOfRecords(xs, EncodeByte32, DecodeByte32, BYTE32_SIZE);
  }

  /** Cell inputs, 44 bytes each, round-trip through a fixvec. */
  lemma InputsRoundTrip(xs: seq<CellInput>)
    requires |EncodeFixvec(MapSeq(xs, EncodeCellInput))| < WORD
    ensures DecodeFixvec(EncodeFixvec(MapSeq(xs, EncodeCellInput))) == Some(MapSeq(xs, EncodeCellInput))
    ensures DecodeAll(MapSeq(xs, EncodeCellInput), DecodeCellInput) == Some(xs)
  {
    forall i | 0 <= i < |xs|
      ensures |EncodeCellInput(xs[i])| == CELL_INPUT_SIZE && DecodeCellInput(EncodeCellInput(xs[i])) == Some(xs[i])
    {
      CellInputRoundTrip(xs[i]);
    }
    FixvecOfRecords(xs, EncodeCellInput, DecodeCellInput, CELL_INPUT_SIZE);
  }

  /** A non-empty list of cell outputs round-trips through a dynvec. */
  lemma OutputsRoundTrip(xs: seq<CellOutput>)
    requires |xs| > 0
    requires |EncodeDynvec(MapSeq(xs, EncodeCellOutput))| < WORD
    ensures DecodeDynvec(EncodeDynvec(MapSeq(xs, EncodeCellOutput))) == Some(MapSeq(xs, EncodeCellOutput))
    ensures DecodeAll(MapSeq(xs, EncodeCellOutput), DecodeCellOutput) == Some(xs)
  {
    forall i | 0 <= i < |xs| && |EncodeCellOutput(xs[i])| < WORD
      ensures DecodeCellOutput(EncodeCellOutput(xs[i])) == Some(xs[i])
    {
      CellOutputRoundTrip(xs[i]);
    }
    DynvecOfRecords(xs, EncodeCellOutput, DecodeCellOutput);
  }

  /** A non-empty list of byte strings round-trips as a dynvec of `Bytes`
      (the shape of `outputs_data` and of the witnesses). */
  lemma BytesListRoundTrip(xs: seq<seq<byte>>)
    requires |xs| > 0
    requires |EncodeDynvec(MapSeq(xs, EncodeBytes))| < WORD
    ensures DecodeDynvec(EncodeDynvec(MapSeq(xs, EncodeBytes))) == Some(MapSeq(xs, EncodeBytes))
    ensures DecodeAll(MapSeq(xs, EncodeBytes), DecodeBytes) == Some(xs)
  {
    forall i | 0 <= i < |xs| && |EncodeBytes(xs[i])| < WORD
      ensures DecodeBytes(EncodeBytes(xs[i])) == Some(xs[i])
    {
      BytesRoundTrip(xs[i]);
    }
    DynvecOfRecords(xs, EncodeBytes, DecodeBytes);
  }

  /* ---------------------------------------------------------------------- */
  /* RawTransaction                                                          */
  /* ---------------------------------------------------------------------- */

  datatype RawTransaction = RawTransaction(
    version: u32,
    cellDeps: seq<CellDep>,
    headerDeps: seq<Byte32>,
    inputs: seq<CellInput>,
    outputs: seq<CellOutput>,
    outputsData: seq<seq<byte>>)

  /** A six-item dynvec header (28 bytes), the version, three fixvec counts
      and two dynvec length words. */
  const RAW_TRANSACTION_MIN_SIZE: nat := 28 + U32_SIZE + 3 * 4 + 2 * 4

  function RawTransactionFields(t: RawTransaction): seq<seq<byte>>
  {
    [ EncodeU32(t.version),
      EncodeFixvec(MapSeq(t.cellDeps, EncodeCellDep)),
      EncodeFixvec(MapSeq(t.headerDeps, EncodeByte32)),
      EncodeFixvec(MapSeq(t.inputs, EncodeCellInput)),
      EncodeDynvec(MapSeq(t.outputs, EncodeCellOutput)),
      EncodeDynvec(MapSeq(t.outputsData, EncodeBytes)) ]
  }

  /** `RawTransaction::molecule`: a dynvec of version, three fixvecs (cell deps,
      header deps, inputs) and two dynvecs (outputs, outputs data). */
  function EncodeRawTransaction(t: RawTransaction): (r: seq<byte>)
    ensures |r| >= RAW_TRANSACTION_MIN_SIZE + CELL_DEP_SIZE * |t.cellDeps|
                  + BYTE32_SIZE * |t.headerDeps| + CELL_INPUT_SIZE * |t.inputs|
  {
    var f := RawTransactionFields(t);
    var r := EncodeDynvec(f);
    DynvecBody(f);
    ConcatLength(f);
    SumOfSix(Lengths(f));
    assert |f[4]| >= 4 && |f[5]| >= 4;
    ConcatLength(MapSeq(t.cellDeps, EncodeCellDep));
    ConcatUniformLength(MapSeq(t.cellDeps, EncodeCellDep), CELL_DEP_SIZE);
    ConcatLength(MapSeq(t.headerDeps, EncodeByte32));
    ConcatUniformLength(MapSeq(t.headerDeps, EncodeByte32), BYTE32_SIZE);
    ConcatLength(MapSeq(t.inputs, EncodeCellInput));
    ConcatUniformLength(MapSeq(t.inputs, EncodeCellInput), CELL_INPUT_SIZE);
    r
  }

  /** The sum of six numbers, spelled out. */
  lemma SumOfSix(ns: seq<nat>)
    requires |ns| == 6
    ensures Sum(ns) == ns[0] + ns[1] + ns[2] + ns[3] + ns[4] + ns[5]
  {
    var a := ns[1..];
    var b := a[1..];
    var c := b[1..];
    var d := c[1..];
    var e := d[1..];
    assert e[1..] == [];
    assert Sum(e) == e[0];
    assert Sum(d) == d[0] + Sum(e);
    assert Sum(c) == c[0] + Sum(d);
    assert Sum(b) == b[0] + Sum(c);
    assert Sum(a) == a[0] + Sum(b);
  }

  /** `RawTransaction::molecule_decode`: every field must decode, the record
      lists one by one; items past the sixth are ignored. */
  function DecodeRawTransaction(data: seq<byte>): (r: Option<RawTransaction>)
    ensures DecodeDynvec(data).None? ==> r.None?
    ensures r.Some? ==> |DecodeDynvec(data).value| >= 6
  {
    var items :- DecodeDynvec(data);
    RawTransactionOfItems(items)
  }

  /** The six raw-transaction fields, read from the items of its dynvec in
      order; items past the sixth are not looked at. */
  function RawTransactionOfItems(items: seq<seq<byte>>): (r: Option<RawTransaction>)
    ensures |items| < 6 ==> r.None?
    ensures |items| >= 6 && DecodeDynvec(items[4]).None? ==> r.None?
    ensures |items| >= 6 && DecodeDynvec(items[5]).None? ==> r.None?
  {
    if |items| < 6 then None
    else
      var version :- DecodeU32(items[0]);
      var cellDepParts :- DecodeFixvec(items[1]);
      var cellDeps :- DecodeAll(cellDepParts, DecodeCellDep);
      var headerDepParts :- DecodeFixvec(items[2]);
      var headerDeps :- DecodeAll(headerDepParts, DecodeByte32);
      var inputParts :- DecodeFixvec(items[3]);
      var inputs :- DecodeAll(inputParts, DecodeCellInput);
      var outputParts :- DecodeDynvec(items[4]);
      var outputs :- DecodeAll(outputParts, DecodeCellOutput);
      var dataParts :- DecodeDynvec(items[5]);
      var outputsData :- DecodeAll(dataParts, DecodeBytes);
      Some(RawTransaction(version, cellDeps, headerDeps, inputs, outputs, outputsData))
  }

  /** The raw transactions the decoder can read back: the two dynvec lists
      must not be empty, since an empty dynvec is rejected. */
  predicate RawTransactionDecodable(t: RawTransaction)
  {
    |t.outputs| > 0 && |t.outputsData| > 0
  }

  lemma RawTransactionRoundTrip(t: RawTransaction)
    requires RawTransactionDecodable(t)
    requires |EncodeRawTransaction(t)| < WORD
    ensures DecodeRawTransaction(EncodeRawTransaction(t)) == Some(t)
  {
    var f := RawTransactionFields(t);
    DynvecRoundTrip(f);
    DynvecItemShorter(f, 1);
    DynvecItemShorter(f, 2);
    DynvecItemShorter(f, 3);
    DynvecItemShorter(f, 4);
    DynvecItemShorter(f, 5);
    ScalarRoundTrip(t.version, 0, 0);
    CellDepsRoundTrip(t.cellDeps);
    HeaderDepsRoundTrip(t.headerDeps);
    InputsRoundTrip(t.inputs);
    OutputsRoundTrip(t.outputs);
    BytesListRoundTrip(t.outputsData);
  }

  /** A raw transaction without outputs is encoded but cannot be decoded: its
      outputs field is the four-byte empty dynvec. */
  lemma EmptyOutputsRejected(t: RawTransaction)
    requires |t.outputs| == 0
    requires |EncodeRawTransaction(t)| < WORD
    ensures DecodeRawTransaction(EncodeRawTransaction(t)) == None
  {
    var f := RawTransactionFields(t);
    DynvecRoundTrip(f);
    assert MapSeq(t.outputs, EncodeCellOutput) == [];
    EmptyDynvecRejected();
    RawTransactionNeedsOutputs(EncodeRawTransaction(t), f);
  }

  /** A buffer whose outputs item is not a dynvec does not decode. */
  lemma RawTransactionNeedsOutputs(data: seq<byte>, items: seq<seq<byte>>)
    requires DecodeDynvec(data) == Some(items) && |items| >= 6
    requires DecodeDynvec(items[4]).None?
    ensures DecodeRawTransaction(data).None?
  {
    assert DecodeRawTransaction(data) == RawTransactionOfItems(items);
  }

  /* ---------------------------------------------------------------------- */
  /* Transaction                                                             */
  /* ---------------------------------------------------------------------- */

  datatype Transaction = Transaction(raw: RawTransaction, witnesses: seq<seq<byte>>)

  function TransactionFields(t: Transaction): seq<seq<byte>>
  {
    [EncodeRawTransaction(t.raw), EncodeDynvec(MapSeq(t.witnesses, EncodeBytes))]
  }

  /** `Transaction::molecule`: a dynvec of the raw transaction and a dynvec of
      witness `Bytes`. */
  function EncodeTransaction(t: Transaction): (r: seq<byte>)
    ensures |r| == 12 + |EncodeRawTransaction(t.raw)| + |EncodeDynvec(MapSeq(t.witnesses, EncodeBytes))|
  {
    var f := TransactionFields(t);
    Concat2(f[0], f[1]);
    EncodeDynvec(f)
  }

  /** `Transaction::molecule_decode`. */
  function DecodeTransaction(data: seq<byte>): (r: Option<Transaction>)
    ensures DecodeDynvec(data).None? ==> r.None?
    ensures r.Some? ==> |DecodeDynvec(data).value| >= 2
  {
    var items :- DecodeDynvec(data);
    TransactionOfItems(items)
  }

  /** The raw transaction and the witnesses, read from the first two items of
      a transaction's dynvec. */
  function TransactionOfItems(items: seq<seq<byte>>): (r: Option<Transaction>)
    ensures |items| < 2 ==> r.None?
    ensures |items| >= 2 && DecodeDynvec(items[1]).None? ==> r.None?
  {
    if |items| < 2 then None
    else
      var raw :- DecodeRawTransaction(items[0]);
      var witnessParts :- DecodeDynvec(items[1]);
      var witnesses :- DecodeAll(witnessParts, DecodeBytes);
      Some(Transaction(raw, witnesses))
  }

  /** The transactions the decoder can read back: a decodable raw part and at
      least one witness. */
  predicate TransactionDecodable(t: Transaction)
  {
    RawTransactionDecodable(t.raw) && |t.witnesses| > 0
  }

  lemma TransactionRoundTrip(t: Transaction)
    requires TransactionDecodable(t)
    requires |EncodeTransaction(t)| < WORD
    ensures DecodeTransaction(EncodeTransaction(t)) == Some(t)
  {
    var f := TransactionFields(t);
    DynvecRoundTrip(f);
    DynvecItemShorter(f, 0);
    DynvecItemShorter(f, 1);
    RawTransactionRoundTrip(t.raw);
    BytesListRoundTrip(t.witnesses);
  }

  /** A transaction without witnesses cannot be decoded from its encoding. */
  lemma EmptyWitnessesRejected(t: Transaction)
    requires |t.witnesses| == 0
    requires |EncodeTransaction(t)| < WORD
    ensures DecodeTransaction(EncodeTransaction(t)) == None
  {
    var f := TransactionFields(t);
    DynvecRoundTrip(f);
    assert MapSeq(t.witnesses, EncodeBytes) == [];
    EmptyDynvecRejected();
    assert DecodeTransaction(EncodeTransaction(t)) == TransactionOfItems(f);
  }
}
